=== FILE: README.md ===
# RPG Maker MV tactics plugins, modelled in Dafny

This project models the rule logic of eight RPG Maker MV plugins that extend
the SRPG (tactical battle) engine and the menu system:

- **SRPG_AoE.js**: area-of-effect skills. It covers area shapes (circle, square, line, cone, split, arc, side, tee, plus, cross, star, checker), direction and distance on looping maps, a line-of-sight tracer over an occupant table, the tracing of an area into visible and blocked tiles, and the ordered queue of area targets an action works through.
- **SRPG_DirectionMod_SkillMastery.js**: facing rules and front/side/back attack classification, the directional damage and evasion modifiers, and turning the target to face its attacker.
- **SRPG_Cover_System.js**: cover from adjacent terrain, chosen as the best-aligned neighbour tile, and its bonuses to damage, hit and evasion.
- **Srpg_Range_Mastery.js**: skill ranges and areas raised by skill mastery, and weapon-derived ranges with state and armor bonuses.
- **SRPG_MovementLock_Traps.js**: terrain movement cost, remaining moves, temporary movement locks and their reset, and floor damage and traps triggered while a unit moves.
- **GridMenu.js**: a grid of icons gated by switches and variables, the cell mapping, cursor navigation, the mouse wheel, clicks, and help-text normalisation.
- **ActorSwitchPlugin.js**: one switch per actor or class, turned on exclusively, the active actor derived from the switches, and learning and forgetting skills for it.
- **SRPG_YanflyJP_Skill_Learn_Patch.js**: the job-point ledger. It covers JP gained in and out of battle, subclass JP, lost JP booked per actor and class and refunded later, and unlearning all skills of a class.

State the plugins change in place is modelled as classes: the map's occupant
table, the temporary area state, the grid window, the movement trackers,
actors and switches. Their methods are proved against specification
functions, and those functions carry the properties as lemmas. Note tags and
plugin parameters arrive already parsed. Engine services are parameters: the
terrain tag and region of a tile, the event list, and the random order.

## Model

| member | source | states |
|---|---|---|
| AoeShapes.ExtraAreas | SRPG_AoE.js:655-657 | The extension hook for further shapes accepts no tile |
| AoeShapes.InArea | SRPG_AoE.js:572-653 | Every accepted offset lies within the box of radius `size` |
| AoeShapes.OriginAcceptedIffNoMinimum | SRPG_AoE.js:580-651 | For a named shape with 0 <= minimum <= size, the centre tile is in the area exactly when the minimum is 0 |
| AoeShapes.EmptyShapeIsCircle | SRPG_AoE.js:580 | An empty shape name behaves as a circle |
| AoeShapes.UnknownShapeIsEmpty | SRPG_AoE.js:650-651 | An unknown shape name contains no tile |
| AoeShapes.CircleIsManhattanRing | SRPG_AoE.js:646-648 | A circle is the ring of tiles whose Manhattan distance lies between the minimum and the size |
| AoeShapes.SquareFillsBox | SRPG_AoE.js:641-644 | With no minimum, a square is the whole box of Chebyshev radius `size` |
| AoeShapes.CheckerIsEvenSquare | SRPG_AoE.js:635-639 | A checker is the square restricted to tiles of even coordinate sum |
| AoeShapes.StarIsPlusOrCross | SRPG_AoE.js:629-633 | A star is exactly the union of the plus and the cross |
| AoeShapes.TeeIsForwardPlus | SRPG_AoE.js:611-616 | A tee is the part of the plus that is not behind the caster |
| AoeShapes.ArcMirrorsSplit | SRPG_AoE.js:596-604 | An arc holds a tile exactly when the split holds the mirrored tile |
| AoeShapes.LineAndSplitWithinCone | SRPG_AoE.js:586-599 | Every tile of a line or a split is also a tile of the cone |
| AoeShapes.LineIsRay | SRPG_AoE.js:586-589 | For a cardinal facing, a line is the ray straight ahead, from the minimum to the size |
| AoeShapes.SideIsCrossRow | SRPG_AoE.js:606-609 | For a cardinal facing, a side area is the row across the facing, between the minimum and the size either way |
| AoeShapes.WrapOffsetShortest | SRPG_AoE.js:279-286 | On a looping axis the wrapped offset is at most half the axis length, and differs from the raw offset by 0 or one axis length |
| AoeShapes.DirTo | SRPG_AoE.js:273-294 | Direction 5 exactly for a zero offset; otherwise the cardinal direction along the longer axis, with ties going vertical |
| AoeShapes.DistTo | SRPG_AoE.js:297-305 | The distance never exceeds the Manhattan distance and equals it on a map that does not loop |
| AoeShapes.DistToSymmetric | SRPG_AoE.js:297-305 | The distance from a to b equals the distance from b to a |
| AoeShapes.CharacterInArea | SRPG_AoE.js:554-569 | A non-positive size excludes every unit; on a map that does not loop, the test equals the shape test of the offset |
| AoeLineOfSight.Occupant | SRPG_AoE.js:342-353 | An event's table type is its own kind; there is none exactly for erased events, other kinds, and objects without a graphic |
| AoeLineOfSight.TableKeepsUntouchedTiles | SRPG_AoE.js:338-356 | Building the table leaves tiles that no recorded event occupies unchanged |
| AoeLineOfSight.TableOnlyGrows | SRPG_AoE.js:338-356 | Building the table never removes a tile already in it |
| AoeLineOfSight.TableLastOccupantWins | SRPG_AoE.js:338-356 | A tile's entry is the type of the last recorded event standing on it |
| AoeLineOfSight.BlockingTypes | SRPG_AoE.js:381-415 | No action blocks nothing; otherwise object, player-event, friend and foe each block exactly as the skill tag or the global default says, with friend meaning actor unless the caster is an enemy |
| AoeLineOfSight.SightTerrainTag | SRPG_AoE.js:360-379 | A non-negative skill tag is the threshold; a negative one defers to the unit's tag; no tag gives the default |
| AoeLineOfSight.ErrorBounds | SRPG_AoE.js:436-457 | Whenever the error test moves an axis, that axis still has steps left, and each loop turn moves at least one axis |
| AoeLineOfSight.ArrivedIffDone | SRPG_AoE.js:434-458 | The tracer stands on the destination exactly when both axes have made all their steps |
| AoeLineOfSight.StepAdvances | SRPG_AoE.js:434-458 | Each turn of the loop advances at least one axis by one tile towards the destination |
| AoeLineOfSight.WalkHead | SRPG_AoE.js:434-458 | The tiles tested from a tracer state are its own tile followed by those tested from the next state |
| AoeLineOfSight.WalkFacts | SRPG_AoE.js:434-458 | The tiles tested all lie on the map, never include the destination, and number no more than the remaining steps |
| AoeLineOfSight.LineTilesShape | SRPG_AoE.js:418-458 | The tested tiles start at the source, never include the destination, stay on the map, and number no more than the two axis lengths together; a line to the same tile tests nothing |
| AoeLineOfSight.HigherThresholdKeepsSight | SRPG_AoE.js:419-442 | Raising the terrain threshold never removes sight |
| AoeLineOfSight.FewerBlockersKeepSight | SRPG_AoE.js:443 | Removing blocking types never removes sight |
| AoeLineOfSight.OffMapLinePlan | SRPG_AoE.js:420-433 | The line from (0,0) to (-2,0) on a 3x3 map that does not loop plans two steps left and none vertically |
| AoeLineOfSight.OffMapTracerCycles | SRPG_AoE.js:438-458 | As written, the tracer towards an off-map tile returns to its start state without arriving |
| AoeLineOfSight.AdvanceTracer | SRPG_AoE.js:445-457 | One loop turn computes exactly the specified tracer step, wrapping into the map |
| AoeLineOfSight.GameMap.constructor | SRPG_AoE.js:330-335 | A new map has the given layout and an empty occupant table |
| AoeLineOfSight.GameMap.MakeLoSTable | SRPG_AoE.js:338-356 | The new table is the old one updated by the events, in order |
| AoeLineOfSight.GameMap.HasAoeLoS | SRPG_AoE.js:418-461 | The result is the line-of-sight relation; its shape and monotonicity lemmas are stated above |
| AoeTargeting.SnapshotFromTrace | SRPG_AoE.js:743-770 | A snapshot whose lists split the accepted tiles of the box by sight is a traced area |
| AoeTargeting.TargetableIffSeen | SRPG_AoE.js:487-495 | In a traced area, a tile is targetable exactly when it is an area tile and the centre sees it |
| AoeTargeting.TraceArea | SRPG_AoE.js:741-770 | The visible and blocked lists are exactly the accepted tiles in the box, split by sight |
| AoeTargeting.InsertByPerm | SRPG_AoE.js:924-945 | Insertion adds exactly the one element |
| AoeTargeting.InsertBySorted | SRPG_AoE.js:924-945 | Insertion into a sorted list keeps it sorted |
| AoeTargeting.InsertByWithKey | SRPG_AoE.js:924-945 | Insertion keeps the relative order of equal keys, so the sort is stable |
| AoeTargeting.SortByFacts | SRPG_AoE.js:924-945 | The sort is sorted by key, a permutation, and stable |
| AoeTargeting.Candidates | SRPG_AoE.js:893-910 | No area gives no candidates; otherwise a unit is a candidate exactly when it is among the events and qualifies as friend or foe in the area |
| AoeTargeting.OrderExample | SRPG_AoE.js:926-950 | Ordering by a key sorts ascending, by the negated key descending, and the limit keeps the first entries |
| AoeTargeting.QueueFor | SRPG_AoE.js:953-958 | One queue entry per target, in order, each carrying the item |
| AoeTargeting.CanUse | SRPG_AoE.js:1008-1027 | Outside an SRPG area action the engine's rule decides; an AI that does not understand minimum areas may not use one with a hole outside the actor phase; otherwise, while an action is carried out, usable exactly when the target is in the area or the skill targets a cell, and in any other sub-phase the engine's rule decides |
| AoeTargeting.GameTemp.constructor | SRPG_AoE.js:470-475 | New temporary state has no area, no targets, and the cost flag set |
| AoeTargeting.GameTemp.ShowArea | SRPG_AoE.js:714-771 | Without a caster or an action the area and the table are unchanged; otherwise the table takes in the events, the snapshot holds the action's shape with the direction defaulting, when none is given, to the direction from the caster to the centre tile (`DirTo`), and it is the traced area; the target queue and cost flag never change |
| AoeTargeting.GameTemp.ClearArea | SRPG_AoE.js:774-776 | Clearing drops the area snapshot and keeps everything else |
| AoeTargeting.GameTemp.ClearAreaTargets | SRPG_AoE.js:498-500 | Clearing empties the target queue and keeps everything else |
| AoeTargeting.GameTemp.AddAreaTarget | SRPG_AoE.js:501-503 | Adding appends one target to the queue |
| AoeTargeting.GameTemp.SetShouldPayCost | SRPG_AoE.js:509-511 | The cost flag takes the given value |
| AoeTargeting.GameTemp.SelectArea | SRPG_AoE.js:881-961 | True exactly when a candidate exists, else the queue is empty; the queue is the sorted, truncated candidates, or a permutation of them for random order |
| AoeTargeting.GameTemp.TakeFirstTarget | SRPG_AoE.js:787-793 | Takes the queue's first target and leaves the rest; an empty queue gives nothing |
| AoeTargeting.GameTemp.AfterAction | SRPG_AoE.js:965-1001 | When the unit can act and an item target remains, the next target is taken and the cost is waived; otherwise the queue is emptied, the area ends and the cost flag is restored |
| AoeTargeting.InAreaAtIffSeen | SRPG_AoE.js:487-495 | Without a highlighted area no unit is in it; with one, a unit is in the area exactly when its tile is in the shape and the centre sees it |
| AoeTargeting.CostGatesAgree | SRPG_AoE.js:514-526 | Outside SRPG mode the item cost is always paid; in SRPG mode the cost and the action count are both gated by the pay-cost flag |
| AoeTargeting.ResolveAreaAction | SRPG_AoE.js:965-1001 | Working through the queue pays the cost exactly once and advances the action count exactly once, and hits between one and all queued targets (all of them when the unit can still act after every hit); at the end the queue is empty, the area cleared and the cost flag set |
| DirectionMod.FaceToward | SRPG_DirectionMod_SkillMastery.js:175-245 | The same tile keeps the facing; otherwise the cardinal direction along the longer axis; on an exact diagonal the axis of the target's facing, or the old facing against a non-cardinal target |
| DirectionMod.FacingIsUnique | SRPG_DirectionMod_SkillMastery.js:230-245 | Off the diagonals, the facing is the only cardinal direction pointing along the longer axis towards the target |
| DirectionMod.Classify | SRPG_DirectionMod_SkillMastery.js:246-289 | Against a cardinal target facing, back exactly when facing the same way and front exactly when facing opposite; side otherwise, and always side against a non-cardinal facing |
| DirectionMod.AttackDirectionFor | SRPG_DirectionMod_SkillMastery.js:174-300 | A skill tagged to ignore direction always counts as front |
| DirectionMod.FacingEachOtherIsFront | SRPG_DirectionMod_SkillMastery.js:246-289 | When the target already faces the attacker, the attack is from the front |
| DirectionMod.FacingAwayIsBack | SRPG_DirectionMod_SkillMastery.js:246-289 | When the target faces away from the attacker, the attack is from the back |
| DirectionMod.DiagonalIsNeverSide | SRPG_DirectionMod_SkillMastery.js:174-289 | A diagonal attack on a cardinal-facing target is never classified as side |
| DirectionMod.TurnedTargetFacesAttacker | SRPG_DirectionMod_SkillMastery.js:494-507 | After the target turns, the attacker's facing classifies as front |
| DirectionMod.DirectionalScale | SRPG_DirectionMod_SkillMastery.js:159-168 | Side and back hits are multiplied by their factors when the modifier applies; anything else is unchanged |
| DirectionMod.DirectionalEvasion | SRPG_DirectionMod_SkillMastery.js:349-370 | Evasion is unchanged when the modifier does not apply, zero for a certain hit, and otherwise scaled by the side or back factor |
| DirectionMod.UngatedIsUnmodified | SRPG_DirectionMod_SkillMastery.js:158-161 | For units of the same group, or an action whose subject is not the active unit, neither damage nor evasion changes with direction |
| DirectionMod.DirectionState.constructor | SRPG_DirectionMod_SkillMastery.js:78-81 | The recorded direction starts as front |
| DirectionMod.DirectionState.ResetAfterBattle | SRPG_DirectionMod_SkillMastery.js:547-550 | The recorded direction returns to front |
| DirectionMod.DirectionState.DecideAttackDirection | SRPG_DirectionMod_SkillMastery.js:174-300 | The attacker faces the target, and the recorded direction is the classification of the two facings |
| DirectionMod.DirectionState.PreBattleSetDirection | SRPG_DirectionMod_SkillMastery.js:376-508 | Records the same direction as the damage step, turns the attacker towards the target, then turns the target to face the attacker |
| DirectionMod.DirectionState.DirectionalDamage | SRPG_DirectionMod_SkillMastery.js:89-171 | Outside SRPG mode, or without both units, damage, facing and direction are unchanged; in the battle window the attacker turns toward the target and the direction is decided afresh, elsewhere both stay; damage is scaled by the recorded direction exactly when the subject is the active unit and the groups differ |
| Cover.CoverTable | SRPG_Cover_System.js:39-43 | Exactly regions 11 to 13 have cover, all with positive bonuses |
| Cover.CoverVec | SRPG_Cover_System.js:84 | The cover vector runs from the neighbour to the defender |
| Cover.CoverVecLength | SRPG_Cover_System.js:84-85 | A cover vector has squared length 1 or 2 |
| Cover.NonZeroNorm | SRPG_Cover_System.js:59-61 | An attacker on another tile gives a non-zero attack vector |
| Cover.BonusOf | SRPG_Cover_System.js:92-102 | The bonus is no cover or one of the three table entries |
| Cover.Chosen | SRPG_Cover_System.js:76-95 | The chosen neighbour, when there is one, is eligible |
| Cover.ChosenFrom | SRPG_Cover_System.js:76-95 | Continuing a valid partial scan ends in a valid complete scan |
| Cover.ChosenIsBest | SRPG_Cover_System.js:76-95 | No neighbour is chosen exactly when none is eligible; otherwise the chosen one is the best |
| Cover.BestIsUnique | SRPG_Cover_System.js:76-95 | There is at most one best neighbour |
| Cover.ScanIsDetermined | SRPG_Cover_System.js:76-95 | Two complete scans choose the same neighbour |
| Cover.CoverBonusAt | SRPG_Cover_System.js:58-103 | An attacker on the defender's tile gives no cover; otherwise the bonus is no cover or a table entry |
| Cover.ScanGivesBonus | SRPG_Cover_System.js:96-102 | A complete scan gives the specified bonus: none without a choice, else the chosen region's entry |
| Cover.CoverBonusIsBest | SRPG_Cover_System.js:76-102 | With no eligible neighbour there is no cover; otherwise the bonus is the best neighbour's |
| Cover.ExampleBetweenQualifies | SRPG_Cover_System.js:84-90 | A wall between an attacker straight north and the defender qualifies |
| Cover.ExampleBehindFails | SRPG_Cover_System.js:84-90 | A wall on the far side of the defender does not qualify |
| Cover.ExampleBesideFails | SRPG_Cover_System.js:84-90 | A wall at right angles to the line of attack does not qualify |
| Cover.ExampleDiagonalLoses | SRPG_Cover_System.js:84-90 | A qualifying diagonal wall loses to the straight one |
| Cover.ExampleTopScore | SRPG_Cover_System.js:84-90 | No neighbour scores above the wall straight in line |
| Cover.ExampleBest | SRPG_Cover_System.js:13-18 | With a cover region north of the defender, that wall is the best neighbour |
| Cover.ExampleBonus | SRPG_Cover_System.js:13-18 | An attacker at (5,0) against a defender at (5,5) behind a region-11 wall gets that region's bonus |
| Cover.GetCoverBonus | SRPG_Cover_System.js:58-103 | Computes exactly the specified bonus |
| Cover.ScanNeighbours | SRPG_Cover_System.js:76-95 | The loop ends in a complete scan and returns the chosen region's bonus |
| Cover.IsValidDestination | SRPG_Cover_System.js:167-175 | A cover tile is never a destination; any other tile defers to the engine |
| Cover.CoverModifiers | SRPG_Cover_System.js:107-163 | No cover changes nothing; for non-negative values cover lowers damage and hit without going negative and raises evasion |
| Cover.ApplyCover | SRPG_Cover_System.js:107-163 | Without both units nothing changes; otherwise all three values get the cover of the units' positions |
| RangeMastery.MasteryLevel | Srpg_Range_Mastery.js:126-128 | A skill's mastery is its recorded level, or 0 when none is recorded |
| RangeMastery.SkillRange | Srpg_Range_Mastery.js:36-47 | An untagged, unmodified skill has range 1 |
| RangeMastery.SkillAreaRange | Srpg_Range_Mastery.js:50-61 | An untagged, unmodified skill has area 0 |
| RangeMastery.AdjustedThreshold | Srpg_Range_Mastery.js:42-44 | The increase applies exactly from the required mastery on |
| RangeMastery.RangesMonotoneInMastery | Srpg_Range_Mastery.js:36-61 | With non-negative increases, more mastery never shrinks range or area |
| RangeMastery.HelpExample | Srpg_Range_Mastery.js:15-22 | The plugin's help example gives ranges 3 and 4 and areas 2 and 4 |
| RangeMastery.ActorRange | Srpg_Range_Mastery.js:64-88 | A missing skill has range 1; otherwise it has the mastery range, unless the skill is weapon-ranged and the actor is armed |
| RangeMastery.ActorStateBonusAdds | Srpg_Range_Mastery.js:68-86 | For an armed actor and a weapon-ranged skill, each state bonus adds exactly its amount |
| RangeMastery.EnemyRange | Srpg_Range_Mastery.js:97-116 | A missing skill has range 1 and a non-weapon skill the mastery range; there is no number exactly for an unarmed, untagged enemy |
| RangeMastery.AddBonuses | Srpg_Range_Mastery.js:68-86 | The loop adds every present bonus |
| RangeMastery.ActorSkillRange | Srpg_Range_Mastery.js:64-88 | Computes exactly the actor's specified range |
| RangeMastery.EnemySkillRange | Srpg_Range_Mastery.js:97-116 | Computes exactly the enemy's specified range |
| RangeMastery.UnitAreaRange | Srpg_Range_Mastery.js:91-94 | A missing skill has area 0 |
| RangeMastery.ActionArea | Srpg_Range_Mastery.js:152-158 | No item gives area 0; an item gives its mastery-adjusted area |
| RangeMastery.ActionMinArea | Srpg_Range_Mastery.js:161-164 | The minimum area is the item's tag, or 0 when it has none |
| MovementTraps.TileCost | SRPG_MovementLock_Traps.js:778-786 | A step costs 2 on terrain tag 4, 3 on tag 5, and 1 elsewhere |
| MovementTraps.StepShrinksChebyshev | SRPG_MovementLock_Traps.js:787-796 | Each diagonal-first step brings the unit one tile closer in Chebyshev distance |
| MovementTraps.MoveCostBounds | SRPG_MovementLock_Traps.js:787-796 | The path cost lies between the Chebyshev distance and three times it |
| MovementTraps.MoveCostZeroIff | SRPG_MovementLock_Traps.js:787-796 | The cost is zero exactly when origin and destination coincide |
| MovementTraps.WalkedDistance | SRPG_MovementLock_Traps.js:770-799 | Each position is read as (0, 0) when unset; the distance lies between the Chebyshev distance of the read positions and three times it, and is 0 exactly when they coincide |
| MovementTraps.ActorMoveDistance | SRPG_MovementLock_Traps.js:770-799 | The loop computes the specified distance, walking from (0, 0) when a position is unset |
| MovementTraps.UnsetOriginWalksFromZero | SRPG_MovementLock_Traps.js:517-534 | An unset original position is walked from (0, 0), and two unset positions give distance 0 |
| MovementTraps.UnsetOriginExample | SRPG_MovementLock_Traps.js:770-809 | On plain ground with the origin unset, a move to (3, 0) costs 3 and leaves 2 of 5 move points |
| MovementTraps.RemainingMoves | SRPG_MovementLock_Traps.js:802-809 | The remaining moves are the move minus the cost, floored at zero |
| MovementTraps.RemainingWithinMove | SRPG_MovementLock_Traps.js:802-809 | Moving never leaves more than the move; with a positive move, all of it is left exactly when the two read positions coincide |
| MovementTraps.MoveOf | SRPG_MovementLock_Traps.js:538-563 | The move is the base plus all bonuses, floored at zero |
| MovementTraps.SetTemporaryTakesEffect | SRPG_MovementLock_Traps.js:811-849 | As written, a lock sets the move to the locked value, floored at zero |
| MovementTraps.SetTemporaryKeepsBackup | SRPG_MovementLock_Traps.js:812-815 | As written, an existing backup is kept, and a missing one records the current move |
| MovementTraps.ResetIdempotent | SRPG_MovementLock_Traps.js:865-900 | As written, a reset without a backup changes nothing, and resetting twice equals resetting once |
| MovementTraps.ResetAfterSetOvercounts | SRPG_MovementLock_Traps.js:811-900 | As written, lock then reset counts the class, state and equipment bonuses twice |
| MovementTraps.OvercountExample | SRPG_MovementLock_Traps.js:811-900 | As written, a move of 5 (base 4, class +1) becomes 6 after lock and reset |
| MovementTraps.SecondLockLosesModifiers | SRPG_MovementLock_Traps.js:822-845 | As written, two locks before a reset lose the class bonus |
| MovementTraps.ResetRestoringUndoesLocks | SRPG_MovementLock_Traps.js:811-900 | Corrected: a reset after one lock or after two restores the record exactly, and a lock takes effect |
| MovementTraps.ResetRestoringIdempotent | SRPG_MovementLock_Traps.js:865-900 | Corrected: resetting twice equals resetting once |
| MovementTraps.MoveActor.SrpgMove | SRPG_MovementLock_Traps.js:538-563 | The loops compute the specified move |
| MovementTraps.MoveActor.CalculateRemainingMoves | SRPG_MovementLock_Traps.js:802-809 | Gives the specified remaining moves for the actor's move and the distance walked between the read positions |
| MovementTraps.MoveActor.SetTemporaryMoveRange | SRPG_MovementLock_Traps.js:811-849 | Applies the corrected lock, and the move becomes the locked value |
| MovementTraps.MoveActor.ResetMoveRange | SRPG_MovementLock_Traps.js:865-900 | Applies the corrected reset |
| MovementTraps.ResetParty | SRPG_MovementLock_Traps.js:902-911 | Every party member is reset |
| MovementTraps.NoCloseNoTeam | SRPG_MovementLock_Traps.js:137-148 | A note without `>` names no team |
| MovementTraps.TeamTagAtStart | SRPG_MovementLock_Traps.js:140 | A note starting with the team tag names that team |
| MovementTraps.ShouldTriggerForTeam | SRPG_MovementLock_Traps.js:137-148 | A skill is skipped exactly when its note names the other team |
| MovementTraps.FloorOutcome | SRPG_MovementLock_Traps.js:332-375 | Floor damage applies exactly on a new tile with a unit whose trigger flag matches, the right team, valid stats and a skill; the same tile twice is already applied |
| MovementTraps.FloorTeamGateNeverSkips | SRPG_MovementLock_Traps.js:370-375 | The team check reads the captured skill value, which is non-empty and has no `>` after its first character, so it never skips |
| MovementTraps.TrapRunProperties | SRPG_MovementLock_Traps.js:462-476 | Fired traps stand on the tile and have skills; the first differs from the last trap fired, no trap fires twice in a row, and the last fired is recorded |
| MovementTraps.Trackers.constructor | SRPG_MovementLock_Traps.js:7-11 | Trackers start empty |
| MovementTraps.Trackers.TriggerFloorDamage | SRPG_MovementLock_Traps.js:332-430 | Applies exactly when the specified outcome is applied, and records the tile only then |
| MovementTraps.Trackers.TriggerTrap | SRPG_MovementLock_Traps.js:233-319 | Fires exactly when the trap may fire, and records it only then |
| MovementTraps.Trackers.TrackMovement | SRPG_MovementLock_Traps.js:436-477 | The start tile or an already checked tile does nothing; otherwise floor damage and the traps run once and the tile is recorded |
| MovementTraps.Trackers.Update | SRPG_MovementLock_Traps.js:483-511 | No active unit clears every tracker but the last tile; otherwise the first position is remembered as the start, and the tile is skipped exactly when it is the start or the last tile still marked checked; otherwise it is recorded, floor damage and the traps run, and the floor tile is recorded when damage applied |
| MovementTraps.ReentryIsTrackedAgain | SRPG_MovementLock_Traps.js:483-511 | A unit going start, A, start, A is tracked on A again: the traps on A run a second time |
| MovementTraps.StandingStillTriggersOnce | SRPG_MovementLock_Traps.js:446-453 | A second update on the same tile triggers nothing |
| GridMenu.EvaluateIcon | GridMenu.js:540-581 | Hidden exactly when the switches hide it, locked exactly when the variables lock it, triggered exactly for a used single-use icon |
| GridMenu.NoSwitchesNeverHidden | GridMenu.js:545-556 | An icon with no switches is never hidden |
| GridMenu.LatchOnlyAffectsTriggered | GridMenu.js:540-581 | The single-use latch affects neither hiding nor activity, and reusable icons ignore it |
| GridMenu.Graphic | GridMenu.js:601-610 | Normal icons show their own graphic, inactive ones the locked graphic and triggered ones the triggered graphic, when set |
| GridMenu.SheetCornerRoundTrip | GridMenu.js:633-640 | The sheet corner lies in the 16-column sheet and maps back to the icon index |
| GridMenu.ItemRect | GridMenu.js:503-511 | A cell is one item square, and an index outside the list gives the origin |
| GridMenu.CellHit | GridMenu.js:503-511 | A point lies in an icon's cell exactly when its grid cell is the icon's position |
| GridMenu.FirstAt | GridMenu.js:699-733 | The first qualifying icon at a cell: it qualifies and no earlier one does |
| GridMenu.MappingWinner | GridMenu.js:699-733 | A cell is mapped exactly when a visible icon stands there, and a switch-gated icon wins over a plain one |
| GridMenu.MappedIconsAreVisible | GridMenu.js:699-733 | A mapped icon is visible and stands on its cell |
| GridMenu.WheelStaysInRange | GridMenu.js:792-806 | Scrolling keeps the origin within the scrollable range |
| GridMenu.ClickOutcomeOf | GridMenu.js:829-860 | A click runs the script exactly for an active icon that is not a used single-use one |
| GridMenu.SingleRunsOnce | GridMenu.js:831-856 | A used single-use icon never runs again |
| GridMenu.GridWindow.constructor | GridMenu.js:449-475 | The window's size follows the grid, the origin is zero, and the cursor starts on the first icon |
| GridMenu.GridWindow.GetCellMapping | GridMenu.js:699-733 | The loop builds the specified cell mapping |
| GridMenu.GridWindow.FindNextSelectableIndex | GridMenu.js:736-765 | Moves to the nearest icon in the direction, the first one on ties, or stays put when there is none |
| GridMenu.GridWindow.OnWheel | GridMenu.js:792-806 | Scrolls only when the contents overflow, and changes nothing else |
| GridMenu.GridWindow.ProcessMouseClick | GridMenu.js:809-865 | A click hits the icon mapped at the touched cell and runs it as specified; a used single-use icon is latched; a touch on a mapped cell inside an active window always clicks |
| GridMenu.ClickedCellIsUnique | GridMenu.js:820-862 | A point lies in a mapped icon's cell exactly when it falls on that cell |
| GridMenu.ReplaceCrLf | GridMenu.js:315 | Replacing line endings never lengthens the text |
| GridMenu.ReplaceBr | GridMenu.js:318 | Replacing `<br>` never lengthens the text and puts a newline where a tag started |
| GridMenu.NoBrRemains | GridMenu.js:318 | No `<br>` in any case remains after replacement |
| GridMenu.StripQuotes | GridMenu.js:321-325 | One pair of surrounding quotes is removed, and other text is unchanged |
| GridMenu.NormalizeDescription | GridMenu.js:311-330 | Normalising never lengthens the text |
| GridMenu.PlainTextUnchanged | GridMenu.js:314-325 | Text with no carriage return, no `<` and no surrounding quotes is unchanged |
| GridMenu.CrLfExample | GridMenu.js:315 | "a\r\nb" becomes "a\nb" |
| GridMenu.BrExample | GridMenu.js:318 | "a<BR>b" becomes "a\nb" |
| GridMenu.QuotesExample | GridMenu.js:321-325 | Only one layer of quotes is removed |
| ActorSwitch.Put | ActorSwitchPlugin.js:98-107 | Adding an entry keeps the table well-formed and maps the key to its switch |
| ActorSwitch.TableOf | ActorSwitchPlugin.js:93-109 | The table built from the parameters is well-formed |
| ActorSwitch.TableKeys | ActorSwitchPlugin.js:93-109 | An ID is in the table exactly when some usable entry names it |
| ActorSwitch.TableLastWins | ActorSwitchPlugin.js:93-109 | A repeated ID maps to the switch of its last entry |
| ActorSwitch.BuildTable | ActorSwitchPlugin.js:93-109 | The loop builds the specified table |
| ActorSwitch.GameSwitches.SetValue | ActorSwitchPlugin.js:121-126 | The switch takes the value, and no other switch changes |
| ActorSwitch.SelectIsExclusive | ActorSwitchPlugin.js:119-127 | After a selection exactly the selected key's switch is on among the table's switches, or none is for an unmapped key |
| ActorSwitch.SelectLeavesOthers | ActorSwitchPlugin.js:119-127 | Switches outside the table are untouched |
| ActorSwitch.SelectIdempotent | ActorSwitchPlugin.js:119-127 | Selecting twice equals selecting once |
| ActorSwitch.SelectExclusive | ActorSwitchPlugin.js:119-127 | The loop performs the specified selection |
| ActorSwitch.TurnOnActorSwitchByIndex | ActorSwitchPlugin.js:116-129 | Selects the party member's actor switch, or does nothing for an index outside the party |
| ActorSwitch.TurnOnClassSwitchByIndex | ActorSwitchPlugin.js:135-146 | Selects the party member's class switch, or does nothing for an index outside the party |
| ActorSwitch.FirstOn | ActorSwitchPlugin.js:153-158 | The first key in order whose switch is on, or none exactly when no switch is on |
| ActorSwitch.ActiveActorId | ActorSwitchPlugin.js:152-159 | The smallest actor ID whose switch is on, or none exactly when no actor switch is on |
| ActorSwitch.GetActiveActorId | ActorSwitchPlugin.js:152-159 | The loop finds the specified active actor |
| ActorSwitch.ActiveAfterSelect | ActorSwitchPlugin.js:116-159 | With one switch per actor, the selected actor becomes the active one |
| ActorSwitch.NoActiveAfterUnmappedSelect | ActorSwitchPlugin.js:116-159 | Selecting an unmapped actor leaves no active actor |
| ActorSwitch.SharedSwitchExample | ActorSwitchPlugin.js:116-159 | When two actors share a switch, selecting the second makes the first active |
| ActorSwitch.HasActorLearnt | ActorSwitchPlugin.js:176-191 | True exactly when there is an active actor and it knows the skill |
| ActorSwitch.ActorLearn | ActorSwitchPlugin.js:197-208 | Only the active actor learns the skill, and the result says whether there was one; no actor's JP, battle JP, class or subclass changes |
| ActorSwitch.ActorForget | ActorSwitchPlugin.js:214-225 | Only the active actor forgets the skill, and the result says whether there was one; no actor's JP, battle JP, class or subclass changes |
| Actors.Get | SRPG_YanflyJP_Skill_Learn_Patch.js:90 | A missing entry reads as 0 |
| Actors.AddTo | SRPG_YanflyJP_Skill_Learn_Patch.js:77-78 | Adds to exactly one entry and leaves the others unchanged |
| Actors.GameActor.SetJp | SRPG_YanflyJP_Skill_Learn_Patch.js:69 | Sets one class's JP and nothing else |
| Actors.GameActor.LearnSkill | ActorSwitchPlugin.js:203 | The skill list becomes the specified learned list, and nothing else changes |
| Actors.GameActor.ForgetSkill | ActorSwitchPlugin.js:220 | The skill list becomes the specified forgotten list, and nothing else changes |
| Actors.LearnProperties | ActorSwitchPlugin.js:203 | After learning the skill is known, no other skill changes, and the list stays free of duplicates |
| Actors.ForgetProperties | ActorSwitchPlugin.js:220 | After forgetting the skill is unknown and no other skill changes |
| Actors.ForgetUndoesLearn | ActorSwitchPlugin.js:203-220 | Forgetting a newly learned skill restores the list |
| JpLedger.FloorScaleIsFloor | SRPG_YanflyJP_Skill_Learn_Patch.js:60 | The scaled gain is the floor of value times rate |
| JpLedger.RoundScaleIsNearest | SRPG_YanflyJP_Skill_Learn_Patch.js:133 | The subclass share is value times rate rounded to the nearest integer, halves up |
| JpLedger.GainOutOfBattle | SRPG_YanflyJP_Skill_Learn_Patch.js:68-79 | Outside battle the scaled JP goes to the class and the spent ledger; a gain in the current class also pays the subclass its rounded share (on top, when subclass and class coincide); nothing else changes |
| JpLedger.GainInBattle | SRPG_YanflyJP_Skill_Learn_Patch.js:61-67 | In battle the scaled JP goes to the SRPG variable or to the battle pool, and nothing else changes |
| JpLedger.NonNumericGainsNothing | SRPG_YanflyJP_Skill_Learn_Patch.js:57-58 | A non-numeric gain changes nothing |
| JpLedger.LoseBooksLoss | SRPG_YanflyJP_Skill_Learn_Patch.js:87-94 | A loss lowers the class's JP and books the same amount as lost |
| JpLedger.RefundClearsEntry | SRPG_YanflyJP_Skill_Learn_Patch.js:97-103 | A refund clears the lost entry and no other |
| JpLedger.SecondRefundGainsNothing | SRPG_YanflyJP_Skill_Learn_Patch.js:97-103 | A second refund gains nothing |
| JpLedger.LoseThenRefundRestores | SRPG_YanflyJP_Skill_Learn_Patch.js:56-103 | Out of battle at rate 1, with an empty ledger entry and no JP-earning subclass equal to the target class, losing then refunding restores the class's JP and clears the entry |
| JpLedger.ForgetClassSkills | SRPG_YanflyJP_Skill_Learn_Patch.js:196-202 | Forgetting each learned class skill leaves exactly the skills not on the class's list |
| JpLedger.JpPatch.constructor | SRPG_YanflyJP_Skill_Learn_Patch.js:51-54 | The ledgers start empty |
| JpLedger.JpPatch.GainJp | SRPG_YanflyJP_Skill_Learn_Patch.js:56-80 | The state changes exactly as the specified gain |
| JpLedger.JpPatch.GainOutsideBattle | SRPG_YanflyJP_Skill_Learn_Patch.js:68-79 | Adds to the class, and adds the rounded share to the subclass when it earns one |
| JpLedger.JpPatch.LoseJp | SRPG_YanflyJP_Skill_Learn_Patch.js:87-94 | The state changes exactly as the specified loss |
| JpLedger.JpPatch.RefundLostJp | SRPG_YanflyJP_Skill_Learn_Patch.js:97-103 | The state changes exactly as the specified refund |
| JpLedger.LearnedSkillsForClass | SRPG_YanflyJP_Skill_Learn_Patch.js:138-149 | Lists the known skills that are on the class's list |
| JpLedger.UnlearnAllSkillsInClass | SRPG_YanflyJP_Skill_Learn_Patch.js:196-202 | Leaves exactly the skills not on the class's list, and JP is untouched |

## Left out

- Rendering, sound, window layout, logging, timers (`setTimeout`) and the engine's turn flow are not modelled. This includes `triggerAction`, `srpgInvokeAutoUnitAction`, `updateCallMenu`, `displayActorImageBySwitch`, the help and hover index, `ensureCursorVisible` and `partyMemberAction`/`updateJpDisplay`. Only their rule logic is.
- Script and condition strings run through `eval`/`new Function` are not modelled. Their outcome is a parameter.
- Floating-point arithmetic is modelled with exact integers or reals. Cover vectors use integer dot products. The grid cursor compares squared distances instead of square roots, which gives the same order. JP rates are exact rationals.
- The random target order is a parameter. Random selection promises only a permutation of the candidates.
- Mastery damage bonuses and the side/back modifiers read from note tags (SRPG_DirectionMod_SkillMastery.js:104-151) are not modelled. Those factors are parameters of DirectionalScale.
- An enemy's skill mastery is a parameter, since the plugin defines no lookup for it. The NaN an unarmed, untagged enemy gets is `None`.
- `Game_Enemy.srpgMove` in SRPG_MovementLock_Traps.js and `setTempMoveRangeToZero` are not modelled.
- Database meta objects shared between actors are per-actor fields here, so aliasing between actors is lost.
- The trap lookup of the no-trigger flag passes a note where a region ID is expected. Its result is the parameter `Trap.noTriggerOnly`.
- The map update's else branch keeps `lastTileKey`, as the code does.
- `battlersNear` and the other getters are not modelled.
- `Game_Temp.isSkillAoE` and the map-event suppression it guards while an area is being targeted (SRPG_AoE.js:675-677, 703-710) are scene control flow and are not modelled.
- ActorSwitch.ActiveActorId: walks the IDs in ascending order. JavaScript enumerates integer keys the same way, but negative IDs would come later there. Negative IDs are not modelled.
- `Game_Switches.setValue`'s range check on switch IDs is not modelled.
- The engine's `learnSkill` and `forgetSkill` are stood in for by Learn (append if absent) and Forget (remove the first occurrence). The engine's sort and traits are not modelled.
- Yanfly's `setJp` stores the value as given; its clamping is not modelled.
- A `loseJp` value is taken to be a number.
- The ledgers' string key `actorId_classId` is a pair. The nested dictionaries are one map keyed by pairs.
- AoeShapes.DistTo: equals the Manhattan distance only on maps that do not loop; on looping maps only the upper bound is stated.
- AoeShapes.CharacterInArea: equals the shape test of the offset only on maps that do not loop.
- AoeTargeting.GameTemp.SelectArea: for random order, states only that the queue is a permutation of the candidates.
- JpLedger.LoseThenRefundRestores: requires the ledger entry to be 0 beforehand, because a refund pays out the whole accumulated entry; and requires that no JP-earning subclass equals the target class, because then the refund also pays the rounded subclass share on top (SRPG_YanflyJP_Skill_Learn_Patch.js:68-79) and the class ends above its old JP.
- AoeLineOfSight.GameMap.HasAoeLoS: gives no sight when either end is off the map, instead of the loop that never ends (see Findings).

## Findings

| source | as written | input that shows it | evidently intended | confidence | as-written member | corrected member |
|---|---|---|---|---|---|---|
| SRPG_AoE.js:438-458 | The tracer loop stops only on the destination tile but wraps every coordinate into the map | On a 3x3 map that does not loop, a line from (0,0) to (-2,0) visits (2,0), (1,0), (0,0) and repeats forever | The loop ends, and an off-map tile has no sight | not executed | AoeLineOfSight.OffMapTracerCycles | AoeLineOfSight.GameMap.HasAoeLoS |
| SRPG_MovementLock_Traps.js:811-900 | The lock backs up the full move, and the reset writes it back as the base tag while restoring the bonuses on top | Base 4, class bonus +1 (move 5): lock, then reset, gives move 6 | The reset restores move 5 | not executed | MovementTraps.OvercountExample | MovementTraps.ResetRestoringUndoesLocks |

=== FILE: actor_switch.dfy ===
/**
 * ActorSwitchPlugin: two tables map actor IDs and class IDs to game
 * switches. Selecting a party member turns every mapped switch off and the
 * member's own switch on; the "active actor" is the first mapped actor, in
 * ascending ID order, whose switch is on, and the skill commands act on
 * that actor.
 */
module ActorSwitch {
  import opened Common
  import opened Actors

  /** One parameter entry: the actor (or class) ID and the switch ID, None where the text is not a number. */
  datatype Entry = Entry(id: Option<int>, switchId: Option<int>)

  predicate Usable(e: Entry)
  {
    e.id.Some? && e.switchId.Some?
  }

  /**
   * A switch table: the switch of each ID, and the IDs in the order a
   * script object with integer keys enumerates them (ascending).
   */
  datatype Table = Table(keys: seq<int>, switchOf: map<int, int>)

  predicate Ascending(s: seq<int>)
  {
    forall i, j :: 0 <= i < j < |s| ==> s[i] < s[j]
  }

  predicate Valid(t: Table)
  {
    && Ascending(t.keys)
    && (forall i :: 0 <= i < |t.keys| ==> t.keys[i] in t.switchOf)
    && (forall k :: k in t.switchOf ==> k in t.keys)
  }

  /** `keys` with `k` inserted at its place in ascending order. */
  function InsertKey(keys: seq<int>, k: int): (r: seq<int>)
    requires Ascending(keys) && k !in keys
    ensures Ascending(r)
    ensures forall x :: x in r <==> x in keys || x == k
  {
    if |keys| == 0 then [k]
    else if k < keys[0] then [k] + keys
    else
      var rest := InsertKey(keys[1..], k);
      assert forall x :: x in rest ==> keys[0] < x by {
        forall x | x in rest
          ensures keys[0] < x
        {
          if x != k {
            var j :| 0 <= j < |keys[1..]| && keys[1..][j] == x;
            assert keys[j + 1] == x;
          }
        }
      }
      var r := [keys[0]] + rest;
      assert Ascending(r) by {
        forall i, j | 0 <= i < j < |r|
          ensures r[i] < r[j]
        {
          assert r[j] == rest[j - 1] && rest[j - 1] in rest;
          if i > 0 {
            assert r[i] == rest[i - 1];
          }
        }
      }
      assert keys == [keys[0]] + keys[1..];
      r
  }

  /** The table after the assignment `table[k] = v`: a new ID takes its place among the keys. */
  function Put(t: Table, k: int, v: int): (r: Table)
    requires Valid(t)
    ensures Valid(r) && r.switchOf == t.switchOf[k := v]
  {
    if k in t.switchOf then Table(t.keys, t.switchOf[k := v])
    else
      var keys := InsertKey(t.keys, k);
      assert forall i :: 0 <= i < |keys| ==> keys[i] in t.switchOf[k := v] by {
        forall i | 0 <= i < |keys|
          ensures keys[i] in t.switchOf[k := v]
        {
          assert keys[i] in keys;
        }
      }
      Table(keys, t.switchOf[k := v])
  }

  /** The table the entries describe: unusable entries skipped, a later entry for an ID replacing an earlier one. */
  function TableOf(entries: seq<Entry>): (t: Table)
    ensures Valid(t)
  {
    if |entries| == 0 then Table([], map[])
    else
      var t := TableOf(entries[..|entries| - 1]);
      var e := entries[|entries| - 1];
      if Usable(e) then Put(t, e.id.value, e.switchId.value) else t
  }

  /** An ID is in the table exactly when some usable entry names it. */
  lemma {:induction false} TableKeys(entries: seq<Entry>, k: int)
    ensures k in TableOf(entries).switchOf <==>
            exists i :: 0 <= i < |entries| && Usable(entries[i]) && entries[i].id == Some(k)
  {
    if |entries| > 0 {
      var init := entries[..|entries| - 1];
      TableKeys(init, k);
      if k in TableOf(init).switchOf {
        var i :| 0 <= i < |init| && Usable(init[i]) && init[i].id == Some(k);
        assert entries[i] == init[i];
      }
      if exists i :: 0 <= i < |entries| && Usable(entries[i]) && entries[i].id == Some(k) {
        var i :| 0 <= i < |entries| && Usable(entries[i]) && entries[i].id == Some(k);
        if i < |init| {
          assert init[i] == entries[i];
        }
      }
    }
  }

  /** The last usable entry for an ID decides its switch. */
  lemma {:induction false} TableLastWins(entries: seq<Entry>, i: int)
    requires 0 <= i < |entries| && Usable(entries[i])
    requires forall j :: i < j < |entries| ==> !Usable(entries[j]) || entries[j].id != entries[i].id
    ensures entries[i].id.value in TableOf(entries).switchOf
    ensures TableOf(entries).switchOf[entries[i].id.value] == entries[i].switchId.value
  {
    if i < |entries| - 1 {
      var init := entries[..|entries| - 1];
      assert init[i] == entries[i];
      TableLastWins(init, i);
    }
  }

  /** Reads the parameter entries into a table, one entry at a time. */
  method BuildTable(entries: seq<Entry>) returns (table: Table)
    ensures table == TableOf(entries)
  {
    table := Table([], map[]);
    var n := 0;
    while n < |entries|
      invariant 0 <= n <= |entries|
      invariant table == TableOf(entries[..n])
    {
      assert entries[..n + 1][..n] == entries[..n];
      var e := entries[n];
      if e.id.Some? && e.switchId.Some? {
        table := Put(table, e.id.value, e.switchId.value);
      }
      n := n + 1;
    }
    assert entries[..|entries|] == entries;
  }

  /** The game's switches, represented by the set of those that are on. */
  class GameSwitches {
    var on: set<int>

    constructor ()
      ensures on == {}
    {
      on := {};
    }

    function Value(id: int): bool
      reads this
    {
      id in on
    }

    method SetValue(id: int, v: bool)
      modifies this
      ensures on == if v then old(on) + {id} else old(on) - {id}
    {
      if v {
        on := on + {id};
      } else {
        on := on - {id};
      }
    }
  }

  /** The switches a table mentions. */
  function Switches(t: Table): set<int>
  {
    set k | k in t.switchOf :: t.switchOf[k]
  }

  /** The switches after selecting `key`: every switch of the table off, then the switch of `key` on when mapped. */
  function AfterSelect(on: set<int>, t: Table, key: int): set<int>
  {
    (on - Switches(t)) + (if key in t.switchOf then {t.switchOf[key]} else {})
  }

  /** Of the table's switches, only the selected key's is on afterwards, and none when the key is unmapped. */
  lemma SelectIsExclusive(on: set<int>, t: Table, key: int)
    ensures key in t.switchOf ==> AfterSelect(on, t, key) * Switches(t) == {t.switchOf[key]}
    ensures key !in t.switchOf ==> AfterSelect(on, t, key) * Switches(t) == {}
  {
  }

  /** Switches the table does not mention keep their value. */
  lemma SelectLeavesOthers(on: set<int>, t: Table, key: int, s: int)
    requires s !in Switches(t)
    ensures s in AfterSelect(on, t, key) <==> s in on
  {
  }

  /** Selecting the same key twice is the same as selecting it once. */
  lemma SelectIdempotent(on: set<int>, t: Table, key: int)
    ensures AfterSelect(AfterSelect(on, t, key), t, key) == AfterSelect(on, t, key)
  {
  }

  /** Selects `key` in the table: turns every mapped switch off, in key order, then the key's own switch on. */
  method SelectExclusive(sw: GameSwitches, t: Table, key: int)
    requires Valid(t)
    modifies sw
    ensures sw.on == AfterSelect(old(sw.on), t, key)
  {
    var i := 0;
    while i < |t.keys|
      invariant 0 <= i <= |t.keys|
      invariant sw.on == old(sw.on) - set j | 0 <= j < i :: t.switchOf[t.keys[j]]
    {
      sw.SetValue(t.switchOf[t.keys[i]], false);
      i := i + 1;
    }
    ghost var visited := set j | 0 <= j < |t.keys| :: t.switchOf[t.keys[j]];
    forall v | v in Switches(t)
      ensures v in visited
    {
      var k :| k in t.switchOf && t.switchOf[k] == v;
      var j :| 0 <= j < |t.keys| && t.keys[j] == k;
    }
    forall v | v in visited
      ensures v in Switches(t)
    {
      var j :| 0 <= j < |t.keys| && t.switchOf[t.keys[j]] == v;
      assert t.keys[j] in t.switchOf;
    }
    assert visited == Switches(t);
    if key in t.switchOf {
      sw.SetValue(t.switchOf[key], true);
    }
  }

  /** Selects the actor at `partyIndex` in the actor table; does nothing when there is no member there. */
  method TurnOnActorSwitchByIndex(sw: GameSwitches, actorSwitches: Table, members: seq<GameActor>, partyIndex: int)
    requires Valid(actorSwitches)
    modifies sw
    ensures !(0 <= partyIndex < |members|) ==> sw.on == old(sw.on)
    ensures 0 <= partyIndex < |members| ==>
            sw.on == AfterSelect(old(sw.on), actorSwitches, members[partyIndex].actorId)
  {
    if 0 <= partyIndex < |members| {
      SelectExclusive(sw, actorSwitches, members[partyIndex].actorId);
    }
  }

  /** Selects the class of the member at `partyIndex` in the class table; does nothing when there is no member there. */
  method TurnOnClassSwitchByIndex(sw: GameSwitches, classSwitches: Table, members: seq<GameActor>, partyIndex: int)
    requires Valid(classSwitches)
    modifies sw
    ensures !(0 <= partyIndex < |members|) ==> sw.on == old(sw.on)
    ensures 0 <= partyIndex < |members| ==>
            sw.on == AfterSelect(old(sw.on), classSwitches, members[partyIndex].classId)
  {
    if 0 <= partyIndex < |members| {
      SelectExclusive(sw, classSwitches, members[partyIndex].classId);
    }
  }

  /** The first key, in the given order, whose switch is on. */
  function FirstOn(keys: seq<int>, m: map<int, int>, on: set<int>): (r: Option<int>)
    requires forall i :: 0 <= i < |keys| ==> keys[i] in m
    ensures r.Some? ==> r.value in m && m[r.value] in on
    ensures r.Some? ==> exists i :: 0 <= i < |keys| && keys[i] == r.value &&
                                    forall j :: 0 <= j < i ==> m[keys[j]] !in on
    ensures r.None? <==> forall i :: 0 <= i < |keys| ==> m[keys[i]] !in on
  {
    if |keys| == 0 then None
    else if m[keys[0]] in on then Some(keys[0])
    else
      var r := FirstOn(keys[1..], m, on);
      assert r.Some? ==> exists i :: 0 <= i < |keys| && keys[i] == r.value &&
                                     forall j :: 0 <= j < i ==> m[keys[j]] !in on by {
        if r.Some? {
          var i :| 0 <= i < |keys[1..]| && keys[1..][i] == r.value &&
                   forall j :: 0 <= j < i ==> m[keys[1..][j]] !in on;
          assert keys[i + 1] == r.value;
          forall j | 0 <= j < i + 1
            ensures m[keys[j]] !in on
          {
            if j > 0 {
              assert keys[j] == keys[1..][j - 1];
            }
          }
        }
      }
      assert r.None? ==> forall i :: 0 <= i < |keys| ==> m[keys[i]] !in on by {
        if r.None? {
          forall i | 0 <= i < |keys|
            ensures m[keys[i]] !in on
          {
            if i > 0 {
              assert keys[i] == keys[1..][i - 1];
            }
          }
        }
      }
      r
  }

  /** The active actor: the least mapped actor ID whose switch is on, if any. */
  function ActiveActorId(t: Table, on: set<int>): (r: Option<int>)
    requires Valid(t)
    ensures r.Some? ==> r.value in t.switchOf && t.switchOf[r.value] in on
    ensures r.Some? ==> forall k :: k in t.switchOf && k < r.value ==> t.switchOf[k] !in on
    ensures r.None? <==> forall k :: k in t.switchOf ==> t.switchOf[k] !in on
  {
    var r := FirstOn(t.keys, t.switchOf, on);
    assert r.Some? ==> forall k :: k in t.switchOf && k < r.value ==> t.switchOf[k] !in on by {
      if r.Some? {
        var i :| 0 <= i < |t.keys| && t.keys[i] == r.value &&
                 forall j :: 0 <= j < i ==> t.switchOf[t.keys[j]] !in on;
        forall k | k in t.switchOf && k < r.value
          ensures t.switchOf[k] !in on
        {
          var j :| 0 <= j < |t.keys| && t.keys[j] == k;
          assert j < i;
        }
      }
    }
    assert r.None? ==> forall k :: k in t.switchOf ==> t.switchOf[k] !in on by {
      if r.None? {
        forall k | k in t.switchOf
          ensures t.switchOf[k] !in on
        {
          var j :| 0 <= j < |t.keys| && t.keys[j] == k;
        }
      }
    }
    r
  }

  /** Scans the table in key order and returns the first actor whose switch is on. */
  method GetActiveActorId(sw: GameSwitches, t: Table) returns (r: Option<int>)
    requires Valid(t)
    ensures r == ActiveActorId(t, sw.on)
  {
    var i := 0;
    while i < |t.keys|
      invariant 0 <= i <= |t.keys|
      invariant FirstOn(t.keys[i..], t.switchOf, sw.on) == FirstOn(t.keys, t.switchOf, sw.on)
    {
      if sw.Value(t.switchOf[t.keys[i]]) {
        return Some(t.keys[i]);
      }
      assert t.keys[i..][1..] == t.keys[i + 1..];
      i := i + 1;
    }
    return None;
  }

  /** Distinct IDs have distinct switches. */
  predicate Injective(t: Table)
  {
    forall a, b :: a in t.switchOf && b in t.switchOf && a != b ==> t.switchOf[a] != t.switchOf[b]
  }

  /** After selecting a mapped actor, with distinct switches per actor, that actor is the active one. */
  lemma ActiveAfterSelect(t: Table, on: set<int>, key: int)
    requires Valid(t) && Injective(t) && key in t.switchOf
    ensures ActiveActorId(t, AfterSelect(on, t, key)) == Some(key)
  {
    var after := AfterSelect(on, t, key);
    forall k | k in t.switchOf
      ensures t.switchOf[k] in after <==> k == key
    {
      assert t.switchOf[k] in Switches(t);
    }
  }

  /** After selecting an unmapped actor no actor is active. */
  lemma NoActiveAfterUnmappedSelect(t: Table, on: set<int>, key: int)
    requires Valid(t) && key !in t.switchOf
    ensures ActiveActorId(t, AfterSelect(on, t, key)) == None
  {
    var after := AfterSelect(on, t, key);
    forall k | k in t.switchOf
      ensures t.switchOf[k] !in after
    {
      assert t.switchOf[k] in Switches(t);
    }
  }

  /** Two actors sharing a switch: selecting the one with the larger ID makes the smaller one active. */
  lemma SharedSwitchExample(t: Table)
    requires t == Table([1, 2], map[1 := 10, 2 := 10])
    ensures ActiveActorId(t, AfterSelect({}, t, 2)) == Some(1)
  {
    assert t.switchOf[1] == 10 && t.switchOf[2] == 10;
    assert Switches(t) == {10};
    assert AfterSelect({}, t, 2) == {10};
  }

  /** The actor the skill commands act on: the active actor, when it exists in the actor registry. */
  ghost function ActiveActor(table: Table, on: set<int>, actors: map<int, GameActor>): Option<GameActor>
    requires Valid(table)
  {
    var id := ActiveActorId(table, on);
    if id.Some? && id.value in actors then Some(actors[id.value]) else None
  }

  /** Whether the active actor knows the skill: false when there is no active or no existing actor. */
  method HasActorLearnt(sw: GameSwitches, table: Table, actors: map<int, GameActor>, skillId: int)
    returns (r: bool)
    requires Valid(table)
    ensures r <==> ActiveActor(table, sw.on, actors).Some? && skillId in ActiveActor(table, sw.on, actors).value.skills
  {
    var actorId := GetActiveActorId(sw, table);
    if actorId.Some? && actorId.value in actors {
      var actor := actors[actorId.value];
      var skills := actor.skills;
      var i := 0;
      while i < |skills|
        invariant 0 <= i <= |skills|
        invariant skillId !in skills[..i]
      {
        if skills[i] == skillId {
          return true;
        }
        i := i + 1;
      }
      assert skills[..|skills|] == skills;
    }
    return false;
  }

  /** Teaches the skill to the active actor; false, with nothing changed, when there is no such actor. */
  method ActorLearn(sw: GameSwitches, table: Table, actors: map<int, GameActor>, skillId: int)
    returns (r: bool)
    requires Valid(table)
    modifies actors.Values
    ensures r <==> ActiveActor(table, sw.on, actors).Some?
    ensures r ==> ActiveActor(table, sw.on, actors).value.skills ==
                  Learn(old(ActiveActor(table, sw.on, actors).value.skills), skillId)
    ensures forall a :: a in actors.Values && (!r || a != ActiveActor(table, sw.on, actors).value) ==>
                        a.skills == old(a.skills)
    ensures forall a :: a in actors.Values ==>
                        a.jp == old(a.jp) && a.battleJp == old(a.battleJp)
                        && a.classId == old(a.classId) && a.subclassId == old(a.subclassId)
  {
    var actorId := GetActiveActorId(sw, table);
    if actorId.Some? && actorId.value in actors {
      var actor := actors[actorId.value];
      actor.LearnSkill(skillId);
      return true;
    }
    return false;
  }

  /** Makes the active actor forget the skill; false, with nothing changed, when there is no such actor. */
  method ActorForget(sw: GameSwitches, table: Table, actors: map<int, GameActor>, skillId: int)
    returns (r: bool)
    requires Valid(table)
    modifies actors.Values
    ensures r <==> ActiveActor(table, sw.on, actors).Some?
    ensures r ==> ActiveActor(table, sw.on, actors).value.skills ==
                  Forget(old(ActiveActor(table, sw.on, actors).value.skills), skillId)
    ensures forall a :: a in actors.Values && (!r || a != ActiveActor(table, sw.on, actors).value) ==>
                        a.skills == old(a.skills)
    ensures forall a :: a in actors.Values ==>
                        a.jp == old(a.jp) && a.battleJp == old(a.battleJp)
                        && a.classId == old(a.classId) && a.subclassId == old(a.subclassId)
  {
    var actorId := GetActiveActorId(sw, table);
    if actorId.Some? && actorId.value in actors {
      var actor := actors[actorId.value];
      actor.ForgetSkill(skillId);
      return true;
    }
    return false;
  }
}

=== FILE: actors.dfy ===
/**
 * The engine's actor, as far as the plugins use it: its IDs, its learned
 * skills and the job points it holds per class. Learning and forgetting a
 * skill, and storing job points, stand in for the engine's own methods.
 */
module Actors {
  import opened Common

  /** Value stored under `k`, 0 when nothing is stored (the `x[k] || 0` idiom). */
  function Get<K>(m: map<K, int>, k: K): (r: int)
    ensures k in m ==> r == m[k]
    ensures k !in m ==> r == 0
  {
    if k in m then m[k] else 0
  }

  /** `m` with `v` added to the value stored under `k`. */
  function AddTo<K(!new)>(m: map<K, int>, k: K, v: int): (r: map<K, int>)
    ensures Get(r, k) == Get(m, k) + v
    ensures forall j :: j != k ==> Get(r, j) == Get(m, j)
    ensures r.Keys == m.Keys + {k}
  {
    m[k := Get(m, k) + v]
  }

  class GameActor {
    const actorId: int
    var classId: int
    var subclassId: Option<int>
    var skills: seq<int>
    var jp: map<int, int>
    var battleJp: int

    constructor (actorId: int, classId: int, skills: seq<int>)
      ensures this.actorId == actorId && this.classId == classId && this.skills == skills
      ensures subclassId.None? && jp == map[] && battleJp == 0
    {
      this.actorId := actorId;
      this.classId := classId;
      this.subclassId := None;
      this.skills := skills;
      this.jp := map[];
      this.battleJp := 0;
    }

    /** The job points held for a class, 0 when none are recorded. */
    function Jp(c: int): int
      reads this
    {
      Get(jp, c)
    }

    method SetJp(value: int, c: int)
      modifies this
      ensures jp == old(jp)[c := value]
      ensures skills == old(skills) && battleJp == old(battleJp) && classId == old(classId) && subclassId == old(subclassId)
    {
      jp := jp[c := value];
    }

    method LearnSkill(skillId: int)
      modifies this
      ensures skills == Learn(old(skills), skillId)
      ensures jp == old(jp) && battleJp == old(battleJp) && classId == old(classId) && subclassId == old(subclassId)
    {
      if skillId !in skills {
        skills := skills + [skillId];
      }
    }

    method ForgetSkill(skillId: int)
      modifies this
      ensures skills == Forget(old(skills), skillId)
      ensures jp == old(jp) && battleJp == old(battleJp) && classId == old(classId) && subclassId == old(subclassId)
    {
      skills := Forget(skills, skillId);
    }
  }

  /** The skill list after learning `skillId`: appended when absent. */
  function Learn(skills: seq<int>, skillId: int): seq<int>
  {
    if skillId in skills then skills else skills + [skillId]
  }

  /** The skill list after forgetting `skillId`: its first occurrence removed. */
  function Forget(skills: seq<int>, skillId: int): seq<int>
  {
    if |skills| == 0 then []
    else if skills[0] == skillId then skills[1..]
    else [skills[0]] + Forget(skills[1..], skillId)
  }

  predicate NoDuplicates(s: seq<int>)
  {
    forall i, j :: 0 <= i < j < |s| ==> s[i] != s[j]
  }

  /** Learning makes the skill known, keeps every other skill, and never duplicates one. */
  lemma LearnProperties(skills: seq<int>, skillId: int)
    ensures skillId in Learn(skills, skillId)
    ensures forall x :: x != skillId ==> (x in Learn(skills, skillId) <==> x in skills)
    ensures NoDuplicates(skills) ==> NoDuplicates(Learn(skills, skillId))
  {
  }

  /** In a list without duplicates, forgetting removes exactly the forgotten skill. */
  lemma {:induction false} ForgetProperties(skills: seq<int>, skillId: int)
    requires NoDuplicates(skills)
    ensures skillId !in Forget(skills, skillId)
    ensures forall x :: x != skillId ==> (x in Forget(skills, skillId) <==> x in skills)
    ensures NoDuplicates(Forget(skills, skillId))
  {
    if |skills| > 0 && skills[0] != skillId {
      ForgetProperties(skills[1..], skillId);
      var rest := Forget(skills[1..], skillId);
      assert skills[0] !in skills[1..];
      assert skills[0] !in rest;
      forall i, j | 0 <= i < j < |[skills[0]] + rest|
        ensures ([skills[0]] + rest)[i] != ([skills[0]] + rest)[j]
      {
        if i > 0 {
          assert rest[i - 1] == ([skills[0]] + rest)[i];
        }
      }
    } else if |skills| > 0 {
      assert skills[0] !in skills[1..];
      forall x | x != skillId
        ensures x in skills[1..] <==> x in skills
      {
        assert skills == [skills[0]] + skills[1..];
      }
    }
  }

  /** Forgetting a freshly learned skill gives back the original list. */
  lemma {:induction false} ForgetUndoesLearn(skills: seq<int>, skillId: int)
    requires skillId !in skills
    ensures Forget(Learn(skills, skillId), skillId) == skills
  {
    ForgetAppended(skills, skillId);
  }

  lemma {:induction false} ForgetAppended(skills: seq<int>, skillId: int)
    requires skillId !in skills
    ensures Forget(skills + [skillId], skillId) == skills
  {
    if |skills| > 0 {
      assert (skills + [skillId])[1..] == skills[1..] + [skillId];
      ForgetAppended(skills[1..], skillId);
      assert skills == [skills[0]] + skills[1..];
    }
  }


  /** The skill list after forgetting each skill of `gone` in turn. */
  function ForgetAll(skills: seq<int>, gone: seq<int>): seq<int>
    decreases |gone|
  {
    if |gone| == 0 then skills else ForgetAll(Forget(skills, gone[0]), gone[1..])
  }

  /** Forgetting skills other than the list's first one leaves that first skill in front. */
  lemma {:induction false} ForgetAllKeepsHead(a: int, rest: seq<int>, gone: seq<int>)
    requires a !in gone
    ensures ForgetAll([a] + rest, gone) == [a] + ForgetAll(rest, gone)
    decreases |gone|
  {
    if |gone| > 0 {
      assert ([a] + rest)[1..] == rest;
      assert Forget([a] + rest, gone[0]) == [a] + Forget(rest, gone[0]);
      ForgetAllKeepsHead(a, Forget(rest, gone[0]), gone[1..]);
    }
  }
}

=== FILE: aoe_los.dfy ===
/**
 * Line of sight for area effects in SRPG_AoE: the table of map events that
 * may block a line, the skill settings that decide which occupants and which
 * terrain block, and the tile-by-tile line tracer between the area's centre
 * and one of its tiles.
 */
module AoeLineOfSight {
  import opened Common
  import opened AoeShapes

  /** A map event as the occupant table sees it; `kind` is its unit type, "" when it has none. */
  datatype MapEvent = MapEvent(id: nat, x: int, y: int, erased: bool, kind: string, characterName: string)

  function EventPos(e: MapEvent): Pos
  {
    Pos(e.x, e.y)
  }

  /** The occupant types that can ever be recorded. */
  const OccupantKinds: set<string> := {"object", "actor", "enemy", "playerEvent"}

  /**
   * What an event contributes to the occupant table: objects only when they
   * show a graphic, units and player events always, anything else nothing.
   */
  function Occupant(e: MapEvent): (r: Option<string>)
    ensures r.Some? ==> r.value in OccupantKinds && r.value == e.kind
    ensures r.None? <==> e.erased || e.kind !in OccupantKinds || (e.kind == "object" && e.characterName == "")
  {
    if e.erased || e.kind == "" then None
    else if e.kind == "object" then (if e.characterName == "" then None else Some("object"))
    else if e.kind == "actor" || e.kind == "enemy" || e.kind == "playerEvent" then Some(e.kind)
    else None
  }

  /** Whether `e` is recorded when the table is built for the unit with event id `source`. */
  predicate Recorded(e: MapEvent, source: nat)
  {
    e.id != source && Occupant(e).Some?
  }

  function Record(t: map<Pos, string>, e: MapEvent, source: nat): map<Pos, string>
  {
    if Recorded(e, source) then t[EventPos(e) := Occupant(e).value] else t
  }

  /** The occupant table after recording `events` in order on top of `t`. */
  function TableAfter(t: map<Pos, string>, events: seq<MapEvent>, source: nat): map<Pos, string>
  {
    if |events| == 0 then t
    else Record(TableAfter(t, events[..|events| - 1], source), events[|events| - 1], source)
  }

  /**
   * Building the table never forgets an entry: a tile on which no recorded
   * event stands keeps exactly what it had.
   */
  lemma {:induction false} TableKeepsUntouchedTiles(t: map<Pos, string>, events: seq<MapEvent>, source: nat, p: Pos)
    requires forall i :: 0 <= i < |events| && Recorded(events[i], source) ==> EventPos(events[i]) != p
    ensures p in TableAfter(t, events, source) <==> p in t
    ensures p in t ==> TableAfter(t, events, source)[p] == t[p]
  {
    if |events| > 0 {
      var prefix := events[..|events| - 1];
      forall i | 0 <= i < |prefix| && Recorded(prefix[i], source)
        ensures EventPos(prefix[i]) != p
      {
        assert prefix[i] == events[i];
      }
      TableKeepsUntouchedTiles(t, prefix, source, p);
    }
  }

  /** Every tile that was in the table stays in it. */
  lemma {:induction false} TableOnlyGrows(t: map<Pos, string>, events: seq<MapEvent>, source: nat)
    ensures t.Keys <= TableAfter(t, events, source).Keys
  {
    if |events| > 0 {
      TableOnlyGrows(t, events[..|events| - 1], source);
    }
  }

  /** The last recorded event standing on a tile decides the tile's entry. */
  lemma {:induction false} TableLastOccupantWins(t: map<Pos, string>, events: seq<MapEvent>, source: nat, i: nat)
    requires i < |events| && Recorded(events[i], source)
    requires forall j :: i < j < |events| && Recorded(events[j], source) ==> EventPos(events[j]) != EventPos(events[i])
    ensures EventPos(events[i]) in TableAfter(t, events, source)
    ensures TableAfter(t, events, source)[EventPos(events[i])] == events[i].kind
  {
    var n := |events| - 1;
    if i < n {
      var prefix := events[..n];
      assert prefix[i] == events[i];
      forall j | i < j < |prefix| && Recorded(prefix[j], source)
        ensures EventPos(prefix[j]) != EventPos(prefix[i])
      {
        assert prefix[j] == events[j];
      }
      TableLastOccupantWins(t, prefix, source, i);
    }
  }

  /** Global plugin settings for which occupants a line passes through, and the default terrain tag. */
  datatype SightDefaults = SightDefaults(
    throughObject: bool, throughFriend: bool, throughOpponent: bool, throughEvent: bool,
    defaultTag: int)

  /** A skill's own line-of-sight tags, each absent or holding the tag's text (terrain: its number). */
  datatype SkillSight = SkillSight(
    throughObject: Option<string>, throughFriend: Option<string>,
    throughOpponent: Option<string>, throughEvent: Option<string>,
    throughTerrain: Option<int>)

  /**
   * An occupant category blocks when the global setting does not let lines
   * through and the skill does not say "true", or when the skill says "false".
   */
  predicate CategoryBlocks(globalThrough: bool, tag: Option<string>)
  {
    (!globalThrough && tag != Some("true")) || tag == Some("false")
  }

  /**
   * The occupant types that block the line for a caster of unit type
   * `casterKind`; friends are actors unless the caster is an enemy. No
   * action or no skill (`skill` is None) blocks nothing.
   */
  function BlockingTypes(g: SightDefaults, skill: Option<SkillSight>, casterKind: string): (r: seq<string>)
    ensures skill.None? ==> r == []
    ensures skill.Some? ==>
      var s := skill.value;
      var friendTag := if casterKind != "enemy" then s.throughFriend else s.throughOpponent;
      var friendGlobal := if casterKind != "enemy" then g.throughFriend else g.throughOpponent;
      var foeTag := if casterKind != "enemy" then s.throughOpponent else s.throughFriend;
      var foeGlobal := if casterKind != "enemy" then g.throughOpponent else g.throughFriend;
      && ("object" in r <==> CategoryBlocks(g.throughObject, s.throughObject))
      && ("playerEvent" in r <==> CategoryBlocks(g.throughEvent, s.throughEvent))
      && ("actor" in r <==> CategoryBlocks(friendGlobal, friendTag))
      && ("enemy" in r <==> CategoryBlocks(foeGlobal, foeTag))
      && (forall k :: k in r ==> k in OccupantKinds)
  {
    match skill
    case None => []
    case Some(s) =>
      var friend := if casterKind != "enemy" then "actor" else "enemy";
      var foe := if casterKind != "enemy" then "enemy" else "actor";
      (if CategoryBlocks(g.throughObject, s.throughObject) then ["object"] else [])
      + (if CategoryBlocks(g.throughFriend, s.throughFriend) then [friend] else [])
      + (if CategoryBlocks(g.throughOpponent, s.throughOpponent) then [foe] else [])
      + (if CategoryBlocks(g.throughEvent, s.throughEvent) then ["playerEvent"] else [])
  }

  /**
   * The highest terrain tag a line passes over. Without a skill or without
   * the skill's terrain tag the global default applies; a negative tag
   * defers to the caster's own through-tag when it has one.
   */
  function SightTerrainTag(g: SightDefaults, skill: Option<SkillSight>, casterThroughTag: Option<int>): (r: int)
    ensures skill.None? || skill.value.throughTerrain.None? ==> r == g.defaultTag
    ensures skill.Some? && skill.value.throughTerrain.Some? && skill.value.throughTerrain.value >= 0 ==>
      r == skill.value.throughTerrain.value
    ensures skill.Some? && skill.value.throughTerrain.Some? && skill.value.throughTerrain.value < 0 ==>
      (casterThroughTag.Some? ==> r == casterThroughTag.value) && (casterThroughTag.None? ==> r < 0)
  {
    if skill.None? then g.defaultTag
    else if skill.value.throughTerrain.None? then g.defaultTag
    else
      var n := skill.value.throughTerrain.value;
      if n < 0 && casterThroughTag.Some? then casterThroughTag.value else n
  }

  // ---------------------------------------------------------------------
  // The line tracer

  /** Number of one-tile moves along an axis and their direction, after the looping correction. */
  datatype AxisPlan = AxisPlan(steps: int, sign: int)

  /** On a looping axis a line longer than half the axis goes the other way round. */
  function PlanAxis(a: int, b: int, len: int, loop: bool): AxisPlan
  {
    var d := Abs(b - a);
    var s := if a < b then 1 else -1;
    if loop && 2 * d > len then AxisPlan(len - d, -s) else AxisPlan(d, s)
  }

  /** The wrap the tracer applies after each move. */
  function WrapCoord(v: int, len: int): int
  {
    var v1 := if v < 0 then v + len else v;
    if v1 >= len then v1 - len else v1
  }

  /** A traced line: its endpoints, its plan on each axis and the map size. */
  datatype Line = Line(x1: int, y1: int, x2: int, y2: int, h: AxisPlan, v: AxisPlan, width: int, height: int)

  function MakeLine(m: MapInfo, x1: int, y1: int, x2: int, y2: int): Line
  {
    Line(x1, y1, x2, y2, PlanAxis(x1, x2, m.width, m.loopH), PlanAxis(y1, y2, m.height, m.loopV),
         m.width, m.height)
  }

  /** The tracer's variables: current tile and accumulated error. */
  datatype Tracer = Tracer(x: int, y: int, err: int)

  function StartTracer(l: Line): Tracer
  {
    Tracer(l.x1, l.y1, l.h.steps - l.v.steps)
  }

  predicate Arrived(l: Line, c: Tracer)
  {
    c.x == l.x2 && c.y == l.y2
  }

  predicate StepsX(l: Line, c: Tracer)
  {
    c.err * 2 > -l.v.steps
  }

  predicate StepsY(l: Line, c: Tracer)
  {
    c.err * 2 < l.h.steps
  }

  /** One turn of the tracer's loop after the tile has been tested. */
  function Step(l: Line, c: Tracer): Tracer
  {
    var c1 := if StepsX(l, c) then Tracer(WrapCoord(c.x + l.h.sign, l.width), c.y, c.err - l.v.steps) else c;
    if StepsY(l, c) then Tracer(c1.x, WrapCoord(c1.y + l.v.sign, l.height), c1.err + l.h.steps) else c1
  }

  predicate OnMap(m: MapInfo, p: Pos)
  {
    0 <= p.x < m.width && 0 <= p.y < m.height
  }

  // Proof vocabulary: the tracer's coordinate after t moves, before wrapping.

  function Unwrapped(a: int, p: AxisPlan, t: int): int
  {
    if p.sign > 0 then a + t else a - t
  }

  function Norm(u: int, len: int): int
  {
    if u < 0 then u + len else if u >= len then u - len else u
  }

  /** Facts about one axis of a line between two tiles of the map. */
  lemma AxisFacts(a: int, b: int, len: int, loop: bool, t: int)
    requires 0 <= a < len && 0 <= b < len
    requires 0 <= t <= PlanAxis(a, b, len, loop).steps
    ensures var p := PlanAxis(a, b, len, loop);
      && 0 <= p.steps < len
      && (p.sign == 1 || p.sign == -1)
      && 0 <= Norm(Unwrapped(a, p, t), len) < len
      && (Norm(Unwrapped(a, p, t), len) == b <==> t == p.steps)
      && (t < p.steps ==> WrapCoord(Norm(Unwrapped(a, p, t), len) + p.sign, len) == Norm(Unwrapped(a, p, t + 1), len))
  {
  }

  lemma MulMono(a: int, b: int, c: int)
    requires a >= 0 && b <= c
    ensures a * b <= a * c
  {
  }

  /** The step counters and the error term agree, and the tracer never moves past an axis' end. */
  lemma ErrorBounds(dx: int, dy: int, tx: int, ty: int, err: int)
    requires 0 <= tx <= dx && 0 <= ty <= dy
    requires err == dx * (1 + ty) - dy * (1 + tx)
    requires !(tx == dx && ty == dy)
    ensures err * 2 > -dy ==> tx < dx
    ensures err * 2 < dx ==> ty < dy
    ensures err * 2 > -dy || err * 2 < dx
  {
    if tx == dx {
      MulMono(dx, 1 + ty, dy);
      assert dy * (1 + tx) == dy + dy * dx;
      assert dx * dy == dy * dx;
    }
    if ty == dy {
      MulMono(dy, 1 + tx, dx);
      assert dx * (1 + ty) == dx + dx * dy;
      assert dx * dy == dy * dx;
    }
  }

  /** A line between two tiles of a map with positive dimensions. */
  predicate GoodLine(m: MapInfo, l: Line)
  {
    && m.width > 0 && m.height > 0
    && OnMap(m, Pos(l.x1, l.y1)) && OnMap(m, Pos(l.x2, l.y2))
    && l == MakeLine(m, l.x1, l.y1, l.x2, l.y2)
  }

  /** The tracer after tx horizontal and ty vertical moves. */
  predicate TracerAt(m: MapInfo, l: Line, c: Tracer, tx: int, ty: int)
  {
    && GoodLine(m, l)
    && 0 <= tx <= l.h.steps && 0 <= ty <= l.v.steps
    && c.x == Norm(Unwrapped(l.x1, l.h, tx), l.width)
    && c.y == Norm(Unwrapped(l.y1, l.v, ty), l.height)
    && c.err == l.h.steps * (1 + ty) - l.v.steps * (1 + tx)
  }

  function NextTx(l: Line, c: Tracer, tx: int): int
  {
    if StepsX(l, c) then tx + 1 else tx
  }

  function NextTy(l: Line, c: Tracer, ty: int): int
  {
    if StepsY(l, c) then ty + 1 else ty
  }

  lemma ArrivedIffDone(m: MapInfo, l: Line, c: Tracer, tx: int, ty: int)
    requires TracerAt(m, l, c, tx, ty)
    ensures Arrived(l, c) <==> tx == l.h.steps && ty == l.v.steps
    ensures OnMap(m, Pos(c.x, c.y))
  {
    AxisFacts(l.x1, l.x2, m.width, m.loopH, tx);
    AxisFacts(l.y1, l.y2, m.height, m.loopV, ty);
  }

  /** Each turn of the loop moves at least one tile, never past the destination's row or column. */
  lemma StepAdvances(m: MapInfo, l: Line, c: Tracer, tx: int, ty: int)
    requires TracerAt(m, l, c, tx, ty) && !Arrived(l, c)
    ensures TracerAt(m, l, Step(l, c), NextTx(l, c, tx), NextTy(l, c, ty))
    ensures NextTx(l, c, tx) + NextTy(l, c, ty) > tx + ty
  {
    ArrivedIffDone(m, l, c, tx, ty);
    ErrorBounds(l.h.steps, l.v.steps, tx, ty, c.err);
    AxisFacts(l.x1, l.x2, m.width, m.loopH, tx);
    AxisFacts(l.y1, l.y2, m.height, m.loopV, ty);
    var tx' := NextTx(l, c, tx);
    var ty' := NextTy(l, c, ty);
    var dx := l.h.steps;
    var dy := l.v.steps;
    assert dx * (1 + ty) + dx == dx * (1 + (ty + 1));
    assert dy * (1 + tx) + dy == dy * (1 + (tx + 1));
  }

  /**
   * The tiles the tracer tests, in order, from its current state: every
   * tile before the destination. The destination itself is never tested.
   */
  function Walk(m: MapInfo, l: Line, c: Tracer, tx: int, ty: int): seq<Pos>
    requires TracerAt(m, l, c, tx, ty)
    decreases (l.h.steps - tx) + (l.v.steps - ty)
  {
    if Arrived(l, c) then []
    else
      StepAdvances(m, l, c, tx, ty);
      [Pos(c.x, c.y)] + Walk(m, l, Step(l, c), NextTx(l, c, tx), NextTy(l, c, ty))
  }

  /** The tiles tested on the line from `src` to `dst`, both on the map. */
  function LineTiles(m: MapInfo, src: Pos, dst: Pos): seq<Pos>
    requires m.width > 0 && m.height > 0 && OnMap(m, src) && OnMap(m, dst)
  {
    var l := MakeLine(m, src.x, src.y, dst.x, dst.y);
    assert TracerAt(m, l, StartTracer(l), 0, 0) by {
      AxisFacts(src.x, dst.x, m.width, m.loopH, 0);
      AxisFacts(src.y, dst.y, m.height, m.loopV, 0);
    }
    Walk(m, l, StartTracer(l), 0, 0)
  }

  /** What a line sees: terrain tags, the occupant table, the tag threshold and the blocking types. */
  datatype Sight = Sight(terrain: Pos -> int, table: map<Pos, string>, tag: int, types: seq<string>)

  /** A tile stops the line when its terrain tag exceeds the (non-negative) threshold or a blocking occupant stands on it. */
  predicate Blocks(s: Sight, p: Pos)
  {
    s.terrain(p) > Max(s.tag, 0) || (p in s.table && s.table[p] in s.types)
  }

  predicate NoneBlocks(s: Sight, tiles: seq<Pos>)
  {
    forall i :: 0 <= i < |tiles| ==> !Blocks(s, tiles[i])
  }

  /** Testing the current tile decides the rest: a blocking tile ends the line, a clear one passes the question on. */
  lemma WalkHead(m: MapInfo, s: Sight, l: Line, c: Tracer, tx: int, ty: int)
    requires TracerAt(m, l, c, tx, ty) && !Arrived(l, c)
    ensures TracerAt(m, l, Step(l, c), NextTx(l, c, tx), NextTy(l, c, ty))
    ensures (NextTx(l, c, tx) - tx) + (NextTy(l, c, ty) - ty) > 0
    ensures NoneBlocks(s, Walk(m, l, c, tx, ty))
        <==> !Blocks(s, Pos(c.x, c.y)) && NoneBlocks(s, Walk(m, l, Step(l, c), NextTx(l, c, tx), NextTy(l, c, ty)))
  {
    StepAdvances(m, l, c, tx, ty);
    var rest := Walk(m, l, Step(l, c), NextTx(l, c, tx), NextTy(l, c, ty));
    var w := Walk(m, l, c, tx, ty);
    assert w == [Pos(c.x, c.y)] + rest;
    if NoneBlocks(s, w) {
      assert w[0] == Pos(c.x, c.y);
      forall i | 0 <= i < |rest| ensures !Blocks(s, rest[i]) {
        assert rest[i] == w[i + 1];
      }
    }
  }

  /**
   * Whether the area's centre `src` sees tile `dst`: always for the centre
   * itself, never for a line with an end off the map, otherwise when no
   * tested tile blocks.
   */
  predicate LineOfSight(m: MapInfo, s: Sight, src: Pos, dst: Pos)
    requires m.width > 0 && m.height > 0
  {
    if src == dst then true
    else if !OnMap(m, src) || !OnMap(m, dst) then false
    else NoneBlocks(s, LineTiles(m, src, dst))
  }

  lemma {:induction false} WalkFacts(m: MapInfo, l: Line, c: Tracer, tx: int, ty: int)
    requires TracerAt(m, l, c, tx, ty)
    ensures |Walk(m, l, c, tx, ty)| <= (l.h.steps - tx) + (l.v.steps - ty)
    ensures forall i :: 0 <= i < |Walk(m, l, c, tx, ty)| ==>
      OnMap(m, Walk(m, l, c, tx, ty)[i]) && Walk(m, l, c, tx, ty)[i] != Pos(l.x2, l.y2)
    decreases (l.h.steps - tx) + (l.v.steps - ty)
  {
    ArrivedIffDone(m, l, c, tx, ty);
    if !Arrived(l, c) {
      StepAdvances(m, l, c, tx, ty);
      WalkFacts(m, l, Step(l, c), NextTx(l, c, tx), NextTy(l, c, ty));
    }
  }

  /**
   * The traced line starts on the centre (which is tested), stays on the
   * map, never tests the destination, and tests at most as many tiles as
   * moves the line makes.
   */
  lemma LineTilesShape(m: MapInfo, src: Pos, dst: Pos)
    requires m.width > 0 && m.height > 0 && OnMap(m, src) && OnMap(m, dst)
    ensures src != dst ==> |LineTiles(m, src, dst)| > 0 && LineTiles(m, src, dst)[0] == src
    ensures src == dst ==> LineTiles(m, src, dst) == []
    ensures |LineTiles(m, src, dst)| <= PlanAxis(src.x, dst.x, m.width, m.loopH).steps
                                       + PlanAxis(src.y, dst.y, m.height, m.loopV).steps
    ensures forall i :: 0 <= i < |LineTiles(m, src, dst)| ==>
      OnMap(m, LineTiles(m, src, dst)[i]) && LineTiles(m, src, dst)[i] != dst
  {
    var l := MakeLine(m, src.x, src.y, dst.x, dst.y);
    AxisFacts(src.x, dst.x, m.width, m.loopH, 0);
    AxisFacts(src.y, dst.y, m.height, m.loopV, 0);
    WalkFacts(m, l, StartTracer(l), 0, 0);
  }

  /** Raising the terrain threshold never takes sight away. */
  lemma HigherThresholdKeepsSight(m: MapInfo, s: Sight, src: Pos, dst: Pos, tag2: int)
    requires m.width > 0 && m.height > 0
    requires s.tag <= tag2 && LineOfSight(m, s, src, dst)
    ensures LineOfSight(m, s.(tag := tag2), src, dst)
  {
    if src != dst && OnMap(m, src) && OnMap(m, dst) {
      var tiles := LineTiles(m, src, dst);
      forall i | 0 <= i < |tiles| ensures !Blocks(s.(tag := tag2), tiles[i]) {
        assert !Blocks(s, tiles[i]);
      }
    }
  }

  /** Letting more occupant types through never takes sight away. */
  lemma FewerBlockersKeepSight(m: MapInfo, s: Sight, src: Pos, dst: Pos, types2: seq<string>)
    requires m.width > 0 && m.height > 0
    requires forall k :: k in types2 ==> k in s.types
    requires LineOfSight(m, s, src, dst)
    ensures LineOfSight(m, s.(types := types2), src, dst)
  {
    if src != dst && OnMap(m, src) && OnMap(m, dst) {
      var tiles := LineTiles(m, src, dst);
      forall i | 0 <= i < |tiles| ensures !Blocks(s.(types := types2), tiles[i]) {
        assert !Blocks(s, tiles[i]);
      }
    }
  }

  /**
   * As written, the tracer only stops on reaching the destination, but it
   * wraps every coordinate into the map. On a 3x3 map that does not loop, a
   * line from (0, 0) to (-2, 0) -- a tile of an area centred on the map's
   * edge -- cycles through (2, 0), (1, 0), (0, 0) forever: the state after
   * three turns is the start state and no state is the destination.
   */
  lemma OffMapLinePlan()
    ensures MakeLine(MapInfo(3, 3, false, false), 0, 0, -2, 0)
         == Line(0, 0, -2, 0, AxisPlan(2, -1), AxisPlan(0, -1), 3, 3)
  {
  }

  lemma OffMapTracerCycles()
    ensures var l := MakeLine(MapInfo(3, 3, false, false), 0, 0, -2, 0);
            && StartTracer(l) == Tracer(0, 0, 2)
            && Step(l, Tracer(0, 0, 2)) == Tracer(2, 0, 2)
            && Step(l, Tracer(2, 0, 2)) == Tracer(1, 0, 2)
            && Step(l, Tracer(1, 0, 2)) == Tracer(0, 0, 2)
            && !Arrived(l, Tracer(0, 0, 2)) && !Arrived(l, Tracer(2, 0, 2)) && !Arrived(l, Tracer(1, 0, 2))
  {
    OffMapLinePlan();
    var l := Line(0, 0, -2, 0, AxisPlan(2, -1), AxisPlan(0, -1), 3, 3);
    assert WrapCoord(-1, 3) == 2 && WrapCoord(1, 3) == 1 && WrapCoord(0, 3) == 0;
    assert StepsX(l, Tracer(0, 0, 2)) && !StepsY(l, Tracer(0, 0, 2));
    assert StepsX(l, Tracer(2, 0, 2)) && !StepsY(l, Tracer(2, 0, 2));
    assert StepsX(l, Tracer(1, 0, 2)) && !StepsY(l, Tracer(1, 0, 2));
  }

  /** One turn of the tracer's loop: move along each axis whose error test passes, wrapping into the map. */
  method AdvanceTracer(l: Line, x0: int, y0: int, err0: int) returns (x: int, y: int, err: int)
    ensures Tracer(x, y, err) == Step(l, Tracer(x0, y0, err0))
  {
    x, y, err := x0, y0, err0;
    var err2 := err * 2;
    if err2 > -l.v.steps {
      err := err - l.v.steps;
      x := x + l.h.sign;
      if x < 0 { x := x + l.width; }
      if x >= l.width { x := x - l.width; }
    }
    if err2 < l.h.steps {
      err := err + l.h.steps;
      y := y + l.v.sign;
      if y < 0 { y := y + l.height; }
      if y >= l.height { y := y - l.height; }
    }
  }

  /** The map: its fixed layout and the occupant table, which is built on demand and never cleared. */
  class GameMap {
    const info: MapInfo
    const terrain: Pos -> int
    var losTable: map<Pos, string>

    constructor (info: MapInfo, terrain: Pos -> int)
      requires info.width > 0 && info.height > 0
      ensures this.info == info && this.terrain == terrain && losTable == map[]
    {
      this.info := info;
      this.terrain := terrain;
      losTable := map[];
    }

    /** Records every visible occupant other than the casting unit (event id `source`). */
    method MakeLoSTable(events: seq<MapEvent>, source: nat)
      modifies this
      ensures losTable == TableAfter(old(losTable), events, source)
    {
      var i := 0;
      while i < |events|
        invariant 0 <= i <= |events|
        invariant losTable == TableAfter(old(losTable), events[..i], source)
      {
        var e := events[i];
        assert events[..i + 1][..i] == events[..i];
        if e.id != source && !e.erased && e.kind != "" {
          if e.kind == "object" {
            if e.characterName != "" {
              losTable := losTable[Pos(e.x, e.y) := e.kind];
            }
          } else if e.kind == "actor" || e.kind == "enemy" || e.kind == "playerEvent" {
            losTable := losTable[Pos(e.x, e.y) := e.kind];
          }
        }
        i := i + 1;
      }
      assert events[..|events|] == events;
    }

    /**
     * Traces the line from (x1, y1) to (x2, y2), testing each tile before the
     * destination against the terrain threshold `tag` and the occupant types
     * `types`. A line with an end off the map has no sight.
     */
    method HasAoeLoS(x1: int, y1: int, x2: int, y2: int, tag: int, types: seq<string>) returns (r: bool)
      requires info.width > 0 && info.height > 0
      ensures r == LineOfSight(info, Sight(terrain, losTable, tag, types), Pos(x1, y1), Pos(x2, y2))
    {
      var s := Sight(terrain, losTable, tag, types);
      if x1 == x2 && y1 == y2 {
        return true;
      }
      if !OnMap(info, Pos(x1, y1)) || !OnMap(info, Pos(x2, y2)) {
        return false;
      }
      var threshold := Max(tag, 0);
      var l := MakeLine(info, x1, y1, x2, y2);
      var x, y, err := x1, y1, l.h.steps - l.v.steps;
      ghost var tx, ty := 0, 0;
      AxisFacts(x1, x2, info.width, info.loopH, 0);
      AxisFacts(y1, y2, info.height, info.loopV, 0);
      while x != x2 || y != y2
        invariant TracerAt(info, l, Tracer(x, y, err), tx, ty)
        invariant LineOfSight(info, s, Pos(x1, y1), Pos(x2, y2)) == NoneBlocks(s, Walk(info, l, Tracer(x, y, err), tx, ty))
        decreases (l.h.steps - tx) + (l.v.steps - ty)
      {
        var c := Tracer(x, y, err);
        WalkHead(info, s, l, c, tx, ty);
        if terrain(Pos(x, y)) > threshold {
          return false;
        }
        if Pos(x, y) in losTable && losTable[Pos(x, y)] in types {
          return false;
        }
        x, y, err := AdvanceTracer(l, x, y, err);
        tx, ty := NextTx(l, c, tx), NextTy(l, c, ty);
      }
      ArrivedIffDone(info, l, Tracer(x, y, err), tx, ty);
      return true;
    }
  }
}

=== FILE: aoe_shapes.dfy ===
/**
 * Area-of-effect geometry of SRPG_AoE: the shape predicate that decides
 * whether an offset from the area's centre belongs to an area, the
 * facing and distance helpers, and the looping-map correction used when a
 * character is tested against an area.
 */
module AoeShapes {
  import opened Common

  /** Map dimensions and looping flags; every real map is at least one tile wide and high. */
  datatype MapInfo = MapInfo(width: int, height: int, loopH: bool, loopV: bool)

  /** Facing index in numeric-keypad layout (2 down, 4 left, 6 right, 8 up, 5 none). */
  type Dir = d: int | 0 <= d <= 9

  /** The four facings a character can actually take. */
  predicate Cardinal(d: int)
  {
    d == 2 || d == 4 || d == 6 || d == 8
  }

  /** Horizontal component of the unit vector of facing `d`. */
  function FX(d: Dir): int
  {
    [0, -1, 0, 1, -1, 0, 1, -1, 0, 1][d]
  }

  /** Vertical component of the unit vector of facing `d` (down is positive). */
  function FY(d: Dir): int
  {
    [0, 1, 1, 1, 0, 0, 0, -1, -1, -1][d]
  }

  /** Distance of offset (x, y) along the facing. */
  function Forward(x: int, y: int, d: Dir): int
  {
    x * FX(d) + y * FY(d)
  }

  /** Distance of offset (x, y) across the facing. */
  function Sideways(x: int, y: int, d: Dir): int
  {
    x * FY(d) - y * FX(d)
  }

  /** The shape names the plugin knows itself. */
  const NamedShapes: set<string> :=
    {"line", "cone", "split", "arc", "side", "tee", "plus", "cross", "star", "checker", "square", "circle"}

  /** Hook for shapes added by other plugins; none is defined. */
  function ExtraAreas(shape: string, x: int, y: int, rx: int, ry: int, size: int, minSize: int): (r: bool)
    ensures !r
  {
    false
  }

  /**
   * Whether offset (x, y) from the area's centre lies in an area of the given
   * size, minimum size and shape, cast in facing `d`. An empty shape name
   * means the default diamond ("circle"). No shape reaches outside the
   * square of half-width `size`.
   */
  function InArea(x: int, y: int, size: int, minSize: int, shape: string, d: Dir): (r: bool)
    ensures r ==> Abs(x) <= size && Abs(y) <= size
  {
    var ry := Forward(x, y, d);
    var rx := Sideways(x, y, d);
    var s := if shape == "" then "circle" else shape;
    if x > size || x < -size || y > size || y < -size then false
    else if s == "line" then
      rx == 0 && !(ry > size || ry < minSize)
    else if s == "cone" then
      !(ry > size || ry < minSize) && Abs(rx) <= Abs(ry)
    else if s == "split" then
      !(ry > size || ry < minSize) && Abs(rx) == Abs(ry)
    else if s == "arc" then
      !(ry < -size || ry > -minSize) && Abs(rx) == Abs(ry)
    else if s == "side" then
      ry == 0 && !(Abs(rx) > size || Abs(rx) < minSize)
    else if s == "tee" then
      ry >= 0 && (x == 0 || y == 0) && Abs(x) <= size && Abs(y) <= size
      && !(Abs(x) < minSize && Abs(y) < minSize)
    else if s == "plus" then
      (x == 0 || y == 0) && Abs(x) <= size && Abs(y) <= size
      && !(Abs(x) < minSize && Abs(y) < minSize)
    else if s == "cross" then
      Abs(x) == Abs(y) && !(Abs(x) > size || Abs(x) < minSize)
    else if s == "star" then
      !(Abs(x) != Abs(y) && x != 0 && y != 0) && Abs(x) <= size && Abs(y) <= size
      && !(Abs(x) < minSize && Abs(y) < minSize)
    else if s == "checker" then
      (x + y) % 2 == 0 && Abs(x) <= size && Abs(y) <= size
      && !(Abs(x) < minSize && Abs(y) < minSize)
    else if s == "square" then
      Abs(x) <= size && Abs(y) <= size && !(Abs(x) < minSize && Abs(y) < minSize)
    else if s == "circle" then
      !(Abs(x) + Abs(y) > size || Abs(x) + Abs(y) < minSize)
    else
      ExtraAreas(s, x, y, rx, ry, size, minSize)
  }

  /** For every named shape with 0 <= minSize <= size, the centre belongs to the area exactly when minSize is 0. */
  lemma OriginAcceptedIffNoMinimum(size: int, minSize: int, shape: string, d: Dir)
    requires 0 <= minSize <= size
    requires shape in NamedShapes
    ensures InArea(0, 0, size, minSize, shape, d) <==> minSize == 0
  {
  }

  /** An empty shape name behaves as the diamond. */
  lemma EmptyShapeIsCircle(x: int, y: int, size: int, minSize: int, d: Dir)
    ensures InArea(x, y, size, minSize, "", d) == InArea(x, y, size, minSize, "circle", d)
  {
  }

  /** Unknown shape names select nothing. */
  lemma UnknownShapeIsEmpty(x: int, y: int, size: int, minSize: int, shape: string, d: Dir)
    requires shape != "" && shape !in NamedShapes
    ensures !InArea(x, y, size, minSize, shape, d)
  {
  }

  /** The "circle" is the diamond of Manhattan radius between minSize and size. */
  lemma CircleIsManhattanRing(x: int, y: int, size: int, minSize: int, d: Dir)
    ensures InArea(x, y, size, minSize, "circle", d) <==> minSize <= Abs(x) + Abs(y) <= size
  {
  }

  /** Without a minimum, the square accepts every offset of its bounding box. */
  lemma SquareFillsBox(x: int, y: int, size: int, minSize: int, d: Dir)
    requires minSize <= 0
    ensures InArea(x, y, size, minSize, "square", d) <==> Abs(x) <= size && Abs(y) <= size
  {
  }

  /** The checker is the square restricted to offsets of even parity. */
  lemma CheckerIsEvenSquare(x: int, y: int, size: int, minSize: int, d: Dir)
    ensures InArea(x, y, size, minSize, "checker", d)
        <==> InArea(x, y, size, minSize, "square", d) && (x + y) % 2 == 0
  {
  }

  /** The star is the union of the plus and the cross. */
  lemma StarIsPlusOrCross(x: int, y: int, size: int, minSize: int, d: Dir)
    ensures InArea(x, y, size, minSize, "star", d)
        <==> InArea(x, y, size, minSize, "plus", d) || InArea(x, y, size, minSize, "cross", d)
  {
  }

  /** The tee is the half of the plus that does not lie behind the caster. */
  lemma TeeIsForwardPlus(x: int, y: int, size: int, minSize: int, d: Dir)
    ensures InArea(x, y, size, minSize, "tee", d)
        <==> InArea(x, y, size, minSize, "plus", d) && Forward(x, y, d) >= 0
  {
  }

  /** The arc is the split turned half a circle. */
  lemma ArcMirrorsSplit(x: int, y: int, size: int, minSize: int, d: Dir)
    ensures InArea(x, y, size, minSize, "arc", d) <==> InArea(-x, -y, size, minSize, "split", d)
  {
  }

  /** Both the line and the split lie inside the cone. */
  lemma LineAndSplitWithinCone(x: int, y: int, size: int, minSize: int, d: Dir)
    ensures InArea(x, y, size, minSize, "line", d) ==> InArea(x, y, size, minSize, "cone", d)
    ensures InArea(x, y, size, minSize, "split", d) ==> InArea(x, y, size, minSize, "cone", d)
  {
  }

  /**
   * Cast in one of the four real facings, the line is the ray of tiles
   * t steps ahead of the caster, minSize <= t <= size.
   */
  lemma LineIsRay(x: int, y: int, size: int, minSize: int, d: Dir)
    requires Cardinal(d) && minSize >= 0
    ensures InArea(x, y, size, minSize, "line", d)
        <==> var t := Forward(x, y, d);
             x == t * FX(d) && y == t * FY(d) && minSize <= t <= size
  {
    if d == 2 {
      assert FX(d) == 0 && FY(d) == 1;
    } else if d == 4 {
      assert FX(d) == -1 && FY(d) == 0;
    } else if d == 6 {
      assert FX(d) == 1 && FY(d) == 0;
    } else {
      assert FX(d) == 0 && FY(d) == -1;
    }
  }

  /** Cast in a real facing, the side is the row through the caster, across the facing. */
  lemma SideIsCrossRow(x: int, y: int, size: int, minSize: int, d: Dir)
    requires Cardinal(d)
    ensures InArea(x, y, size, minSize, "side", d)
        <==> var t := Sideways(x, y, d);
             x == t * FY(d) && y == -t * FX(d) && minSize <= Abs(t) <= size
  {
    if d == 2 {
      assert FX(d) == 0 && FY(d) == 1;
    } else if d == 4 {
      assert FX(d) == -1 && FY(d) == 0;
    } else if d == 6 {
      assert FX(d) == 1 && FY(d) == 0;
    } else {
      assert FX(d) == 0 && FY(d) == -1;
    }
  }

  /**
   * A signed offset corrected for a looping axis of length `len`: an offset
   * longer than half the axis is taken the other way round.
   */
  function WrapOffset(delta: int, len: int, loop: bool): int
  {
    if !loop then delta
    else
      var d1 := if 2 * delta > len then delta - len else delta;
      if 2 * d1 < -len then d1 + len else d1
  }

  lemma WrapOffsetShortest(delta: int, len: int, loop: bool)
    requires loop && len > 0 && -len < delta < len
    ensures -len <= 2 * WrapOffset(delta, len, loop) <= len
    ensures WrapOffset(delta, len, loop) == delta
         || WrapOffset(delta, len, loop) == delta - len
         || WrapOffset(delta, len, loop) == delta + len
  {
  }

  /**
   * The facing a character at (px, py) takes to face tile (x, y): along the
   * longer axis of the (loop-corrected) offset, vertical on ties, and 5 when
   * the tile is its own.
   */
  function DirTo(m: MapInfo, px: int, py: int, x: int, y: int): (r: Dir)
    ensures var dx := WrapOffset(px - x, m.width, m.loopH);
            var dy := WrapOffset(py - y, m.height, m.loopV);
            && (r == 5 <==> dx == 0 && dy == 0)
            && (r != 5 ==> Cardinal(r) && Forward(-dx, -dy, r) == Max(Abs(dx), Abs(dy)))
            && (Abs(dx) == Abs(dy) && dy != 0 ==> r == 2 || r == 8)
  {
    var dx := WrapOffset(px - x, m.width, m.loopH);
    var dy := WrapOffset(py - y, m.height, m.loopV);
    if Abs(dx) > Abs(dy) then (if dx > 0 then 4 else 6)
    else if dy != 0 then (if dy > 0 then 8 else 2)
    else 5
  }

  /**
   * Walking distance from (px, py) to (x, y) ignoring obstacles: Manhattan
   * distance, each looping axis measured the shorter way round.
   */
  function DistTo(m: MapInfo, px: int, py: int, x: int, y: int): (r: int)
    ensures r <= Abs(px - x) + Abs(py - y)
    ensures !m.loopH && !m.loopV ==> r == Abs(px - x) + Abs(py - y)
  {
    var dx := Abs(px - x);
    var dy := Abs(py - y);
    var dx1 := if m.loopH then Min(dx, m.width - dx) else dx;
    var dy1 := if m.loopV then Min(dy, m.height - dy) else dy;
    dx1 + dy1
  }

  lemma DistToSymmetric(m: MapInfo, px: int, py: int, x: int, y: int)
    ensures DistTo(m, px, py, x, y) == DistTo(m, x, y, px, py)
  {
  }

  /**
   * Whether a character standing at (px, py) is inside the area centred on
   * (x, y); areas of size 0 or less contain nobody.
   */
  function CharacterInArea(m: MapInfo, px: int, py: int, x: int, y: int,
                           size: int, minSize: int, shape: string, d: Dir): (r: bool)
    ensures size <= 0 ==> !r
    ensures !m.loopH && !m.loopV ==> r == (size > 0 && InArea(px - x, py - y, size, minSize, shape, d))
  {
    if size <= 0 then false
    else
      var dx := WrapOffset(px - x, m.width, m.loopH);
      var dy := WrapOffset(py - y, m.height, m.loopV);
      InArea(dx, dy, size, minSize, shape, d)
  }
}

=== FILE: aoe_targeting.dfy ===
/**
 * The area-of-effect targeting state of SRPG_AoE, kept on the game's
 * temporary object: the highlighted area with its visible and blocked
 * tiles, the queue of targets still to be hit, and the flag that makes a
 * repeated action pay its cost only once.
 */
module AoeTargeting {
  import opened Common
  import opened AoeShapes
  import opened AoeLineOfSight

  /** The highlighted area: its centre, geometry, and the tiles found visible or blocked. */
  datatype AreaSnapshot = AreaSnapshot(
    x: int, y: int, size: int, minSize: int, shape: string, dir: Dir,
    visible: seq<Pos>, blocked: seq<Pos>)

  /** One queued hit: the skill to use (absent when the queue entry is broken) and the target event. */
  datatype AreaTarget = AreaTarget(item: Option<nat>, event: MapEvent)

  /** The acting unit's current action, as the area code reads it. */
  datatype AreaAction = AreaAction(area: int, minArea: int, areaType: string, sight: Option<SkillSight>)

  /** The acting unit: its event, position, unit type, own terrain through-tag, and current action. */
  datatype Caster = Caster(eventId: nat, x: int, y: int, kind: string, throughTag: Option<int>, action: Option<AreaAction>)

  /** Whether tile `p` belongs to the shape of an area centred on (x, y). */
  predicate AreaTile(x: int, y: int, size: int, minSize: int, shape: string, d: Dir, p: Pos)
  {
    InArea(p.x - x, p.y - y, size, minSize, shape, d)
  }

  /** The snapshot lists exactly the area's tiles, split by whether the centre sees them. */
  ghost predicate SnapshotTraced(a: AreaSnapshot, m: MapInfo, s: Sight)
    requires m.width > 0 && m.height > 0
  {
    forall p ::
      && (p in a.visible <==> AreaTile(a.x, a.y, a.size, a.minSize, a.shape, a.dir, p) && LineOfSight(m, s, Pos(a.x, a.y), p))
      && (p in a.blocked <==> AreaTile(a.x, a.y, a.size, a.minSize, a.shape, a.dir, p) && !LineOfSight(m, s, Pos(a.x, a.y), p))
  }

  /**
   * Sorting the square's tiles that pass a shape test agreeing with the
   * area's shape, by a sight oracle agreeing with the line of sight,
   * yields a traced snapshot.
   */
  lemma SnapshotFromTrace(x: int, y: int, size: int, minSize: int, shape: string, d: Dir,
                          visible: seq<Pos>, blocked: seq<Pos>, m: MapInfo, s: Sight,
                          accept: (int, int) -> bool, sees: Pos -> bool)
    requires m.width > 0 && m.height > 0
    requires forall i, j {:trigger InArea(i, j, size, minSize, shape, d)} :: accept(i, j) == InArea(i, j, size, minSize, shape, d)
    requires forall p {:trigger LineOfSight(m, s, Pos(x, y), p)} :: sees(p) == LineOfSight(m, s, Pos(x, y), p)
    requires forall p ::
      && (p in visible <==> InBox(x, y, size, p) && accept(p.x - x, p.y - y) && sees(p))
      && (p in blocked <==> InBox(x, y, size, p) && accept(p.x - x, p.y - y) && !sees(p))
    ensures SnapshotTraced(AreaSnapshot(x, y, size, minSize, shape, d, visible, blocked), m, s)
  {
    forall p
      ensures p in visible <==> AreaTile(x, y, size, minSize, shape, d, p) && LineOfSight(m, s, Pos(x, y), p)
      ensures p in blocked <==> AreaTile(x, y, size, minSize, shape, d, p) && !LineOfSight(m, s, Pos(x, y), p)
    {
      var inShape := InArea(p.x - x, p.y - y, size, minSize, shape, d);
      assert accept(p.x - x, p.y - y) == inShape;
      assert sees(p) == LineOfSight(m, s, Pos(x, y), p);
      if inShape {
        assert InBox(x, y, size, p);
      }
    }
  }

  /** A tile is targetable when it is listed visible and not blocked. */
  predicate Targetable(a: AreaSnapshot, p: Pos)
  {
    p in a.visible && p !in a.blocked
  }

  /** In a traced snapshot, the targetable tiles are exactly the area's tiles the centre can see. */
  lemma TargetableIffSeen(a: AreaSnapshot, m: MapInfo, s: Sight, p: Pos)
    requires m.width > 0 && m.height > 0 && SnapshotTraced(a, m, s)
    ensures Targetable(a, p) <==> AreaTile(a.x, a.y, a.size, a.minSize, a.shape, a.dir, p) && LineOfSight(m, s, Pos(a.x, a.y), p)
  {
  }

  /** Whether tile `p` lies in the square of half-width `size` around (x, y). */
  predicate InBox(x: int, y: int, size: int, p: Pos)
  {
    -size <= p.x - x <= size && -size <= p.y - y <= size
  }

  /** Offsets of the square already scanned: rows before `i`, and in row `i` the columns before `j`. */
  predicate Scanned(x: int, y: int, size: int, p: Pos, i: int, j: int)
  {
    InBox(x, y, size, p) && (p.x - x < i || (p.x - x == i && p.y - y < j))
  }

  /**
   * Scans every offset of the square of half-width `size` around (x, y),
   * row by row, and sorts each offset the shape test `accept` admits into
   * the visible or the blocked list by tracing a line from the centre;
   * results are remembered per tile.
   */
  method TraceArea(gmap: GameMap, x: int, y: int, size: int, accept: (int, int) -> bool,
                   tag: int, types: seq<string>, ghost sees: Pos -> bool) returns (visible: seq<Pos>, blocked: seq<Pos>)
    requires gmap.info.width > 0 && gmap.info.height > 0
    requires forall p {:trigger LineOfSight(gmap.info, Sight(gmap.terrain, gmap.losTable, tag, types), Pos(x, y), p)} :: sees(p) == LineOfSight(gmap.info, Sight(gmap.terrain, gmap.losTable, tag, types), Pos(x, y), p)
    ensures forall p ::
      && (p in visible <==> InBox(x, y, size, p) && accept(p.x - x, p.y - y) && sees(p))
      && (p in blocked <==> InBox(x, y, size, p) && accept(p.x - x, p.y - y) && !sees(p))
  {
    var cache: map<Pos, bool> := map[];
    visible, blocked := [], [];
    var dx := -size;
    while dx <= size
      invariant forall p :: p in cache ==> cache[p] == sees(p)
      invariant forall p :: p in visible <==> Scanned(x, y, size, p, dx, -size) && accept(p.x - x, p.y - y) && sees(p)
      invariant forall p :: p in blocked <==> Scanned(x, y, size, p, dx, -size) && accept(p.x - x, p.y - y) && !sees(p)
      decreases size - dx
    {
      var dy := -size;
      while dy <= size
        invariant forall p :: p in cache ==> cache[p] == sees(p)
        invariant forall p :: p in visible <==> Scanned(x, y, size, p, dx, dy) && accept(p.x - x, p.y - y) && sees(p)
        invariant forall p :: p in blocked <==> Scanned(x, y, size, p, dx, dy) && accept(p.x - x, p.y - y) && !sees(p)
        decreases size - dy
      {
        if accept(dx, dy) {
          var t := Pos(x + dx, y + dy);
          var seen: bool;
          if t in cache {
            seen := cache[t];
          } else {
            seen := gmap.HasAoeLoS(x, y, t.x, t.y, tag, types);
            cache := cache[t := seen];
          }
          if seen {
            visible := visible + [t];
          } else {
            blocked := blocked + [t];
          }
        }
        dy := dy + 1;
      }
      dx := dx + 1;
    }
  }

  // ---------------------------------------------------------------------
  // Ordering the targets

  /** Inserts `e` before the first element whose key is not smaller. */
  function InsertBy<T>(e: T, s: seq<T>, key: T -> int): seq<T>
  {
    if |s| == 0 then [e]
    else if key(e) <= key(s[0]) then [e] + s
    else [s[0]] + InsertBy(e, s[1..], key)
  }

  /** Stable sort by ascending key. */
  function SortBy<T>(s: seq<T>, key: T -> int): seq<T>
  {
    if |s| == 0 then [] else InsertBy(s[0], SortBy(s[1..], key), key)
  }

  predicate SortedBy<T>(s: seq<T>, key: T -> int)
  {
    forall i, j :: 0 <= i < j < |s| ==> key(s[i]) <= key(s[j])
  }

  /** The elements with key `k`, in order. */
  function WithKey<T>(s: seq<T>, key: T -> int, k: int): seq<T>
  {
    if |s| == 0 then [] else (if key(s[0]) == k then [s[0]] else []) + WithKey(s[1..], key, k)
  }

  /** Inserting adds exactly the new element. */
  lemma {:induction false} InsertByPerm<T>(e: T, s: seq<T>, key: T -> int)
    ensures multiset(InsertBy(e, s, key)) == multiset(s) + multiset{e}
  {
    if |s| > 0 && key(e) > key(s[0]) {
      InsertByPerm(e, s[1..], key);
      assert s == [s[0]] + s[1..];
    }
  }

  /** Inserting an element whose key is at least `b` into keys at least `b` keeps every key at least `b`. */
  lemma {:induction false} InsertByAtLeast<T>(e: T, s: seq<T>, key: T -> int, b: int)
    requires b <= key(e)
    requires forall i :: 0 <= i < |s| ==> b <= key(s[i])
    ensures forall i :: 0 <= i < |InsertBy(e, s, key)| ==> b <= key(InsertBy(e, s, key)[i])
  {
    if |s| > 0 && key(e) > key(s[0]) {
      var tail := s[1..];
      assert forall i :: 0 <= i < |tail| ==> tail[i] == s[i + 1];
      InsertByAtLeast(e, tail, key, b);
      var rest := InsertBy(e, tail, key);
      assert forall i :: 0 < i < |rest| + 1 ==> ([s[0]] + rest)[i] == rest[i - 1];
    }
  }

  /** Inserting into a sorted sequence keeps it sorted. */
  lemma {:induction false} InsertBySorted<T>(e: T, s: seq<T>, key: T -> int)
    requires SortedBy(s, key)
    ensures SortedBy(InsertBy(e, s, key), key)
  {
    if |s| == 0 {
    } else if key(e) <= key(s[0]) {
      var r := [e] + s;
      forall i, j | 0 <= i < j < |r| ensures key(r[i]) <= key(r[j]) {
        if i > 0 {
          assert r[i] == s[i - 1] && r[j] == s[j - 1];
        } else {
          assert r[j] == s[j - 1];
          assert key(s[0]) <= key(s[j - 1]) || j - 1 == 0;
        }
      }
    } else {
      var tail := s[1..];
      assert forall i :: 0 <= i < |tail| ==> tail[i] == s[i + 1];
      assert SortedBy(tail, key) by {
        forall i, j | 0 <= i < j < |tail| ensures key(tail[i]) <= key(tail[j]) {
          assert tail[i] == s[i + 1] && tail[j] == s[j + 1];
        }
      }
      InsertBySorted(e, tail, key);
      InsertByAtLeast(e, tail, key, key(s[0]));
      var rest := InsertBy(e, tail, key);
      var r := [s[0]] + rest;
      assert InsertBy(e, s, key) == r;
      forall i, j | 0 <= i < j < |r| ensures key(r[i]) <= key(r[j]) {
        assert r[j] == rest[j - 1];
        if i > 0 {
          assert r[i] == rest[i - 1];
        }
      }
    }
  }

  /** Inserting keeps the relative order of each key's elements, the new one first among its equals. */
  lemma {:induction false} InsertByWithKey<T>(e: T, s: seq<T>, key: T -> int, k: int)
    ensures WithKey(InsertBy(e, s, key), key, k) == (if key(e) == k then [e] else []) + WithKey(s, key, k)
  {
    if |s| == 0 {
    } else if key(e) <= key(s[0]) {
      assert ([e] + s)[0] == e && ([e] + s)[1..] == s;
    } else {
      var rest := InsertBy(e, s[1..], key);
      var head := if key(s[0]) == k then [s[0]] else [];
      assert InsertBy(e, s, key) == [s[0]] + rest;
      assert ([s[0]] + rest)[0] == s[0] && ([s[0]] + rest)[1..] == rest;
      assert WithKey([s[0]] + rest, key, k) == head + WithKey(rest, key, k);
      assert WithKey(s, key, k) == head + WithKey(s[1..], key, k);
      InsertByWithKey(e, s[1..], key, k);
      if key(e) == k {
        assert head == [];
      }
    }
  }

  /** Sorting keeps the elements, orders them by key, and keeps the original order among equal keys. */
  lemma {:induction false} SortByFacts<T>(s: seq<T>, key: T -> int)
    ensures multiset(SortBy(s, key)) == multiset(s)
    ensures SortedBy(SortBy(s, key), key)
    ensures forall k :: WithKey(SortBy(s, key), key, k) == WithKey(s, key, k)
  {
    if |s| > 0 {
      SortByFacts(s[1..], key);
      InsertByPerm(s[0], SortBy(s[1..], key), key);
      InsertBySorted(s[0], SortBy(s[1..], key), key);
      assert s == [s[0]] + s[1..];
      forall k ensures WithKey(SortBy(s, key), key, k) == WithKey(s, key, k) {
        InsertByWithKey(s[0], SortBy(s[1..], key), key, k);
        assert WithKey(s, key, k) == (if key(s[0]) == k then [s[0]] else []) + WithKey(s[1..], key, k);
      }
    }
  }

  /** Whether event `e` is hit by the area: alive, targetable, and of a kind the skill affects. */
  predicate Qualifies(a: AreaSnapshot, e: MapEvent, friends: string, opponents: string, forFriend: bool, forOpponent: bool)
  {
    !e.erased && Targetable(a, EventPos(e))
    && ((e.kind == friends && forFriend) || (e.kind == opponents && forOpponent))
  }

  /** The events the area hits, in map order; none without an area. */
  function Candidates(aoe: Option<AreaSnapshot>, events: seq<MapEvent>, userIsActor: bool,
                      forFriend: bool, forOpponent: bool): (r: seq<MapEvent>)
    ensures aoe.None? ==> r == []
    ensures aoe.Some? ==> forall e :: e in r <==> (e in events &&
      Qualifies(aoe.value, e, if userIsActor then "actor" else "enemy", if userIsActor then "enemy" else "actor", forFriend, forOpponent))
  {
    if aoe.None? then []
    else
      var friends := if userIsActor then "actor" else "enemy";
      var opponents := if userIsActor then "enemy" else "actor";
      Filter(events, e => Qualifies(aoe.value, e, friends, opponents, forFriend, forOpponent))
  }

  /** Distance key for the area's order: "far" sorts by descending distance, anything else by ascending. */
  function OrderKey(m: MapInfo, a: AreaSnapshot, order: string): MapEvent -> int
  {
    if order == "far" then (e: MapEvent) => -DistTo(m, e.x, e.y, a.x, a.y)
    else (e: MapEvent) => DistTo(m, e.x, e.y, a.x, a.y)
  }

  /** A positive limit below the number of targets keeps only the first `limit`. */
  function Truncate<T>(s: seq<T>, limit: int): seq<T>
  {
    if limit > 0 && limit < |s| then s[..limit] else s
  }

  /** Concrete orders: targets at distances 5, 1 and 3 hit nearest first, or farthest first; a limit of 2 keeps the two nearest. */
  lemma OrderExample()
    ensures var key := (n: int) => n;
            && SortBy([5, 1, 3], key) == [1, 3, 5]
            && SortBy([5, 1, 3], (n: int) => -n) == [5, 3, 1]
            && Truncate(SortBy([5, 1, 3], key), 2) == [1, 3]
  {
    var key := (n: int) => n;
    assert SortBy([3], key) == [3];
    assert [1, 3][1..] == [3];
    assert SortBy([1, 3], key) == [1, 3];
    assert [5, 1, 3][1..] == [1, 3];
    assert InsertBy(5, [3], key) == [3, 5];
    assert InsertBy(5, [1, 3], key) == [1, 3, 5];
    var neg := (n: int) => -n;
    assert SortBy([3], neg) == [3];
    assert InsertBy(1, [3], neg) == [3, 1];
    assert SortBy([1, 3], neg) == [3, 1];
    assert SortBy([5, 1, 3], neg) == [5, 3, 1];
  }

  /** Queue entries for the chosen targets, all using skill `item`. */
  function QueueFor(item: nat, targets: seq<MapEvent>): (r: seq<AreaTarget>)
    ensures |r| == |targets|
    ensures forall i :: 0 <= i < |r| ==> r[i] == AreaTarget(Some(item), targets[i])
  {
    if |targets| == 0 then [] else [AreaTarget(Some(item), targets[0])] + QueueFor(item, targets[1..])
  }

  /** The sub-phases in which an action is being carried out. */
  predicate ActingSubPhase(subPhase: string)
  {
    subPhase == "invoke_action" || subPhase == "auto_actor_action" || subPhase == "enemy_action" || subPhase == "battle_window"
  }

  /**
   * Whether a skill is usable in the area rules. Area skills (area tag above
   * 0, SRPG mode, not a reaction action) are refused to the AI outside the
   * actor phase when they have a hole, and while an action is being carried
   * out they need the target inside the area or a cell-target tag; every
   * other case is left to the engine's own check `hostCanUse`.
   */
  function CanUse(hasItem: bool, srpgMode: bool, actionTiming: int, areaTag: int, minAreaTag: int,
                  aiUnderstandsAoE: bool, battlePhase: string, subPhase: string,
                  targetInArea: bool, cellTarget: bool, hostCanUse: bool): (r: bool)
    ensures !(hasItem && srpgMode && actionTiming != 1 && areaTag > 0) ==> r == hostCanUse
    ensures (hasItem && srpgMode && actionTiming != 1 && areaTag > 0 && minAreaTag > 0
             && !aiUnderstandsAoE && battlePhase != "actor_phase") ==> !r
    ensures (hasItem && srpgMode && actionTiming != 1 && areaTag > 0
             && !(minAreaTag > 0 && !aiUnderstandsAoE && battlePhase != "actor_phase")) ==>
            && (ActingSubPhase(subPhase) ==> r == (targetInArea || cellTarget))
            && (!ActingSubPhase(subPhase) ==> r == hostCanUse)
  {
    if hasItem && srpgMode && actionTiming != 1 && areaTag > 0 then
      if !aiUnderstandsAoE && battlePhase != "actor_phase" && minAreaTag > 0 then false
      else if ActingSubPhase(subPhase) then targetInArea || cellTarget
      else hostCanUse
    else hostCanUse
  }

  /** The area part of the game's temporary state. */
  class GameTemp {
    var activeAoE: Option<AreaSnapshot>
    var areaTargets: seq<AreaTarget>
    var shouldPayCost: bool

    constructor ()
      ensures activeAoE == None && areaTargets == [] && shouldPayCost
    {
      activeAoE := None;
      areaTargets := [];
      shouldPayCost := true;
    }

    /** Whether the unit standing on `p` is inside the highlighted area. */
    predicate InAreaAt(p: Pos)
      reads this
    {
      activeAoE.Some? && Targetable(activeAoE.value, p)
    }

    /** Outside SRPG mode the item cost is always paid; in it only while the flag is set. */
    predicate PaysItemCost(srpgMode: bool)
      reads this
    {
      !srpgMode || shouldPayCost
    }

    /** Whether the acting unit's action count advances. */
    predicate CountsActionTime()
      reads this
    {
      shouldPayCost
    }

    /**
     * Highlights the area of the acting unit's current action centred on
     * (x, y), cast in facing `dir` (0: face the centre from the unit).
     * Nothing happens without a unit or an action. The occupant table is
     * refreshed first.
     */
    method ShowArea(gmap: GameMap, caster: Option<Caster>, events: seq<MapEvent>, x: int, y: int, dir: Dir, g: SightDefaults)
      requires gmap.info.width > 0 && gmap.info.height > 0
      modifies this, gmap
      ensures areaTargets == old(areaTargets) && shouldPayCost == old(shouldPayCost)
      ensures caster.None? || caster.value.action.None? ==>
        activeAoE == old(activeAoE) && gmap.losTable == old(gmap.losTable)
      ensures caster.Some? && caster.value.action.Some? ==>
        var c := caster.value;
        var act := c.action.value;
        && gmap.losTable == TableAfter(old(gmap.losTable), events, c.eventId)
        && activeAoE.Some?
        && var a := activeAoE.value;
        && a.x == x && a.y == y && a.size == act.area && a.minSize == act.minArea && a.shape == act.areaType
        && a.dir == (if dir == 0 then DirTo(gmap.info, c.x, c.y, x, y) else dir)
        && SnapshotTraced(a, gmap.info, Sight(gmap.terrain, gmap.losTable,
                             SightTerrainTag(g, act.sight, c.throughTag), BlockingTypes(g, act.sight, c.kind)))
    {
      if caster.None? || caster.value.action.None? {
        return;
      }
      var c := caster.value;
      var act := c.action.value;
      gmap.MakeLoSTable(events, c.eventId);
      var d: Dir := if dir == 0 then DirTo(gmap.info, c.x, c.y, x, y) else dir;
      var tag := SightTerrainTag(g, act.sight, c.throughTag);
      var types := BlockingTypes(g, act.sight, c.kind);
      var accept := (i: int, j: int) => InArea(i, j, act.area, act.minArea, act.areaType, d);
      ghost var sight := Sight(gmap.terrain, gmap.losTable, tag, types);
      ghost var sees := p => LineOfSight(gmap.info, sight, Pos(x, y), p);
      var visible, blocked := TraceArea(gmap, x, y, act.area, accept, tag, types, sees);
      SnapshotFromTrace(x, y, act.area, act.minArea, act.areaType, d, visible, blocked, gmap.info, sight, accept, sees);
      activeAoE := Some(AreaSnapshot(x, y, act.area, act.minArea, act.areaType, d, visible, blocked));
    }

    method ClearArea()
      modifies this
      ensures activeAoE == None && areaTargets == old(areaTargets) && shouldPayCost == old(shouldPayCost)
    {
      activeAoE := None;
    }

    method ClearAreaTargets()
      modifies this
      ensures areaTargets == [] && activeAoE == old(activeAoE) && shouldPayCost == old(shouldPayCost)
    {
      areaTargets := [];
    }

    method AddAreaTarget(t: AreaTarget)
      modifies this
      ensures areaTargets == old(areaTargets) + [t]
      ensures activeAoE == old(activeAoE) && shouldPayCost == old(shouldPayCost)
    {
      areaTargets := areaTargets + [t];
    }

    method SetShouldPayCost(flag: bool)
      modifies this
      ensures shouldPayCost == flag && activeAoE == old(activeAoE) && areaTargets == old(areaTargets)
    {
      shouldPayCost := flag;
    }

    /**
     * Queues every event the highlighted area hits with skill `item`,
     * ordered by the skill's area order ("far": farthest from the centre
     * first; "random": any order; otherwise nearest first, ties in map
     * order) and cut to the skill's target limit when that is positive.
     * Answers whether any event was hit.
     */
    method SelectArea(m: MapInfo, events: seq<MapEvent>, userIsActor: bool, item: nat,
                      forFriend: bool, forOpponent: bool, limit: int, order: string) returns (found: bool)
      modifies this
      ensures activeAoE == old(activeAoE) && shouldPayCost == old(shouldPayCost)
      ensures var cands := Candidates(activeAoE, events, userIsActor, forFriend, forOpponent);
        && found == (|cands| > 0)
        && (!found ==> areaTargets == [])
        && (found && order != "random" ==>
              areaTargets == QueueFor(item, Truncate(SortBy(cands, OrderKey(m, activeAoE.value, order)), limit)))
        && (found && order == "random" ==>
              exists perm :: multiset(perm) == multiset(cands) && |perm| == |cands|
                             && areaTargets == QueueFor(item, Truncate(perm, limit)))
    {
      ClearAreaTargets();
      var cands := Candidates(activeAoE, events, userIsActor, forFriend, forOpponent);
      if |cands| == 0 {
        return false;
      }
      var ordered: seq<MapEvent>;
      if order == "random" {
        // Any permutation satisfies the contract; scan order is one.
        ordered := cands;
      } else {
        ordered := SortBy(cands, OrderKey(m, activeAoE.value, order));
      }
      var chosen := Truncate(ordered, limit);
      var i := 0;
      while i < |chosen|
        invariant 0 <= i <= |chosen|
        invariant areaTargets == QueueFor(item, chosen[..i])
        invariant activeAoE == old(activeAoE) && shouldPayCost == old(shouldPayCost)
      {
        AddAreaTarget(AreaTarget(Some(item), chosen[i]));
        i := i + 1;
      }
      assert chosen[..|chosen|] == chosen;
      return true;
    }

    /** The first queued hit, taken off the queue when the area action starts. */
    method TakeFirstTarget() returns (t: Option<AreaTarget>)
      modifies this
      ensures old(areaTargets) == [] ==> t.None? && areaTargets == []
      ensures old(areaTargets) != [] ==> t == Some(old(areaTargets)[0]) && areaTargets == old(areaTargets)[1..]
      ensures activeAoE == old(activeAoE) && shouldPayCost == old(shouldPayCost)
    {
      if |areaTargets| == 0 {
        return None;
      }
      t := Some(areaTargets[0]);
      areaTargets := areaTargets[1..];
    }

    /**
     * After each hit: while the user can still act and hits are queued, the
     * next hit is taken and, if well formed, started without paying the
     * cost again. Otherwise the area and the queue are dropped and the cost
     * flag is re-armed.
     */
    method AfterAction(canMove: bool) returns (next: Option<AreaTarget>)
      modifies this
      ensures canMove && old(areaTargets) != [] && old(areaTargets)[0].item.Some? ==>
        next == Some(old(areaTargets)[0]) && areaTargets == old(areaTargets)[1..]
        && !shouldPayCost && activeAoE == old(activeAoE)
      ensures !(canMove && old(areaTargets) != [] && old(areaTargets)[0].item.Some?) ==>
        next.None? && areaTargets == [] && activeAoE.None? && shouldPayCost
    {
      if canMove && |areaTargets| > 0 {
        var t := areaTargets[0];
        areaTargets := areaTargets[1..];
        if t.item.Some? {
          SetShouldPayCost(false);
          return Some(t);
        }
      }
      ClearArea();
      ClearAreaTargets();
      SetShouldPayCost(true);
      return None;
    }
  }

  /**
   * While an area is highlighted from a traced snapshot, a unit is in the
   * area exactly when its tile belongs to the shape and the centre sees it;
   * without a highlighted area no unit is in it.
   */
  lemma InAreaAtIffSeen(temp: GameTemp, m: MapInfo, s: Sight, p: Pos)
    requires m.width > 0 && m.height > 0
    requires temp.activeAoE.Some? ==> SnapshotTraced(temp.activeAoE.value, m, s)
    ensures temp.activeAoE.None? ==> !temp.InAreaAt(p)
    ensures temp.activeAoE.Some? ==>
      var a := temp.activeAoE.value;
      (temp.InAreaAt(p) <==> AreaTile(a.x, a.y, a.size, a.minSize, a.shape, a.dir, p) && LineOfSight(m, s, Pos(a.x, a.y), p))
  {
    if temp.activeAoE.Some? {
      TargetableIffSeen(temp.activeAoE.value, m, s, p);
    }
  }

  /**
   * The item cost and the action count are gated by the same flag in SRPG
   * mode, and outside it the cost is always paid.
   */
  lemma CostGatesAgree(temp: GameTemp)
    ensures temp.PaysItemCost(false)
    ensures temp.PaysItemCost(true) == temp.CountsActionTime() == temp.shouldPayCost
  {
  }

  /**
   * A whole area action: the first queued hit is taken and resolved with the
   * cost flag set, then each later hit is resolved through the after-action
   * step until the queue runs out or the user can no longer act
   * (`canMove(k)` after k hits). Counts how often the cost was charged and
   * how often the action count advanced.
   */
  method ResolveAreaAction(temp: GameTemp, canMove: nat -> bool) returns (charges: nat, actionTimes: nat, hits: nat)
    requires temp.areaTargets != [] && temp.shouldPayCost
    requires forall i :: 0 <= i < |temp.areaTargets| ==> temp.areaTargets[i].item.Some?
    modifies temp
    ensures charges == 1 && actionTimes == 1
    ensures 1 <= hits <= |old(temp.areaTargets)|
    ensures (forall k :: 1 <= k < |old(temp.areaTargets)| ==> canMove(k)) ==> hits == |old(temp.areaTargets)|
    ensures temp.areaTargets == [] && temp.activeAoE.None? && temp.shouldPayCost
  {
    ghost var queue := temp.areaTargets;
    var first := temp.TakeFirstTarget();
    charges, actionTimes, hits := 0, 0, 1;
    if temp.PaysItemCost(true) {
      charges := charges + 1;
    }
    if temp.CountsActionTime() {
      actionTimes := actionTimes + 1;
    }
    var done := false;
    while !done
      invariant 1 <= hits <= |queue|
      invariant !done ==> temp.areaTargets == queue[hits..] && (temp.shouldPayCost <==> hits == 1)
      invariant done ==> temp.areaTargets == [] && temp.activeAoE.None? && temp.shouldPayCost
      invariant done ==> hits == |queue| || !canMove(hits)
      invariant charges == 1 && actionTimes == 1
      decreases |queue| - hits, if done then 0 else 1
    {
      var next := temp.AfterAction(canMove(hits));
      if next.Some? {
        hits := hits + 1;
        if temp.PaysItemCost(true) {
          charges := charges + 1;
        }
        if temp.CountsActionTime() {
          actionTimes := actionTimes + 1;
        }
      } else {
        done := true;
      }
    }
  }
}

=== FILE: common.dfy ===
/**
 * Small shared vocabulary: an optional value, a map tile position and
 * integer helpers used by several plugins.
 */
module Common {

  datatype Option<T> = None | Some(value: T)

  /** A tile position on the map grid. */
  datatype Pos = Pos(x: int, y: int)

  function Abs(n: int): (r: int)
    ensures r >= 0 && (r == n || r == -n)
  {
    if n < 0 then -n else n
  }

  function Max(a: int, b: int): (r: int)
    ensures r >= a && r >= b && (r == a || r == b)
  {
    if a >= b then a else b
  }

  function Min(a: int, b: int): (r: int)
    ensures r <= a && r <= b && (r == a || r == b)
  {
    if a <= b then a else b
  }

  /** Sum of a sequence of integers. */
  function Sum(s: seq<int>): int
  {
    if |s| == 0 then 0 else Sum(s[..|s| - 1]) + s[|s| - 1]
  }

  /** Elements of `s` that satisfy `p`, in their original order. */
  function Filter<T(!new)>(s: seq<T>, p: T -> bool): (r: seq<T>)
    ensures |r| <= |s|
    ensures forall x :: x in r <==> x in s && p(x)
  {
    if |s| == 0 then []
    else if p(s[0]) then [s[0]] + Filter(s[1..], p)
    else Filter(s[1..], p)
  }

  lemma FilterAppend<T(!new)>(a: seq<T>, b: seq<T>, p: T -> bool)
    ensures Filter(a + b, p) == Filter(a, p) + Filter(b, p)
  {
    if |a| == 0 {
      assert a + b == b;
    } else {
      assert (a + b)[1..] == a[1..] + b;
      FilterAppend(a[1..], b, p);
    }
  }
}

=== FILE: cover.dfy ===
/**
 * The cover rules of SRPG_Cover_System: a defender standing next to a
 * cover tile (region 11, 12 or 13) lying between it and the attacker gets
 * that region's bonuses, and no unit may end its move on a cover tile.
 *
 * The plugin compares normalised dot products against 0.7. Here every
 * comparison is carried out exactly in integers: with A the vector from
 * attacker to defender and C the vector from the cover tile to the
 * defender (|C|² is 1 or 2), the squared cosine is (A·C)² / (|A|²·|C|²),
 * so comparing cosines of positive dot products is comparing
 * `Score = 2·(A·C)² / |C|²`, and "cosine > 0.7" is
 * `A·C > 0 && 100·Score > 98·|A|²`.
 */
module Cover {
  import opened Common

  /** A region's bonuses as whole percentages: damage taken reduction, evasion increase, attacker hit reduction. */
  datatype CoverBonus = CoverBonus(defense: int, evasion: int, attacker: int)

  const NoCover := CoverBonus(0, 0, 0)

  /** The cover regions and their bonuses. */
  function CoverTable(region: int): (r: Option<CoverBonus>)
    ensures r.Some? <==> 11 <= region <= 13
    ensures r.Some? ==> r.value.defense > 0 && r.value.evasion > 0 && r.value.attacker > 0
  {
    if region == 11 then Some(CoverBonus(10, 5, 10))
    else if region == 12 then Some(CoverBonus(15, 7, 15))
    else if region == 13 then Some(CoverBonus(20, 10, 20))
    else None
  }

  /** The eight neighbours of the defender, in the order they are examined. */
  const Offsets: seq<Pos> :=
    [Pos(-1, -1), Pos(0, -1), Pos(1, -1), Pos(-1, 0), Pos(1, 0), Pos(-1, 1), Pos(0, 1), Pos(1, 1)]

  function Dot(a: Pos, c: Pos): int
  {
    a.x * c.x + a.y * c.y
  }

  function Norm2(a: Pos): nat
  {
    a.x * a.x + a.y * a.y
  }

  /** Vector from the k-th neighbour to the defender. */
  function CoverVec(k: nat): (c: Pos)
    requires k < 8
    ensures c == Pos(-Offsets[k].x, -Offsets[k].y)
  {
    match k
    case 0 => Pos(1, 1)
    case 1 => Pos(0, 1)
    case 2 => Pos(-1, 1)
    case 3 => Pos(1, 0)
    case 4 => Pos(-1, 0)
    case 5 => Pos(1, -1)
    case 6 => Pos(0, -1)
    case _ => Pos(-1, -1)
  }

  /** The diagonal neighbours, whose cover vector has |C|² = 2; the others have |C|² = 1. */
  predicate Diagonal(k: nat)
  {
    k == 0 || k == 2 || k == 5 || k == 7
  }

  lemma CoverVecLength(k: nat)
    requires k < 8
    ensures Norm2(CoverVec(k)) == if Diagonal(k) then 2 else 1
  {
  }

  lemma NonZeroNorm(a: Pos)
    requires a != Pos(0, 0)
    ensures Norm2(a) > 0
  {
    if a.x != 0 {
      assert a.x * a.x > 0;
    } else {
      assert a.y * a.y > 0;
    }
  }

  /** Twice the squared dot product divided by |C|², an exact integer since |C|² is 1 or 2. */
  function Score(a: Pos, k: nat): nat
    requires k < 8
  {
    var d := Dot(a, CoverVec(k));
    if Diagonal(k) then d * d else 2 * d * d
  }

  /** The cosine between A and the k-th cover vector exceeds 0.7. */
  predicate Qualifies(a: Pos, k: nat)
    requires k < 8
  {
    Dot(a, CoverVec(k)) > 0 && 100 * Score(a, k) > 98 * Norm2(a)
  }

  /** The k-th neighbour of the defender. */
  function Neighbour(def: Pos, k: nat): Pos
    requires k < 8
  {
    Pos(def.x + Offsets[k].x, def.y + Offsets[k].y)
  }

  /** The cover-table entry of the k-th neighbour's region. */
  function NeighbourEntry(region: Pos -> int, def: Pos, k: nat): Option<CoverBonus>
    requires k < 8
  {
    CoverTable(region(Neighbour(def, k)))
  }

  /** The bonuses of the kept neighbour, none when no neighbour was kept. */
  function BonusOf(region: Pos -> int, def: Pos, best: Option<nat>): (r: CoverBonus)
    requires best.Some? ==> best.value < 8
    ensures r == NoCover || Some(r) in {CoverTable(11), CoverTable(12), CoverTable(13)}
  {
    if best.None? then NoCover
    else match NeighbourEntry(region, def, best.value)
      case None => NoCover
      case Some(b) => b
  }

  /** Neighbour k is a cover tile lying in the attacker's direction. */
  predicate Eligible(region: Pos -> int, def: Pos, a: Pos, k: nat)
    requires k < 8
  {
    NeighbourEntry(region, def, k).Some? && Qualifies(a, k)
  }

  /** Neighbour k has a strictly larger cosine with A than neighbour j. */
  predicate Beats(a: Pos, k: nat, j: nat)
    requires k < 8 && j < 8
  {
    Score(a, k) > Score(a, j)
  }

  /** Neighbour k is the cover used: eligible, not beaten by any eligible neighbour, and beating every eligible one examined before it. */
  predicate BestAt(region: Pos -> int, def: Pos, a: Pos, k: nat)
    requires k < 8
  {
    && Eligible(region, def, a, k)
    && (forall j :: 0 <= j < 8 && Eligible(region, def, a, j) ==> !Beats(a, j, k))
    && (forall j :: 0 <= j < k && Eligible(region, def, a, j) ==> Beats(a, k, j))
  }

  /** The scan over the neighbours from index k on, with `best` the neighbour kept so far. */
  function Chosen(region: Pos -> int, def: Pos, a: Pos, k: nat, best: Option<nat>): (r: Option<nat>)
    requires k <= 8 && (best.Some? ==> best.value < 8 && Eligible(region, def, a, best.value))
    ensures r.Some? ==> r.value < 8 && Eligible(region, def, a, r.value)
    decreases 8 - k
  {
    if k == 8 then best
    else
      var keep := Eligible(region, def, a, k) && (best.None? || Beats(a, k, best.value));
      Chosen(region, def, a, k + 1, if keep then Some(k) else best)
  }

  /** What the scan has established after examining the neighbours before k. */
  predicate ScanSoFar(region: Pos -> int, def: Pos, a: Pos, k: nat, best: Option<nat>)
    requires k <= 8
  {
    && (best.None? ==> forall j :: 0 <= j < k ==> !Eligible(region, def, a, j))
    && (best.Some? ==>
          && best.value < k
          && Eligible(region, def, a, best.value)
          && (forall j :: 0 <= j < k && Eligible(region, def, a, j) ==> !Beats(a, j, best.value))
          && (forall j :: 0 <= j < best.value && Eligible(region, def, a, j) ==> Beats(a, best.value, j)))
  }

  lemma {:induction false} ChosenFrom(region: Pos -> int, def: Pos, a: Pos, k: nat, best: Option<nat>)
    requires k <= 8 && ScanSoFar(region, def, a, k, best) && (best.Some? ==> best.value < 8)
    ensures ScanSoFar(region, def, a, 8, Chosen(region, def, a, k, best))
    decreases 8 - k
  {
    if k < 8 {
      var keep := Eligible(region, def, a, k) && (best.None? || Beats(a, k, best.value));
      var next := if keep then Some(k) else best;
      assert ScanSoFar(region, def, a, k + 1, next);
      ChosenFrom(region, def, a, k + 1, next);
    }
  }

  /**
   * The scan keeps the best cover: none exactly when no neighbour is an
   * eligible cover tile, and otherwise the neighbour with the largest
   * cosine, the earliest one among equals.
   */
  lemma ChosenIsBest(region: Pos -> int, def: Pos, a: Pos)
    ensures var r := Chosen(region, def, a, 0, None);
            && (r.None? <==> forall k :: 0 <= k < 8 ==> !Eligible(region, def, a, k))
            && (r.Some? ==> r.value < 8 && BestAt(region, def, a, r.value))
  {
    ChosenFrom(region, def, a, 0, None);
  }

  /** At most one neighbour is the best cover. */
  lemma BestIsUnique(region: Pos -> int, def: Pos, a: Pos, k1: nat, k2: nat)
    requires k1 < 8 && k2 < 8 && BestAt(region, def, a, k1) && BestAt(region, def, a, k2)
    ensures k1 == k2
  {
  }

  /** A completed scan has only one possible outcome. */
  lemma ScanIsDetermined(region: Pos -> int, def: Pos, a: Pos, b1: Option<nat>, b2: Option<nat>)
    requires ScanSoFar(region, def, a, 8, b1) && ScanSoFar(region, def, a, 8, b2)
    ensures b1 == b2
  {
    if b1.Some? && b2.Some? {
      BestIsUnique(region, def, a, b1.value, b2.value);
    }
  }

  /** The bonuses a defender at `def` gets against an attacker at `atk`. */
  function CoverBonusAt(region: Pos -> int, atk: Pos, def: Pos): (r: CoverBonus)
    ensures atk == def ==> r == NoCover
    ensures r == NoCover || Some(r) in {CoverTable(11), CoverTable(12), CoverTable(13)}
  {
    var a := Pos(def.x - atk.x, def.y - atk.y);
    if Norm2(a) == 0 then NoCover
    else
      BonusOf(region, def, Chosen(region, def, a, 0, None))
  }

  /** The outcome of a completed scan determines the bonus. */
  lemma ScanGivesBonus(region: Pos -> int, atk: Pos, def: Pos, best: Option<nat>)
    requires var a := Pos(def.x - atk.x, def.y - atk.y); Norm2(a) != 0 && ScanSoFar(region, def, a, 8, best)
    ensures best.Some? ==> best.value < 8
    ensures best.None? ==> CoverBonusAt(region, atk, def) == NoCover
    ensures best.Some? ==>
      CoverBonusAt(region, atk, def) == BonusOf(region, def, best)
  {
    var a := Pos(def.x - atk.x, def.y - atk.y);
    ChosenFrom(region, def, a, 0, None);
    ScanIsDetermined(region, def, a, best, Chosen(region, def, a, 0, None));
  }

  /** The bonus comes from the best eligible neighbour, or is zero when there is none. */
  lemma CoverBonusIsBest(region: Pos -> int, atk: Pos, def: Pos)
    requires atk != def
    ensures var a := Pos(def.x - atk.x, def.y - atk.y);
            && ((forall k :: 0 <= k < 8 ==> !Eligible(region, def, a, k)) ==> CoverBonusAt(region, atk, def) == NoCover)
            && (forall k :: 0 <= k < 8 && BestAt(region, def, a, k) ==>
                  CoverBonusAt(region, atk, def) == BonusOf(region, def, Some(k)))
  {
    var a := Pos(def.x - atk.x, def.y - atk.y);
    NonZeroNorm(a);
    var r := Chosen(region, def, a, 0, None);
    ChosenFrom(region, def, a, 0, None);
    ScanGivesBonus(region, atk, def, r);
    forall k | 0 <= k < 8 && BestAt(region, def, a, k)
      ensures CoverBonusAt(region, atk, def) == BonusOf(region, def, Some(k))
    {
      assert r.Some?;
      BestIsUnique(region, def, a, k, r.value);
    }
  }

  // The worked example: defender at (5, 5), attacker at (5, 0), so A = (0, 5).

  /** A cover tile at (5, 4), straight between the two, qualifies. */
  lemma ExampleBetweenQualifies()
    ensures Neighbour(Pos(5, 5), 1) == Pos(5, 4) && Qualifies(Pos(0, 5), 1)
  {
  }

  /** A cover tile at (5, 6), behind the defender, does not. */
  lemma ExampleBehindFails()
    ensures Neighbour(Pos(5, 5), 6) == Pos(5, 6) && !Qualifies(Pos(0, 5), 6)
  {
  }

  /** A cover tile at (6, 5), beside the defender, does not. */
  lemma ExampleBesideFails()
    ensures Neighbour(Pos(5, 5), 4) == Pos(6, 5) && !Qualifies(Pos(0, 5), 4)
  {
  }

  /** The diagonal tile (4, 4) qualifies (cosine 0.707) but scores lower than (5, 4). */
  lemma ExampleDiagonalLoses()
    ensures Neighbour(Pos(5, 5), 0) == Pos(4, 4) && Qualifies(Pos(0, 5), 0) && Beats(Pos(0, 5), 1, 0)
  {
  }

  /** No neighbour scores above the straight one. */
  lemma ExampleTopScore(j: nat)
    requires j < 8
    ensures Score(Pos(0, 5), j) <= Score(Pos(0, 5), 1)
  {
  }

  /** So in the worked example a cover tile at (5, 4) is the best one, whatever the other neighbours are... */
  lemma ExampleBest(region: Pos -> int)
    requires region(Pos(5, 4)) == 11
    ensures BestAt(region, Pos(5, 5), Pos(0, 5), 1)
  {
    ExampleBetweenQualifies();
    ExampleDiagonalLoses();
    forall j | 0 <= j < 8 ensures !Beats(Pos(0, 5), j, 1) {
      ExampleTopScore(j);
    }
  }

  /** ... and its region's bonuses are the ones applied. */
  lemma ExampleBonus(region: Pos -> int, atk: Pos, def: Pos)
    requires atk == Pos(5, 0) && def == Pos(5, 5) && region(Pos(5, 4)) == 11
    ensures CoverBonusAt(region, atk, def) == CoverBonus(10, 5, 10)
  {
    ExampleBest(region);
    CoverBonusIsBest(region, atk, def);
    assert Neighbour(def, 1) == Pos(5, 4);
  }

  /**
   * Examines the eight neighbours in order and keeps the region of the one
   * with the largest cosine above 0.7, replacing it only on a strictly
   * larger one. An attacker on the defender's own tile gets no cover.
   */
  method GetCoverBonus(region: Pos -> int, atk: Pos, def: Pos) returns (bonus: CoverBonus)
    ensures bonus == CoverBonusAt(region, atk, def)
  {
    var a := Pos(def.x - atk.x, def.y - atk.y);
    if Norm2(a) == 0 {
      return NoCover;
    }
    var best;
    best, bonus := ScanNeighbours(region, def, a);
    ScanGivesBonus(region, atk, def, best);
  }

  /** The scan over the eight neighbours, keeping the best qualifying cover tile and its bonuses. */
  method ScanNeighbours(region: Pos -> int, def: Pos, a: Pos) returns (best: Option<nat>, bonus: CoverBonus)
    ensures ScanSoFar(region, def, a, 8, best)
    ensures best.None? ==> bonus == NoCover
    ensures best.Some? ==>
      (best.value < 8 && bonus == BonusOf(region, def, best))
  {
    best := None;
    bonus := NoCover;
    var i := 0;
    while i < |Offsets|
      invariant 0 <= i <= 8
      invariant best.Some? ==> best.value < 8 && Eligible(region, def, a, best.value)
      invariant ScanSoFar(region, def, a, i, best)
      invariant best.None? ==> bonus == NoCover
      invariant best.Some? ==> bonus == BonusOf(region, def, best)
    {
      var entry := CoverTable(region(Neighbour(def, i)));
      if entry.Some? {
        // The neighbour is never the defender's own tile, so |C| is never 0.
        if Qualifies(a, i) && (best.None? || Score(a, i) > Score(a, best.value)) {
          best := Some(i);
          bonus := entry.value;
        }
      }
      i := i + 1;
    }
  }

  /** Units may not end their move on a cover tile; elsewhere the engine's own check `hostValid` decides. */
  function IsValidDestination(region: int, hostValid: bool): (r: bool)
    ensures 11 <= region <= 13 ==> !r
    ensures !(11 <= region <= 13) ==> r == hostValid
  {
    if CoverTable(region).Some? then false else hostValid
  }

  /** Damage after cover: reduced by the defense percentage when that is positive. */
  function CoveredDamage(value: real, b: CoverBonus): real
  {
    if b.defense > 0 then value * (1.0 - b.defense as real / 100.0) else value
  }

  /** The attacker's hit rate after cover: reduced by the attacker percentage when that is positive. */
  function CoveredHit(value: real, b: CoverBonus): real
  {
    if b.attacker > 0 then value * (1.0 - b.attacker as real / 100.0) else value
  }

  /** The defender's evasion after cover: raised by the evasion percentage when that is positive. */
  function CoveredEvasion(value: real, b: CoverBonus): real
  {
    if b.evasion > 0 then value * (1.0 + b.evasion as real / 100.0) else value
  }

  /** Without cover nothing changes; with a table entry, non-negative damage and hit shrink but stay non-negative, and evasion grows. */
  lemma CoverModifiers(value: real, b: CoverBonus)
    requires b == NoCover || Some(b) in {CoverTable(11), CoverTable(12), CoverTable(13)}
    ensures b == NoCover ==> CoveredDamage(value, b) == value && CoveredHit(value, b) == value && CoveredEvasion(value, b) == value
    ensures b != NoCover && value >= 0.0 ==>
      && 0.0 <= CoveredDamage(value, b) <= value
      && 0.0 <= CoveredHit(value, b) <= value
      && CoveredEvasion(value, b) >= value
  {
  }

  /**
   * Damage, hit and evasion with cover, as the three formulas apply it:
   * only while both an acting and a target unit exist, each recomputing
   * the cover bonus from their positions.
   */
  method ApplyCover(region: Pos -> int, active: Option<Pos>, target: Option<Pos>,
                    damage: real, hit: real, evasion: real) returns (damage': real, hit': real, evasion': real)
    ensures active.None? || target.None? ==> damage' == damage && hit' == hit && evasion' == evasion
    ensures active.Some? && target.Some? ==>
      var b := CoverBonusAt(region, active.value, target.value);
      && damage' == CoveredDamage(damage, b) && hit' == CoveredHit(hit, b) && evasion' == CoveredEvasion(evasion, b)
  {
    damage', hit', evasion' := damage, hit, evasion;
    if active.Some? && target.Some? {
      var b := GetCoverBonus(region, active.value, target.value);
      damage' := CoveredDamage(damage, b);
      var b2 := GetCoverBonus(region, active.value, target.value);
      hit' := CoveredHit(hit, b2);
      var b3 := GetCoverBonus(region, active.value, target.value);
      evasion' := CoveredEvasion(evasion, b3);
    }
  }
}

=== FILE: direction_mod.dfy ===
/**
 * Attack-direction rules of SRPG_DirectionMod_SkillMastery: before a
 * battle the attacker turns toward its target, the pair of facings is
 * classified as a front, side or back attack, and that classification
 * scales damage, hit and evasion between units of different groups.
 */
module DirectionMod {
  import opened Common
  import opened AoeShapes

  datatype AttackDirection = Front | Side | Back

  /**
   * The facing the attacker takes toward its target, where (dX, dY) is the
   * attacker's position minus the target's. Off the diagonals it looks
   * along the longer axis; on a diagonal it takes the axis the target
   * faces along; on the target's own tile, or on a diagonal when the
   * target's facing is not one of the four, it keeps its facing.
   */
  function FaceToward(dX: int, dY: int, facing: Dir, targetFacing: Dir): (r: Dir)
    ensures dX == 0 && dY == 0 ==> r == facing
    ensures Abs(dX) != Abs(dY) || (dX != 0 && Cardinal(targetFacing)) ==>
      Cardinal(r) && Forward(-dX, -dY, r) == Max(Abs(dX), Abs(dY))
    ensures Abs(dX) == Abs(dY) && dX != 0 ==>
      && ((targetFacing == 2 || targetFacing == 8) ==> (r == 2 || r == 8))
      && ((targetFacing == 4 || targetFacing == 6) ==> (r == 4 || r == 6))
      && (!Cardinal(targetFacing) ==> r == facing)
  {
    if Abs(dX) == Abs(dY) then
      if dX == 0 then facing
      else if targetFacing == 2 || targetFacing == 8 then (if dY < 0 then 2 else 8)
      else if targetFacing == 4 || targetFacing == 6 then (if dX < 0 then 6 else 4)
      else facing
    else if Abs(dX) > Abs(dY) then (if dX < 0 then 6 else 4)
    else (if dY < 0 then 2 else 8)
  }

  /**
   * Off the diagonals the attacker's new facing is the only one of the
   * four that points along the longer axis toward the target.
   */
  lemma FacingIsUnique(dX: int, dY: int, facing: Dir, targetFacing: Dir, d: Dir)
    requires Abs(dX) != Abs(dY)
    requires Cardinal(d) && Forward(-dX, -dY, d) == Max(Abs(dX), Abs(dY))
    ensures d == FaceToward(dX, dY, facing, targetFacing)
  {
    assert Forward(-dX, -dY, d) == -dX * FX(d) - dY * FY(d);
    if d == 2 {
      assert FX(d) == 0 && FY(d) == 1;
    } else if d == 4 {
      assert FX(d) == -1 && FY(d) == 0;
    } else if d == 6 {
      assert FX(d) == 1 && FY(d) == 0;
    } else {
      assert FX(d) == 0 && FY(d) == -1;
    }
  }

  /**
   * The attack's classification from the target's facing and the
   * attacker's: back when both face the same way, front when they face
   * each other, side otherwise and whenever the target's facing is not
   * one of the four.
   */
  function Classify(targetFacing: Dir, facing: Dir): (r: AttackDirection)
    ensures Cardinal(targetFacing) ==>
      && (r == Back <==> facing == targetFacing)
      && (r == Front <==> facing == 10 - targetFacing)
    ensures !Cardinal(targetFacing) ==> r == Side
  {
    match targetFacing
    case 2 => (if facing == 2 then Back else if facing == 8 then Front else Side)
    case 4 => (if facing == 4 then Back else if facing == 6 then Front else Side)
    case 6 => (if facing == 4 then Front else if facing == 6 then Back else Side)
    case 8 => (if facing == 2 then Front else if facing == 8 then Back else Side)
    case _ => Side
  }

  /** A skill tagged with a direction setting of "false" ignores the direction rules. */
  predicate IgnoresDirection(srpgDirection: Option<string>)
  {
    srpgDirection.Some? && srpgDirection.value != "" && srpgDirection.value == "false"
  }

  /** The classification recorded for an attack from offset (dX, dY) with the given facings and skill tag. */
  function AttackDirectionFor(dX: int, dY: int, facing: Dir, targetFacing: Dir, srpgDirection: Option<string>): (r: AttackDirection)
    ensures IgnoresDirection(srpgDirection) ==> r == Front
  {
    if IgnoresDirection(srpgDirection) then Front
    else Classify(targetFacing, FaceToward(dX, dY, facing, targetFacing))
  }

  /** The facing the defender is turned to before the battle: toward the attacker, when the attacker faces one of the four ways. */
  function TargetTurn(facing: Dir, targetFacing: Dir): Dir
  {
    if Cardinal(facing) then 10 - facing else targetFacing
  }

  /** A target looking straight at the attacker (off the diagonals) is hit from the front. */
  lemma FacingEachOtherIsFront(dX: int, dY: int, facing: Dir, targetFacing: Dir)
    requires Abs(dX) != Abs(dY)
    requires targetFacing == FaceToward(-dX, -dY, targetFacing, facing)
    ensures Classify(targetFacing, FaceToward(dX, dY, facing, targetFacing)) == Front
  {
  }

  /** A target looking straight away from the attacker (off the diagonals) is hit from behind. */
  lemma FacingAwayIsBack(dX: int, dY: int, facing: Dir, targetFacing: Dir)
    requires Abs(dX) != Abs(dY)
    requires targetFacing == FaceToward(dX, dY, targetFacing, facing)
    ensures Classify(targetFacing, FaceToward(dX, dY, facing, targetFacing)) == Back
  {
  }

  /**
   * On a diagonal the attacker takes the target's axis, so a target facing
   * one of the four ways is hit from the front or from behind, never the side.
   */
  lemma DiagonalIsNeverSide(dX: int, dY: int, facing: Dir, targetFacing: Dir)
    requires Abs(dX) == Abs(dY) && dX != 0 && Cardinal(targetFacing)
    ensures Classify(targetFacing, FaceToward(dX, dY, facing, targetFacing)) != Side
  {
  }

  /** After the defender is turned, the two face each other. */
  lemma TurnedTargetFacesAttacker(facing: Dir, targetFacing: Dir)
    requires Cardinal(facing)
    ensures Classify(TargetTurn(facing, targetFacing), facing) == Front
  {
  }

  /** Whether the directional modifiers apply: the action's subject is the active unit and the two units belong to different groups. */
  predicate ModifierApplies(subjectIsActive: bool, activeGroup: string, targetGroup: string)
  {
    subjectIsActive && activeGroup != targetGroup
  }

  /** Damage or hit scaled by the side or back multiplier; a front attack, or one the gate refuses, is unchanged. */
  function DirectionalScale(value: real, applies: bool, dir: AttackDirection, sideMul: real, backMul: real): (r: real)
    ensures !applies || dir == Front ==> r == value
    ensures applies && dir == Side ==> r == value * sideMul
    ensures applies && dir == Back ==> r == value * backMul
  {
    if applies && dir == Side then value * sideMul
    else if applies && dir == Back then value * backMul
    else value
  }

  /** Evasion scaled like damage; where the gate applies, a hit rate of 1 or more cancels evasion entirely. */
  function DirectionalEvasion(value: real, applies: bool, dir: AttackDirection, sideEva: real, backEva: real, hitRate: real): (r: real)
    ensures !applies ==> r == value
    ensures applies && hitRate >= 1.0 ==> r == 0.0
    ensures applies && hitRate < 1.0 ==> r == DirectionalScale(value, applies, dir, sideEva, backEva)
  {
    if !applies then value
    else if hitRate >= 1.0 then 0.0
    else DirectionalScale(value, applies, dir, sideEva, backEva)
  }

  /** Units of the same group, or an action whose subject is not the active unit, get no directional change. */
  lemma UngatedIsUnmodified(subjectIsActive: bool, activeGroup: string, targetGroup: string, value: real,
                            dir: AttackDirection, sideMul: real, backMul: real, hitRate: real)
    requires !subjectIsActive || activeGroup == targetGroup
    ensures DirectionalScale(value, ModifierApplies(subjectIsActive, activeGroup, targetGroup), dir, sideMul, backMul) == value
    ensures DirectionalEvasion(value, ModifierApplies(subjectIsActive, activeGroup, targetGroup), dir, sideMul, backMul, hitRate) == value
  {
  }

  /** A map character as these rules see it: a fixed position and a facing that can be changed. */
  class Character {
    const x: int
    const y: int
    var facing: Dir

    constructor (x0: int, y0: int, facing0: Dir)
      ensures x == x0 && y == y0 && facing == facing0
    {
      x, y, facing := x0, y0, facing0;
    }
  }

  /** The attack direction remembered between the pre-battle turn and the damage formulas. */
  class DirectionState {
    var attackDirection: AttackDirection

    /** A new game starts with a front attack recorded. */
    constructor ()
      ensures attackDirection == Front
    {
      attackDirection := Front;
    }

    /** After every battle the recorded direction returns to front. */
    method ResetAfterBattle()
      modifies this
      ensures attackDirection == Front
    {
      attackDirection := Front;
    }

    /**
     * Turns the attacker toward the target and records the classification.
     * The two may be the same character, which then keeps its facing.
     */
    method DecideAttackDirection(active: Character, target: Character, srpgDirection: Option<string>)
      modifies this, active
      ensures active.facing == FaceToward(active.x - target.x, active.y - target.y, old(active.facing), old(target.facing))
      ensures attackDirection == AttackDirectionFor(active.x - target.x, active.y - target.y,
                                                    old(active.facing), old(target.facing), srpgDirection)
    {
      var dX := active.x - target.x;
      var dY := active.y - target.y;
      if Abs(dX) == Abs(dY) {
        if dX < 0 && dY < 0 {
          if target.facing == 2 || target.facing == 8 { active.facing := 2; }
          else if target.facing == 4 || target.facing == 6 { active.facing := 6; }
        }
        if dX > 0 && dY < 0 {
          if target.facing == 2 || target.facing == 8 { active.facing := 2; }
          else if target.facing == 4 || target.facing == 6 { active.facing := 4; }
        }
        if dX < 0 && dY > 0 {
          if target.facing == 2 || target.facing == 8 { active.facing := 8; }
          else if target.facing == 4 || target.facing == 6 { active.facing := 6; }
        }
        if dX > 0 && dY > 0 {
          if target.facing == 2 || target.facing == 8 { active.facing := 8; }
          else if target.facing == 4 || target.facing == 6 { active.facing := 4; }
        }
      } else {
        if Abs(dX) > Abs(dY) {
          if dX < 0 { active.facing := 6; }
          else if dX > 0 { active.facing := 4; }
        } else {
          if dY < 0 { active.facing := 2; }
          else if dY > 0 { active.facing := 8; }
        }
      }
      var direction := Side;
      if target.facing == 2 {
        if active.facing == 2 { direction := Back; }
        else if active.facing == 8 { direction := Front; }
      } else if target.facing == 4 {
        if active.facing == 4 { direction := Back; }
        else if active.facing == 6 { direction := Front; }
      } else if target.facing == 6 {
        if active.facing == 4 { direction := Front; }
        else if active.facing == 6 { direction := Back; }
      } else if target.facing == 8 {
        if active.facing == 2 { direction := Front; }
        else if active.facing == 8 { direction := Back; }
      }
      if srpgDirection.Some? && srpgDirection.value != "" {
        if srpgDirection.value == "false" {
          direction := Front;
        }
      }
      attackDirection := direction;
    }

    /**
     * The pre-battle turn: the same facing and classification as
     * `DecideAttackDirection`, after which the defender is turned to face
     * the attacker. When the two are the same character it ends up facing
     * the other way.
     */
    method PreBattleSetDirection(active: Character, target: Character, srpgDirection: Option<string>)
      modifies this, active, target
      ensures attackDirection == AttackDirectionFor(active.x - target.x, active.y - target.y,
                                                    old(active.facing), old(target.facing), srpgDirection)
      ensures active != target ==>
        && active.facing == FaceToward(active.x - target.x, active.y - target.y, old(active.facing), old(target.facing))
        && target.facing == TargetTurn(active.facing, old(target.facing))
      ensures active == target ==> active.facing == TargetTurn(old(active.facing), old(active.facing))
    {
      DecideAttackDirection(active, target, srpgDirection);
      if active.facing == 2 {
        target.facing := 8;
      } else if active.facing == 4 {
        target.facing := 6;
      } else if active.facing == 6 {
        target.facing := 4;
      } else if active.facing == 8 {
        target.facing := 2;
      }
    }

    /**
     * The damage formula's directional step: in SRPG mode with both units
     * present, the direction is decided afresh during the battle window
     * (turning the attacker toward the target), and the value is then scaled
     * by the recorded direction when the action's subject is the active unit
     * and the two units belong to different groups.
     */
    method DirectionalDamage(srpgMode: bool, active: Character?, target: Character?, srpgDirection: Option<string>,
                             subPhase: string, subjectIsActive: bool, activeGroup: string, targetGroup: string,
                             value: real, sideMul: real, backMul: real) returns (r: real)
      modifies this, active
      ensures !(srpgMode && active != null && target != null) ==> r == value && attackDirection == old(attackDirection)
      ensures active != null && !(srpgMode && target != null && subPhase == "battle_window") ==>
        active.facing == old(active.facing)
      ensures srpgMode && active != null && target != null ==>
        && (subPhase == "battle_window" ==>
              && active.facing == FaceToward(active.x - target.x, active.y - target.y,
                                             old(active.facing), old(target.facing))
              && attackDirection == AttackDirectionFor(active.x - target.x, active.y - target.y,
                                                       old(active.facing), old(target.facing), srpgDirection))
        && (subPhase != "battle_window" ==> attackDirection == old(attackDirection))
        && r == DirectionalScale(value, ModifierApplies(subjectIsActive, activeGroup, targetGroup),
                                 attackDirection, sideMul, backMul)
      ensures activeGroup == targetGroup || !subjectIsActive ==> r == value
    {
      if !(srpgMode && active != null && target != null) {
        return value;
      }
      if subPhase == "battle_window" {
        DecideAttackDirection(active, target, srpgDirection);
      }
      r := DirectionalScale(value, ModifierApplies(subjectIsActive, activeGroup, targetGroup),
                            attackDirection, sideMul, backMul);
    }
  }
}

=== FILE: grid_menu.dfy ===
/**
 * GridMenu: a menu of icons laid out on a grid of 48x48 cells. Icons are
 * hidden by switch conditions, locked by grid-variable requirements, and
 * a Single icon runs its script once and then shows as triggered. The
 * window maps visible icons to cells, moves the cursor to the nearest
 * icon in a direction, scrolls with the mouse wheel and runs icons on
 * click. Plugin parameters are given already parsed; game switches and
 * variables are parameters of the model.
 */
module GridMenu {
  import opened Common

  /** Width and height of a grid cell, in pixels. */
  const ItemSize: int := 48

  /**
   * One configured icon: its grid cell, its switch list (None where the
   * list does not parse), its grid-variable requirements keyed 1 to 7
   * (absent where empty or not a number), whether it is Single, and its
   * normal, locked and triggered icon indices.
   */
  datatype Icon = Icon(
    x: int, y: int,
    switches: Option<seq<int>>,
    required: map<int, int>,
    single: bool,
    iconIndex: int, lockedIcon: int, triggeredIcon: int)

  /** Game state the menu reads: switches, variables and the grid-variable ids configured 1 to 7. */
  datatype World = World(switchOn: int -> bool, variable: int -> int, gridVar: int -> int)

  datatype IconState = Hidden | Locked | Triggered | Normal

  predicate IsActive(s: IconState)
  {
    s == Triggered || s == Normal
  }

  // ---------------------------------------------------------------------
  // Evaluation
  // ---------------------------------------------------------------------

  /** The icon is switch-based: its switch list parses and is non-empty. */
  predicate SwitchBased(icon: Icon)
  {
    icon.switches.Some? && |icon.switches.value| > 0
  }

  /** A switch-based icon is hidden unless all of its switches are ON. */
  predicate HiddenBySwitches(icon: Icon, w: World)
  {
    SwitchBased(icon) && !(forall s :: s in icon.switches.value ==> w.switchOn(s))
  }

  /** Requirement `i` is configured and its grid variable is below it. */
  predicate Unmet(icon: Icon, w: World, i: int)
  {
    w.gridVar(i) > 0 && i in icon.required && w.variable(w.gridVar(i)) < icon.required[i]
  }

  predicate LockedByVariables(icon: Icon, w: World)
  {
    exists i | 1 <= i <= 7 :: Unmet(icon, w, i)
  }

  /** The icon's state: hidden, else locked, else triggered (Single and latched), else normal. */
  function EvaluateIcon(icon: Icon, index: int, w: World, triggered: set<int>): (r: IconState)
    ensures r == Hidden <==> HiddenBySwitches(icon, w)
    ensures r == Locked <==> !HiddenBySwitches(icon, w) && LockedByVariables(icon, w)
    ensures r == Triggered <==> !HiddenBySwitches(icon, w) && !LockedByVariables(icon, w) && icon.single && index in triggered
  {
    if HiddenBySwitches(icon, w) then Hidden
    else if LockedByVariables(icon, w) then Locked
    else if icon.single && index in triggered then Triggered
    else Normal
  }

  /** An icon without a switch list is never hidden, whatever the switches. */
  lemma NoSwitchesNeverHidden(icon: Icon, index: int, w: World, triggered: set<int>)
    requires icon.switches.None? || icon.switches.value == []
    ensures EvaluateIcon(icon, index, w, triggered) != Hidden
  {
  }

  /** Visibility and locking do not depend on the latch; only the triggered state does. */
  lemma LatchOnlyAffectsTriggered(icon: Icon, index: int, w: World, t1: set<int>, t2: set<int>)
    ensures (EvaluateIcon(icon, index, w, t1) == Hidden) == (EvaluateIcon(icon, index, w, t2) == Hidden)
    ensures IsActive(EvaluateIcon(icon, index, w, t1)) == IsActive(EvaluateIcon(icon, index, w, t2))
    ensures !icon.single ==> EvaluateIcon(icon, index, w, t1) == EvaluateIcon(icon, index, w, t2)
  {
  }

  /** The icon graphic drawn for an icon in state `s`. */
  function Graphic(icon: Icon, s: IconState): (g: int)
    ensures g == icon.iconIndex || g == icon.lockedIcon || g == icon.triggeredIcon
    ensures !IsActive(s) && icon.lockedIcon >= 0 ==> g == icon.lockedIcon
    ensures s == Triggered && icon.triggeredIcon >= 0 ==> g == icon.triggeredIcon
    ensures s == Normal ==> g == icon.iconIndex
  {
    if !IsActive(s) then (if icon.lockedIcon >= 0 then icon.lockedIcon else icon.iconIndex)
    else if s == Triggered then (if icon.triggeredIcon >= 0 then icon.triggeredIcon else icon.iconIndex)
    else icon.iconIndex
  }

  /** JavaScript's `%`: the remainder takes the sign of the dividend. */
  function JsRem(a: int, b: int): int
    requires b > 0
  {
    if a >= 0 then a % b else -((-a) % b)
  }

  /** The source rectangle's corner on the 16-column icon sheet for `iconIndex`. */
  function SheetCorner(iconIndex: int, pw: int, ph: int): (corner: Pos)
    requires pw > 0 && ph > 0
  {
    Pos(JsRem(iconIndex, 16) * pw, (iconIndex / 16) * ph)
  }

  /** A non-negative index lands on the sheet, and its corner gives the index back. */
  lemma SheetCornerRoundTrip(iconIndex: int, pw: int, ph: int)
    requires pw > 0 && ph > 0 && iconIndex >= 0
    ensures var c := SheetCorner(iconIndex, pw, ph);
      && 0 <= c.x < 16 * pw && c.y >= 0
      && c.x / pw + 16 * (c.y / ph) == iconIndex
  {
    var c := SheetCorner(iconIndex, pw, ph);
    var col, row := iconIndex % 16, iconIndex / 16;
    assert c.x == col * pw && c.y == row * ph;
    assert col * pw / pw == col by { DivMultiple(col, pw); }
    assert row * ph / ph == row by { DivMultiple(row, ph); }
    assert 0 <= col * pw < 16 * pw by { MulBelow(col, 16, pw); }
    assert row * ph >= 0 by { MulNonNeg(row, ph); }
  }

  lemma DivMultiple(q: int, d: int)
    requires d > 0
    ensures q * d / d == q
  {
    DivIff(q * d, d, q);
  }

  lemma MulBelow(a: int, b: int, d: int)
    requires 0 <= a < b && d > 0
    ensures 0 <= a * d < b * d
  {
  }

  lemma MulNonNeg(a: int, d: int)
    requires a >= 0 && d > 0
    ensures a * d >= 0
  {
  }

  /** A pixel lies in column q of width d exactly when its floor quotient is q. */
  lemma DivIff(p: int, d: int, q: int)
    requires d > 0
    ensures q * d <= p < q * d + d <==> p / d == q
  {
    var r := p / d;
    assert p == r * d + p % d && 0 <= p % d < d;
    if q * d <= p < q * d + d && q != r {
      if q < r {
        MulMonotone(q + 1, r, d);
      } else {
        MulMonotone(r + 1, q, d);
      }
    }
  }

  lemma MulMonotone(a: int, b: int, d: int)
    requires a <= b && d > 0
    ensures a * d <= b * d
  {
    assert b * d - a * d == (b - a) * d;
    MulNonNeg(b - a, d);
  }

  // ---------------------------------------------------------------------
  // Cells
  // ---------------------------------------------------------------------

  datatype Rect = Rect(x: int, y: int, width: int, height: int)

  predicate Contains(r: Rect, px: int, py: int)
  {
    r.x <= px < r.x + r.width && r.y <= py < r.y + r.height
  }

  /** The cell of icon `index`; an index out of range gets the cell at the origin. */
  function ItemRect(icons: seq<Icon>, index: int): (r: Rect)
    ensures r.width == ItemSize && r.height == ItemSize
    ensures !(0 <= index < |icons|) ==> r.x == 0 && r.y == 0
  {
    if index < 0 || index >= |icons| then Rect(0, 0, ItemSize, ItemSize)
    else Rect(icons[index].x * ItemSize, icons[index].y * ItemSize, ItemSize, ItemSize)
  }

  /** A content pixel lies in an icon's cell exactly when it falls in that icon's grid column and row. */
  lemma CellHit(icons: seq<Icon>, index: int, px: int, py: int)
    requires 0 <= index < |icons|
    ensures Contains(ItemRect(icons, index), px, py) <==> Pos(px / ItemSize, py / ItemSize) == Pos(icons[index].x, icons[index].y)
  {
    DivIff(px, ItemSize, icons[index].x);
    DivIff(py, ItemSize, icons[index].y);
  }

  /** The icon chosen for a grid cell, and whether it is switch-based. */
  datatype Cell = Cell(index: nat, isSwitch: bool)

  /**
   * The cell mapping built over `icons` in order: a visible icon claims
   * its cell if the cell is free, and takes it over if it is switch-based
   * and the holder is not.
   */
  function MappingOf(icons: seq<Icon>, w: World): map<Pos, Cell>
  {
    if |icons| == 0 then map[]
    else
      var m := MappingOf(icons[..|icons| - 1], w);
      var i := |icons| - 1;
      var icon := icons[i];
      var key := Pos(icon.x, icon.y);
      if HiddenBySwitches(icon, w) then m
      else if key !in m then m[key := Cell(i, SwitchBased(icon))]
      else if SwitchBased(icon) && !m[key].isSwitch then m[key := Cell(i, true)]
      else m
  }

  /** The icon qualifies for `key`: visible there, and switch-based when `needSwitch`. */
  predicate QualifiesAt(icon: Icon, w: World, key: Pos, needSwitch: bool)
  {
    !HiddenBySwitches(icon, w) && Pos(icon.x, icon.y) == key && (needSwitch ==> SwitchBased(icon))
  }

  /** The first icon that qualifies for `key`. */
  function FirstAt(icons: seq<Icon>, w: World, key: Pos, needSwitch: bool): (r: Option<nat>)
    ensures r.Some? ==> r.value < |icons| && QualifiesAt(icons[r.value], w, key, needSwitch)
    ensures r.Some? ==> forall j :: 0 <= j < r.value ==> !QualifiesAt(icons[j], w, key, needSwitch)
    ensures r.None? ==> forall j :: 0 <= j < |icons| ==> !QualifiesAt(icons[j], w, key, needSwitch)
  {
    if |icons| == 0 then None
    else
      var f := FirstAt(icons[..|icons| - 1], w, key, needSwitch);
      if f.Some? then f
      else if QualifiesAt(icons[|icons| - 1], w, key, needSwitch) then Some(|icons| - 1)
      else None
  }

  /**
   * The cell mapping holds exactly the cells of visible icons, and each
   * cell shows its first switch-based icon if it has one, otherwise its
   * first visible icon.
   */
  lemma {:induction false} MappingWinner(icons: seq<Icon>, w: World, key: Pos)
    ensures key in MappingOf(icons, w) <==> FirstAt(icons, w, key, false).Some?
    ensures key in MappingOf(icons, w) ==>
      MappingOf(icons, w)[key] ==
        (if FirstAt(icons, w, key, true).Some? then Cell(FirstAt(icons, w, key, true).value, true)
         else Cell(FirstAt(icons, w, key, false).value, false))
  {
    if |icons| > 0 {
      var init := icons[..|icons| - 1];
      MappingWinner(init, w, key);
      assert forall j :: 0 <= j < |init| ==> init[j] == icons[j];
    }
  }

  /** Every mapped cell holds a visible icon placed in that cell. */
  lemma MappedIconsAreVisible(icons: seq<Icon>, w: World, key: Pos)
    requires key in MappingOf(icons, w)
    ensures var c := MappingOf(icons, w)[key];
      c.index < |icons| && !HiddenBySwitches(icons[c.index], w) && Pos(icons[c.index].x, icons[c.index].y) == key
  {
    MappingWinner(icons, w, key);
  }

  // ---------------------------------------------------------------------
  // Navigation, scrolling and clicks
  // ---------------------------------------------------------------------

  datatype Direction = Right | Left | Down | Up

  /** Icon `j` lies strictly in direction `dir` from icon `cur`. */
  predicate Candidate(icons: seq<Icon>, cur: int, j: int, dir: Direction)
    requires 0 <= cur < |icons| && 0 <= j < |icons|
  {
    var dx := icons[j].x - icons[cur].x;
    var dy := icons[j].y - icons[cur].y;
    j != cur &&
    match dir
    case Right => dx > 0
    case Left => dx < 0
    case Down => dy > 0
    case Up => dy < 0
  }

  function Dist2(icons: seq<Icon>, cur: int, j: int): int
    requires 0 <= cur < |icons| && 0 <= j < |icons|
  {
    var dx := icons[j].x - icons[cur].x;
    var dy := icons[j].y - icons[cur].y;
    dx * dx + dy * dy
  }

  /** Scrolling by one item: down up to the maximum origin, up down to 0. */
  function WheelOrigin(originY: int, deltaY: int, maxOriginY: int): int
  {
    if deltaY > 0 then Min(originY + ItemSize, maxOriginY) else Max(originY - ItemSize, 0)
  }

  /** An origin within [0, max] stays there after any wheel turn. */
  lemma WheelStaysInRange(originY: int, deltaY: int, maxOriginY: int)
    requires 0 <= originY <= maxOriginY
    ensures 0 <= WheelOrigin(originY, deltaY, maxOriginY) <= maxOriginY
  {
  }

  datatype ClickOutcome = RanScript | AlreadyTriggered | Inactive

  /** What a click on icon `index` does: runs its script, or is refused as triggered or inactive. */
  function ClickOutcomeOf(icon: Icon, index: int, w: World, triggered: set<int>): (o: ClickOutcome)
    ensures o == RanScript <==> IsActive(EvaluateIcon(icon, index, w, triggered)) && !(icon.single && index in triggered)
  {
    var s := EvaluateIcon(icon, index, w, triggered);
    if !IsActive(s) then Inactive
    else if icon.single && s == Triggered then AlreadyTriggered
    else RanScript
  }

  /** A Single icon, once latched, never runs its script again. */
  lemma SingleRunsOnce(icon: Icon, index: int, w: World, triggered: set<int>)
    requires icon.single
    ensures ClickOutcomeOf(icon, index, w, triggered + {index}) != RanScript
  {
  }

  datatype ClickResult = NoClick | Clicked(index: nat, outcome: ClickOutcome)

  /** The grid window: its icons, size, scroll origin, selection, and the Single latch. */
  class GridWindow {
    const icons: seq<Icon>
    const width: int
    const height: int
    const contentsHeight: int
    var originX: int
    var originY: int
    var index: int
    var active: bool
    var triggered: set<int>

    constructor (icons: seq<Icon>, gridWidth: int, gridHeight: int, windowHeight: int, triggered: set<int>)
      ensures this.icons == icons && width == gridWidth * ItemSize && height == windowHeight
      ensures contentsHeight == gridHeight * ItemSize
      ensures originX == 0 && originY == 0 && active && this.triggered == triggered
      ensures index == if |icons| > 0 then 0 else -1
    {
      this.icons := icons;
      width := gridWidth * ItemSize;
      height := windowHeight;
      contentsHeight := gridHeight * ItemSize;
      originX := 0;
      originY := 0;
      active := true;
      this.triggered := triggered;
      index := if |icons| > 0 then 0 else -1;
    }

    function MaxOriginY(): int
      reads this
    {
      Min(contentsHeight - height, 30 * ItemSize)
    }

    /** The cell mapping over the window's icons, built one icon at a time. */
    method GetCellMapping(w: World) returns (mapping: map<Pos, Cell>)
      ensures mapping == MappingOf(icons, w)
    {
      mapping := map[];
      var i := 0;
      while i < |icons|
        invariant 0 <= i <= |icons|
        invariant mapping == MappingOf(icons[..i], w)
      {
        var icon := icons[i];
        assert icons[..i + 1][..i] == icons[..i];
        var state := EvaluateIcon(icon, i, w, triggered);
        if state != Hidden {
          var key := Pos(icon.x, icon.y);
          var isSwitch := icon.switches.Some? && |icon.switches.value| > 0;
          if key !in mapping {
            mapping := mapping[key := Cell(i, isSwitch)];
          } else if isSwitch && !mapping[key].isSwitch {
            mapping := mapping[key := Cell(i, true)];
          }
        }
        i := i + 1;
      }
      assert icons[..i] == icons;
    }

    /**
     * The icon the cursor moves to in direction `dir`: the nearest icon
     * strictly that way (the earliest on a tie), or the current index when
     * there is none or no current icon.
     */
    method FindNextSelectableIndex(dir: Direction) returns (r: int)
      ensures !(0 <= index < |icons|) ==> r == index
      ensures 0 <= index < |icons| && (forall j :: 0 <= j < |icons| ==> !Candidate(icons, index, j, dir)) ==> r == index
      ensures 0 <= index < |icons| && (exists j :: 0 <= j < |icons| && Candidate(icons, index, j, dir)) ==>
        && 0 <= r < |icons| && Candidate(icons, index, r, dir)
        && (forall j :: 0 <= j < |icons| && Candidate(icons, index, j, dir) ==> Dist2(icons, index, r) <= Dist2(icons, index, j))
        && (forall j :: 0 <= j < r && Candidate(icons, index, j, dir) ==> Dist2(icons, index, r) < Dist2(icons, index, j))
    {
      if |icons| == 0 || !(0 <= index < |icons|) {
        return index;
      }
      var cur := index;
      var bestIndex := cur;
      var bestDistance: Option<int> := None;
      var i := 0;
      while i < |icons|
        invariant 0 <= i <= |icons|
        invariant bestDistance.None? ==> bestIndex == cur
        invariant bestDistance.None? <==> forall j :: 0 <= j < i ==> !Candidate(icons, cur, j, dir)
        invariant bestDistance.Some? ==>
          && 0 <= bestIndex < i && Candidate(icons, cur, bestIndex, dir)
          && bestDistance.value == Dist2(icons, cur, bestIndex)
          && (forall j :: 0 <= j < i && Candidate(icons, cur, j, dir) ==> bestDistance.value <= Dist2(icons, cur, j))
          && (forall j :: 0 <= j < bestIndex && Candidate(icons, cur, j, dir) ==> bestDistance.value < Dist2(icons, cur, j))
      {
        assert !Candidate(icons, cur, cur, dir);
        if i != cur {
          var dx := icons[i].x - icons[cur].x;
          var dy := icons[i].y - icons[cur].y;
          var valid := false;
          if dir == Right && dx > 0 {
            valid := true;
          } else if dir == Left && dx < 0 {
            valid := true;
          } else if dir == Down && dy > 0 {
            valid := true;
          } else if dir == Up && dy < 0 {
            valid := true;
          }
          assert valid == Candidate(icons, cur, i, dir);
          if valid {
            var dist := dx * dx + dy * dy;
            if bestDistance.None? || dist < bestDistance.value {
              bestDistance := Some(dist);
              bestIndex := i;
            }
          }
        }
        i := i + 1;
      }
      r := bestIndex;
    }

    /** One mouse-wheel turn, when the contents are taller than the window. */
    method OnWheel(deltaY: int)
      modifies this
      ensures contentsHeight > height ==> originY == WheelOrigin(old(originY), deltaY, MaxOriginY())
      ensures contentsHeight <= height ==> originY == old(originY)
      ensures originX == old(originX) && index == old(index) && active == old(active) && triggered == old(triggered)
    {
      if contentsHeight > height {
        var scrollAmount := ItemSize;
        var maxOriginY := Min(contentsHeight - height, 30 * ItemSize);
        if deltaY > 0 {
          originY := Min(originY + scrollAmount, maxOriginY);
        } else {
          originY := Max(originY - scrollAmount, 0);
        }
      }
    }

    /**
     * A touch at window position `touch` (None when there is no touch):
     * selects the mapped icon under it and runs it if active and not a
     * latched Single icon, latching a Single icon after its run.
     */
    method ProcessMouseClick(w: World, touch: Option<Pos>) returns (r: ClickResult)
      modifies this
      ensures r.Clicked? ==>
        && active && touch.Some?
        && var key := Pos((touch.value.x + originX) / ItemSize, (touch.value.y + originY) / ItemSize);
           key in MappingOf(icons, w) && r.index == MappingOf(icons, w)[key].index
      ensures r.Clicked? ==> r.index < |icons|
      ensures r.Clicked? ==> r.outcome == ClickOutcomeOf(icons[r.index], r.index, w, old(triggered))
      ensures triggered == if r.Clicked? && r.outcome == RanScript && icons[r.index].single
                           then old(triggered) + {r.index} else old(triggered)
      ensures index == if r.Clicked? then r.index else old(index)
      ensures originX == old(originX) && originY == old(originY) && active == old(active)
      ensures active && touch.Some? && 0 <= touch.value.x < width && 0 <= touch.value.y < height
              && Pos((touch.value.x + originX) / ItemSize, (touch.value.y + originY) / ItemSize) in MappingOf(icons, w)
              ==> r.Clicked?
    {
      if !active || touch.None? {
        return NoClick;
      }
      var x := touch.value.x;
      var y := touch.value.y;
      if x < 0 || y < 0 || x >= width || y >= height {
        return NoClick;
      }
      var contentX := x + originX;
      var contentY := y + originY;
      var mapping := GetCellMapping(w);
      var key := Pos(contentX / ItemSize, contentY / ItemSize);
      if key !in mapping {
        return NoClick;
      }
      var i := mapping[key].index;
      MappedIconsAreVisible(icons, w, key);
      index := i;
      var state := EvaluateIcon(icons[i], i, w, triggered);
      if IsActive(state) {
        if icons[i].single && state == Triggered {
          r := Clicked(i, AlreadyTriggered);
        } else {
          r := Clicked(i, RanScript);
          if icons[i].single {
            triggered := triggered + {i};
          }
        }
      } else {
        r := Clicked(i, Inactive);
      }
    }
  }

  /** The mapped icon under a content pixel is the only mapped icon whose cell contains it. */
  lemma ClickedCellIsUnique(icons: seq<Icon>, w: World, px: int, py: int, key: Pos)
    requires key in MappingOf(icons, w)
    ensures var c := MappingOf(icons, w)[key];
      Contains(ItemRect(icons, c.index), px, py) <==> key == Pos(px / ItemSize, py / ItemSize)
  {
    MappedIconsAreVisible(icons, w, key);
    CellHit(icons, MappingOf(icons, w)[key].index, px, py);
  }

  // ---------------------------------------------------------------------
  // Description text
  // ---------------------------------------------------------------------

  /** Every CR LF pair, left to right, becomes LF. */
  function ReplaceCrLf(s: string): (r: string)
    ensures |r| <= |s|
    decreases |s|
  {
    if |s| >= 2 && s[0] == '\r' && s[1] == '\n' then "\n" + ReplaceCrLf(s[2..])
    else if |s| == 0 then ""
    else [s[0]] + ReplaceCrLf(s[1..])
  }

  function Lower(c: char): char
  {
    if 'A' <= c <= 'Z' then (c as int - 'A' as int + 'a' as int) as char else c
  }

  /** `s` starts with `<br>`, in any letter case. */
  predicate StartsWithBr(s: string)
  {
    |s| >= 4 && s[0] == '<' && Lower(s[1]) == 'b' && Lower(s[2]) == 'r' && s[3] == '>'
  }

  /** Every `<br>`, in any letter case, left to right, becomes LF. */
  function ReplaceBr(s: string): (r: string)
    ensures |r| <= |s|
    ensures |s| > 0 ==> |r| > 0 && r[0] == (if StartsWithBr(s) then '\n' else s[0])
    decreases |s|
  {
    if StartsWithBr(s) then "\n" + ReplaceBr(s[4..])
    else if |s| == 0 then ""
    else [s[0]] + ReplaceBr(s[1..])
  }

  /** No `<br>` survives: a replacement's LF cannot complete one with its neighbours. */
  lemma {:induction false} NoBrRemains(s: string)
    ensures forall k :: 0 <= k < |ReplaceBr(s)| ==> !StartsWithBr(ReplaceBr(s)[k..])
    decreases |s|
  {
    var r := ReplaceBr(s);
    if StartsWithBr(s) {
      NoBrRemains(s[4..]);
      forall k | 0 <= k < |r| ensures !StartsWithBr(r[k..]) {
        if k > 0 {
          assert r[k..] == ReplaceBr(s[4..])[k - 1..];
        }
      }
    } else if |s| > 0 {
      var t := ReplaceBr(s[1..]);
      NoBrRemains(s[1..]);
      NoBrAtFront(s);
      forall k | 0 <= k < |r| ensures !StartsWithBr(r[k..]) {
        if k > 0 {
          assert r[k..] == t[k - 1..];
        }
      }
    }
  }

  /** A character kept in front of the rest's replacement cannot start a `<br>`. */
  lemma NoBrAtFront(s: string)
    requires |s| > 0 && !StartsWithBr(s)
    ensures !StartsWithBr([s[0]] + ReplaceBr(s[1..]))
  {
    var t := ReplaceBr(s[1..]);
    if s[0] == '<' && |s| >= 2 && !StartsWithBr(s[1..]) && Lower(s[1]) == 'b' {
      var t2 := ReplaceBr(s[2..]);
      assert t == [s[1]] + t2;
      if |s| >= 3 && !StartsWithBr(s[2..]) && Lower(s[2]) == 'r' {
        var t3 := ReplaceBr(s[3..]);
        assert t2 == [s[2]] + t3;
      }
    }
  }

  /** One pair of enclosing double quotes is dropped from a text of at least two characters. */
  function StripQuotes(s: string): (r: string)
    ensures |s| >= 2 && s[0] == '"' && s[|s| - 1] == '"' ==> r == s[1..|s| - 1]
    ensures !(|s| >= 2 && s[0] == '"' && s[|s| - 1] == '"') ==> r == s
  {
    if |s| >= 2 && s[0] == '"' && s[|s| - 1] == '"' then s[1..|s| - 1] else s
  }

  /** The description text as displayed: line breaks normalised, then enclosing quotes removed. */
  function NormalizeDescription(text: string): (r: string)
    ensures |r| <= |text|
  {
    StripQuotes(ReplaceBr(ReplaceCrLf(text)))
  }

  /** Text without CR, `<` or enclosing quotes is shown as is. */
  lemma {:induction false} PlainTextUnchanged(text: string)
    requires '\r' !in text && '<' !in text
    requires !(|text| >= 2 && text[0] == '"' && text[|text| - 1] == '"')
    ensures NormalizeDescription(text) == text
  {
    PlainCrLf(text);
    PlainBr(text);
  }

  lemma {:induction false} PlainCrLf(s: string)
    requires '\r' !in s
    ensures ReplaceCrLf(s) == s
    decreases |s|
  {
    if |s| > 0 {
      assert forall c :: c in s[1..] ==> c in s;
      PlainCrLf(s[1..]);
      assert s == [s[0]] + s[1..];
    }
  }

  lemma {:induction false} PlainBr(s: string)
    requires '<' !in s
    ensures ReplaceBr(s) == s
    decreases |s|
  {
    if |s| > 0 {
      assert s[0] in s;
      assert forall c :: c in s[1..] ==> c in s;
      PlainBr(s[1..]);
      assert s == [s[0]] + s[1..];
    }
  }

  /** Worked example: a Windows line break becomes LF. */
  lemma CrLfExample(s: string)
    requires s == "a\r\nb"
    ensures ReplaceCrLf(s) == "a\nb"
  {
    assert s[1..] == "\r\nb";
    assert s[1..][2..] == "b";
    PlainCrLf("b");
  }

  /** Worked example: an upper-case `<BR>` tag becomes LF. */
  lemma BrExample(s: string)
    requires s == "a<BR>b"
    ensures ReplaceBr(s) == "a\nb"
  {
    assert s[1..] == "<BR>b";
    assert StartsWithBr(s[1..]);
    assert s[1..][4..] == "b";
    PlainBr("b");
  }

  /** Worked example: only one pair of enclosing quotes is removed. */
  lemma QuotesExample(s: string)
    requires s == "\"\"x\"\""
    ensures NormalizeDescription(s) == "\"x\""
  {
    PlainCrLf(s);
    PlainBr(s);
  }
}

=== FILE: jp_ledger.dfy ===
/**
 * SRPG_YanflyJP_Skill_Learn_Patch: job points (JP) gained in or out of
 * battle, a per-actor, per-class ledger of JP lost that a refund pays back
 * and clears, and the per-class view of an actor's learned skills.
 */
module JpLedger {
  import opened Common
  import opened Actors

  /** The actor's JP rate, or the subclass share, as a fraction num/den (den > 0). */
  datatype Rate = Rate(num: int, den: int)

  /** `Math.floor(v * rate)`. */
  function FloorScale(v: int, rate: Rate): int
    requires rate.den > 0
  {
    (v * rate.num) / rate.den
  }

  /** FloorScale is the floor of v * num / den: the largest s with s * den <= v * num. */
  lemma FloorScaleIsFloor(v: int, rate: Rate)
    requires rate.den > 0
    ensures var s := FloorScale(v, rate);
            s * rate.den <= v * rate.num < s * rate.den + rate.den
  {
  }

  /** `Math.round(v * rate)`: the nearest integer, halves rounded up. */
  function RoundScale(v: int, rate: Rate): int
    requires rate.den > 0
  {
    (2 * v * rate.num + rate.den) / (2 * rate.den)
  }

  /** RoundScale is the integer nearest to v * num / den, a half rounded up. */
  lemma RoundScaleIsNearest(v: int, rate: Rate)
    requires rate.den > 0
    ensures var s := RoundScale(v, rate);
            2 * s * rate.den <= 2 * v * rate.num + rate.den < 2 * s * rate.den + 2 * rate.den
  {
  }

  /** The class a JP call acts on: the given one, or the current class when it is absent or 0. */
  function TargetClass(current: int, classId: Option<int>): int
  {
    if classId.Some? && classId.value != 0 then classId.value else current
  }

  /** Where the engine stands when JP is gained. */
  datatype BattleContext = BattleContext(
    inBattle: bool,
    srpgMode: bool,
    battlePhase: bool,
    amongSrpgBattleActors: bool)

  /** The subclass add-on: whether it is loaded, and the share of JP a subclass earns. */
  datatype SubclassConfig = SubclassConfig(imported: bool, subclassJp: Rate)

  /** Whether a gain in the current class also pays the subclass. */
  predicate SubclassEarnsJp(cfg: SubclassConfig, subclassId: Option<int>)
  {
    cfg.imported && subclassId.Some? && cfg.subclassJp.num != 0
  }

  /** The actor seen by the JP calls. */
  datatype ActorView = ActorView(actorId: int, classId: int, subclassId: Option<int>)

  /**
   * Everything the JP calls read or write for one actor: its JP per class,
   * its pending battle JP, the JP variable, and the two ledgers keyed by
   * (actor, class) (JP gained, and JP lost and not yet refunded).
   */
  datatype JpState = JpState(
    jp: map<int, int>,
    battleJp: int,
    jpVariable: int,
    spent: map<(int, int), int>,
    lost: map<(int, int), int>)

  /** The state after `gainJp(value, classId)`; a non-numeric value (None) counts as 0. */
  function Gain(s: JpState, a: ActorView, value: Option<int>, classId: Option<int>,
                ctx: BattleContext, rate: Rate, cfg: SubclassConfig): JpState
    requires rate.den > 0 && cfg.subclassJp.den > 0
  {
    var c := TargetClass(a.classId, classId);
    var v := FloorScale(if value.Some? then value.value else 0, rate);
    if ctx.inBattle then
      if ctx.srpgMode && !ctx.battlePhase && ctx.amongSrpgBattleActors then s.(jpVariable := s.jpVariable + v)
      else s.(battleJp := s.battleJp + v)
    else
      var jp1 := AddTo(s.jp, c, v);
      var jp2 := if c == a.classId && SubclassEarnsJp(cfg, a.subclassId)
                 then AddTo(jp1, a.subclassId.value, RoundScale(v, cfg.subclassJp))
                 else jp1;
      s.(jp := jp2, spent := AddTo(s.spent, (a.actorId, c), v))
  }

  /** The state after `loseJp(value, classId)`: the loss is booked in the ledger and taken from the class. */
  function Lose(s: JpState, a: ActorView, value: int, classId: Option<int>): JpState
  {
    var c := TargetClass(a.classId, classId);
    s.(lost := AddTo(s.lost, (a.actorId, c), value), jp := AddTo(s.jp, c, -value))
  }

  /** The state after `refundLostJp(classId)`: the booked loss is gained back, then its entry set to 0. */
  function Refund(s: JpState, a: ActorView, classId: Option<int>,
                  ctx: BattleContext, rate: Rate, cfg: SubclassConfig): JpState
    requires rate.den > 0 && cfg.subclassJp.den > 0
  {
    var c := TargetClass(a.classId, classId);
    var g := Gain(s, a, Some(Get(s.lost, (a.actorId, c))), Some(c), ctx, rate, cfg);
    g.(lost := g.lost[(a.actorId, c) := 0])
  }

  /**
   * Out of battle a gain adds floor(value * rate) to the class and to the
   * gained-JP ledger; a gain in the current class also pays the subclass its
   * rounded share, and nothing else changes.
   */
  lemma GainOutOfBattle(s: JpState, a: ActorView, value: Option<int>, classId: Option<int>,
                        ctx: BattleContext, rate: Rate, cfg: SubclassConfig)
    requires rate.den > 0 && cfg.subclassJp.den > 0
    requires !ctx.inBattle
    ensures var g := Gain(s, a, value, classId, ctx, rate, cfg);
            var c := TargetClass(a.classId, classId);
            var v := FloorScale(if value.Some? then value.value else 0, rate);
            && Get(g.spent, (a.actorId, c)) == Get(s.spent, (a.actorId, c)) + v
            && (forall k :: k != (a.actorId, c) ==> Get(g.spent, k) == Get(s.spent, k))
            && (!SubclassEarnsJp(cfg, a.subclassId) || c != a.classId || a.subclassId.value != c ==>
                  Get(g.jp, c) == Get(s.jp, c) + v)
            && (SubclassEarnsJp(cfg, a.subclassId) && c == a.classId && a.subclassId.value != c ==>
                  Get(g.jp, a.subclassId.value) == Get(s.jp, a.subclassId.value) + RoundScale(v, cfg.subclassJp))
            && (SubclassEarnsJp(cfg, a.subclassId) && c == a.classId && a.subclassId.value == c ==>
                  Get(g.jp, c) == Get(s.jp, c) + v + RoundScale(v, cfg.subclassJp))
            && (forall k :: k != c && (!SubclassEarnsJp(cfg, a.subclassId) || c != a.classId || k != a.subclassId.value) ==>
                  Get(g.jp, k) == Get(s.jp, k))
            && g.battleJp == s.battleJp && g.jpVariable == s.jpVariable && g.lost == s.lost
  {
  }

  /**
   * In battle a gain leaves the classes and ledgers alone: it goes to the JP
   * variable for an SRPG map-battle actor outside the battle phase, to the
   * pending battle JP otherwise.
   */
  lemma GainInBattle(s: JpState, a: ActorView, value: Option<int>, classId: Option<int>,
                     ctx: BattleContext, rate: Rate, cfg: SubclassConfig)
    requires rate.den > 0 && cfg.subclassJp.den > 0
    requires ctx.inBattle
    ensures var g := Gain(s, a, value, classId, ctx, rate, cfg);
            var v := FloorScale(if value.Some? then value.value else 0, rate);
            var toVariable := ctx.srpgMode && !ctx.battlePhase && ctx.amongSrpgBattleActors;
            && g.jp == s.jp && g.spent == s.spent && g.lost == s.lost
            && g.jpVariable == (if toVariable then s.jpVariable + v else s.jpVariable)
            && g.battleJp == (if toVariable then s.battleJp else s.battleJp + v)
  {
  }

  /** A non-numeric amount gains nothing anywhere. */
  lemma NonNumericGainsNothing(s: JpState, a: ActorView, classId: Option<int>,
                               ctx: BattleContext, rate: Rate, cfg: SubclassConfig)
    requires rate.den > 0 && cfg.subclassJp.den > 0
    ensures var g := Gain(s, a, None, classId, ctx, rate, cfg);
            && (forall k :: Get(g.jp, k) == Get(s.jp, k))
            && (forall k :: Get(g.spent, k) == Get(s.spent, k))
            && g.battleJp == s.battleJp && g.jpVariable == s.jpVariable && g.lost == s.lost
  {
    assert FloorScale(0, rate) == 0;
    assert RoundScale(0, cfg.subclassJp) == 0;
  }

  /** A loss is added to the ledger entry of (actor, class) and taken from that class only. */
  lemma LoseBooksLoss(s: JpState, a: ActorView, value: int, classId: Option<int>)
    ensures var l := Lose(s, a, value, classId);
            var c := TargetClass(a.classId, classId);
            && Get(l.lost, (a.actorId, c)) == Get(s.lost, (a.actorId, c)) + value
            && (forall k :: k != (a.actorId, c) ==> Get(l.lost, k) == Get(s.lost, k))
            && Get(l.jp, c) == Get(s.jp, c) - value
            && (forall k :: k != c ==> Get(l.jp, k) == Get(s.jp, k))
            && l.spent == s.spent && l.battleJp == s.battleJp && l.jpVariable == s.jpVariable
  {
  }

  /** A refund always leaves the ledger entry at 0 and touches no other entry. */
  lemma RefundClearsEntry(s: JpState, a: ActorView, classId: Option<int>,
                          ctx: BattleContext, rate: Rate, cfg: SubclassConfig)
    requires rate.den > 0 && cfg.subclassJp.den > 0
    ensures var r := Refund(s, a, classId, ctx, rate, cfg);
            var key := (a.actorId, TargetClass(a.classId, classId));
            && Get(r.lost, key) == 0
            && (forall k :: k != key ==> Get(r.lost, k) == Get(s.lost, k))
  {
  }

  /** A refund straight after another gains nothing: the first one cleared the entry. */
  lemma SecondRefundGainsNothing(s: JpState, a: ActorView, classId: Option<int>,
                                 ctx: BattleContext, rate: Rate, cfg: SubclassConfig)
    requires rate.den > 0 && cfg.subclassJp.den > 0
    ensures var r1 := Refund(s, a, classId, ctx, rate, cfg);
            var r2 := Refund(r1, a, classId, ctx, rate, cfg);
            && (forall k :: Get(r2.jp, k) == Get(r1.jp, k))
            && (forall k :: Get(r2.spent, k) == Get(r1.spent, k))
            && r2.battleJp == r1.battleJp && r2.jpVariable == r1.jpVariable && r2.lost == r1.lost
  {
    var r1 := Refund(s, a, classId, ctx, rate, cfg);
    var c := TargetClass(a.classId, classId);
    assert Get(r1.lost, (a.actorId, c)) == 0;
    assert TargetClass(a.classId, Some(c)) == c;
    assert FloorScale(0, rate) == 0;
    assert RoundScale(0, cfg.subclassJp) == 0;
  }

  /**
   * With rate 1, out of battle, an empty ledger entry and no subclass paid
   * in the same class, losing JP and then refunding gives the class its JP
   * back and leaves the entry empty.
   */
  lemma LoseThenRefundRestores(s: JpState, a: ActorView, value: int, classId: Option<int>,
                               ctx: BattleContext, cfg: SubclassConfig)
    requires cfg.subclassJp.den > 0
    requires !ctx.inBattle
    requires Get(s.lost, (a.actorId, TargetClass(a.classId, classId))) == 0
    requires !(SubclassEarnsJp(cfg, a.subclassId) && a.subclassId.value == TargetClass(a.classId, classId))
    ensures var r := Refund(Lose(s, a, value, classId), a, classId, ctx, Rate(1, 1), cfg);
            var c := TargetClass(a.classId, classId);
            && Get(r.jp, c) == Get(s.jp, c)
            && Get(r.lost, (a.actorId, c)) == 0
  {
    var c := TargetClass(a.classId, classId);
    var l := Lose(s, a, value, classId);
    assert Get(l.lost, (a.actorId, c)) == value;
    assert TargetClass(a.classId, Some(c)) == c;
    assert FloorScale(value, Rate(1, 1)) == value;
    GainOutOfBattle(l, a, Some(value), Some(c), ctx, Rate(1, 1), cfg);
  }

  /** Selects the skills of the class's learn list. */
  function InList(list: seq<int>): int -> bool
  {
    x => x in list
  }

  /** Selects the skills outside the class's learn list. */
  function NotInList(list: seq<int>): int -> bool
  {
    x => x !in list
  }

  /** The actor's skills that belong to a class: those in its learn list, in the actor's order. */
  function ClassSkills(skills: seq<int>, learnList: seq<int>): seq<int>
  {
    Filter(skills, InList(learnList))
  }

  /** Forgetting every class skill, one by one, leaves exactly the skills outside the class, in order. */
  lemma {:induction false} ForgetClassSkills(skills: seq<int>, learnList: seq<int>)
    ensures ForgetAll(skills, ClassSkills(skills, learnList)) == Filter(skills, NotInList(learnList))
  {
    if |skills| > 0 {
      var a, t := skills[0], skills[1..];
      assert skills == [a] + t;
      ForgetClassSkills(t, learnList);
      if a in learnList {
        assert ClassSkills(skills, learnList) == [a] + ClassSkills(t, learnList);
        assert Forget(skills, a) == t;
      } else {
        assert ClassSkills(skills, learnList) == ClassSkills(t, learnList);
        assert a !in ClassSkills(t, learnList);
        ForgetAllKeepsHead(a, t, ClassSkills(t, learnList));
      }
    }
  }

  lemma {:induction false} ForgetAllSnoc(skills: seq<int>, gone: seq<int>, x: int)
    ensures ForgetAll(skills, gone + [x]) == Forget(ForgetAll(skills, gone), x)
    decreases |gone|
  {
    if |gone| > 0 {
      assert (gone + [x])[1..] == gone[1..] + [x];
      ForgetAllSnoc(Forget(skills, gone[0]), gone[1..], x);
    }
  }

  /** The plugin-level JP state: the JP variable's value and the two ledgers. */
  class JpPatch {
    var jpVariable: int
    var spent: map<(int, int), int>
    var lost: map<(int, int), int>

    constructor (jpVariable: int)
      ensures this.jpVariable == jpVariable && spent == map[] && lost == map[]
    {
      this.jpVariable := jpVariable;
      spent := map[];
      lost := map[];
    }

    function Snapshot(actor: GameActor): JpState
      reads this, actor
    {
      JpState(actor.jp, actor.battleJp, jpVariable, spent, lost)
    }

    static function View(actor: GameActor): ActorView
      reads actor
    {
      ActorView(actor.actorId, actor.classId, actor.subclassId)
    }

    /** Gains JP for the actor, as the patch's gainJp does. */
    method GainJp(actor: GameActor, value: Option<int>, classId: Option<int>,
                  ctx: BattleContext, rate: Rate, cfg: SubclassConfig)
      requires rate.den > 0 && cfg.subclassJp.den > 0
      modifies this, actor
      ensures Snapshot(actor) == Gain(old(Snapshot(actor)), old(View(actor)), value, classId, ctx, rate, cfg)
      ensures actor.classId == old(actor.classId) && actor.subclassId == old(actor.subclassId)
      ensures actor.skills == old(actor.skills)
    {
      ghost var g := Gain(Snapshot(actor), View(actor), value, classId, ctx, rate, cfg);
      var v := if value.Some? then value.value else 0;
      var c := if classId.Some? && classId.value != 0 then classId.value else actor.classId;
      v := FloorScale(v, rate);
      if ctx.inBattle {
        if ctx.srpgMode && !ctx.battlePhase && ctx.amongSrpgBattleActors {
          jpVariable := jpVariable + v;
        } else {
          actor.battleJp := actor.battleJp + v;
        }
      } else {
        GainOutsideBattle(actor, c, v, cfg);
        var key := (actor.actorId, c);
        spent := spent[key := Get(spent, key) + v];
      }
      assert Snapshot(actor) == g;
    }

    /** The out-of-battle part of a gain: the class's JP, and the subclass's share when it earns. */
    static method GainOutsideBattle(actor: GameActor, c: int, v: int, cfg: SubclassConfig)
      requires cfg.subclassJp.den > 0
      modifies actor
      ensures var jp1 := AddTo(old(actor.jp), c, v);
              actor.jp == if c == actor.classId && SubclassEarnsJp(cfg, actor.subclassId)
                          then AddTo(jp1, actor.subclassId.value, RoundScale(v, cfg.subclassJp))
                          else jp1
      ensures actor.classId == old(actor.classId) && actor.subclassId == old(actor.subclassId)
      ensures actor.skills == old(actor.skills) && actor.battleJp == old(actor.battleJp)
    {
      actor.SetJp(actor.Jp(c) + v, c);
      if c == actor.classId && SubclassEarnsJp(cfg, actor.subclassId) {
        var sub := actor.subclassId.value;
        actor.SetJp(actor.Jp(sub) + RoundScale(v, cfg.subclassJp), sub);
      }
    }

    /** Loses JP for the actor and books the loss, as the patch's loseJp does. */
    method LoseJp(actor: GameActor, value: int, classId: Option<int>)
      modifies this, actor
      ensures Snapshot(actor) == Lose(old(Snapshot(actor)), old(View(actor)), value, classId)
      ensures actor.classId == old(actor.classId) && actor.subclassId == old(actor.subclassId)
      ensures actor.skills == old(actor.skills)
    {
      var c := if classId.Some? && classId.value != 0 then classId.value else actor.classId;
      var key := (actor.actorId, c);
      var lostJp := Get(lost, key);
      lostJp := lostJp + value;
      lost := lost[key := lostJp];
      actor.SetJp(actor.Jp(c) - value, c);
    }

    /** Gains back the actor's booked loss for a class and clears the entry, as the patch's refundLostJp does. */
    method RefundLostJp(actor: GameActor, classId: Option<int>,
                        ctx: BattleContext, rate: Rate, cfg: SubclassConfig)
      requires rate.den > 0 && cfg.subclassJp.den > 0
      modifies this, actor
      ensures Snapshot(actor) == Refund(old(Snapshot(actor)), old(View(actor)), classId, ctx, rate, cfg)
      ensures actor.classId == old(actor.classId) && actor.subclassId == old(actor.subclassId)
      ensures actor.skills == old(actor.skills)
    {
      var c := if classId.Some? && classId.value != 0 then classId.value else actor.classId;
      var key := (actor.actorId, c);
      var lostJp := Get(lost, key);
      GainJp(actor, Some(lostJp), Some(c), ctx, rate, cfg);
      lost := lost[key := 0];
    }
  }

  /** The actor's learned skills that the class's learn list contains, collected in order. */
  method LearnedSkillsForClass(actor: GameActor, learnList: seq<int>) returns (r: seq<int>)
    ensures r == ClassSkills(actor.skills, learnList)
  {
    var skills := actor.skills;
    r := [];
    var i := 0;
    while i < |skills|
      invariant 0 <= i <= |skills|
      invariant r == ClassSkills(skills[..i], learnList)
    {
      assert skills[..i + 1] == skills[..i] + [skills[i]];
      FilterAppend(skills[..i], [skills[i]], InList(learnList));
      if skills[i] in learnList {
        r := r + [skills[i]];
      }
      i := i + 1;
    }
    assert skills[..|skills|] == skills;
  }

  /** Forgets every learned skill of the class; the skills outside the class stay, in order. */
  method UnlearnAllSkillsInClass(actor: GameActor, learnList: seq<int>)
    modifies actor
    ensures actor.skills == Filter(old(actor.skills), NotInList(learnList))
    ensures actor.jp == old(actor.jp) && actor.battleJp == old(actor.battleJp)
  {
    var learned := LearnedSkillsForClass(actor, learnList);
    ForgetClassSkills(actor.skills, learnList);
    var i := 0;
    while i < |learned|
      invariant 0 <= i <= |learned|
      invariant actor.skills == ForgetAll(old(actor.skills), learned[..i])
      invariant actor.jp == old(actor.jp) && actor.battleJp == old(actor.battleJp)
    {
      assert learned[..i + 1] == learned[..i] + [learned[i]];
      ForgetAllSnoc(old(actor.skills), learned[..i], learned[i]);
      actor.ForgetSkill(learned[i]);
      i := i + 1;
    }
    assert learned[..|learned|] == learned;
  }
}

=== FILE: movement_traps.dfy ===
/**
 * Movement bookkeeping of SRPG_MovementLock_Traps: an actor's move
 * points, the terrain-weighted distance it walked, the temporary move
 * range that locks the rest of its move and its reset at turn end, and
 * the trackers that decide when floor damage and traps fire as the
 * active unit walks. Map queries (terrain tags, the note tags of the map
 * and of events) are given as parameters, already parsed.
 */
module MovementTraps {
  import opened Common

  // ---------------------------------------------------------------------
  // Distance walked
  // ---------------------------------------------------------------------

  /** The move points charged for entering a tile with terrain tag `tag`. */
  function TileCost(tag: int): (c: int)
    ensures 1 <= c <= 3
    ensures c == 2 <==> tag == 4
    ensures c == 3 <==> tag == 5
  {
    if tag == 4 then 2 else if tag == 5 then 3 else 1
  }

  function Sign(v: int): (s: int)
    ensures v > 0 ==> s == 1
    ensures v < 0 ==> s == -1
    ensures v == 0 ==> s == 0
  {
    if v > 0 then 1 else if v < 0 then -1 else 0
  }

  /** Chebyshev distance between (x, y) and (tx, ty). */
  function Chebyshev(x: int, y: int, tx: int, ty: int): int
  {
    Max(Abs(tx - x), Abs(ty - y))
  }

  /**
   * The cost of walking from (x, y) to (tx, ty) one tile at a time, each
   * step moving every coordinate that still differs one tile toward the
   * target and charging the tile entered.
   */
  function MoveCost(terrain: (int, int) -> int, x: int, y: int, tx: int, ty: int): int
    decreases Abs(tx - x) + Abs(ty - y)
  {
    if x == tx && y == ty then 0
    else
      var nx := x + Sign(tx - x);
      var ny := y + Sign(ty - y);
      TileCost(terrain(nx, ny)) + MoveCost(terrain, nx, ny, tx, ty)
  }

  /** Every step brings the walker exactly one tile nearer in Chebyshev distance. */
  lemma StepShrinksChebyshev(x: int, y: int, tx: int, ty: int)
    requires x != tx || y != ty
    ensures Chebyshev(x + Sign(tx - x), y + Sign(ty - y), tx, ty) == Chebyshev(x, y, tx, ty) - 1
  {
  }

  /** The distance walked lies between the Chebyshev distance and three times it. */
  lemma {:induction false} MoveCostBounds(terrain: (int, int) -> int, x: int, y: int, tx: int, ty: int)
    ensures Chebyshev(x, y, tx, ty) <= MoveCost(terrain, x, y, tx, ty) <= 3 * Chebyshev(x, y, tx, ty)
    decreases Abs(tx - x) + Abs(ty - y)
  {
    if x != tx || y != ty {
      var nx := x + Sign(tx - x);
      var ny := y + Sign(ty - y);
      StepShrinksChebyshev(x, y, tx, ty);
      MoveCostBounds(terrain, nx, ny, tx, ty);
    }
  }

  /** No distance is walked exactly when the unit ends where it started. */
  lemma MoveCostZeroIff(terrain: (int, int) -> int, x: int, y: int, tx: int, ty: int)
    ensures MoveCost(terrain, x, y, tx, ty) == 0 <==> x == tx && y == ty
  {
    MoveCostBounds(terrain, x, y, tx, ty);
  }

  /** A recorded position, read as (0, 0) when it was never set. */
  function StoredPos(p: Option<Pos>): Pos
  {
    if p.Some? then p.value else Pos(0, 0)
  }

  /**
   * The distance moved this turn: the path cost from the original position
   * to the move position, each read as (0, 0) when it was never recorded.
   * It is zero exactly when the two read positions coincide.
   */
  function WalkedDistance(terrain: (int, int) -> int, orig: Option<Pos>, dest: Option<Pos>): (d: int)
    ensures var o, p := StoredPos(orig), StoredPos(dest);
      && Chebyshev(o.x, o.y, p.x, p.y) <= d <= 3 * Chebyshev(o.x, o.y, p.x, p.y)
      && (d == 0 <==> o == p)
  {
    var o, p := StoredPos(orig), StoredPos(dest);
    MoveCostBounds(terrain, o.x, o.y, p.x, p.y);
    MoveCostZeroIff(terrain, o.x, o.y, p.x, p.y);
    MoveCost(terrain, o.x, o.y, p.x, p.y)
  }

  /** An original position that was never recorded is walked from (0, 0). */
  lemma UnsetOriginWalksFromZero(terrain: (int, int) -> int, dest: Option<Pos>)
    ensures WalkedDistance(terrain, None, dest) == WalkedDistance(terrain, Some(Pos(0, 0)), dest)
    ensures WalkedDistance(terrain, None, None) == 0
  {
    MoveCostZeroIff(terrain, 0, 0, 0, 0);
  }

  /** On plain ground, an unset origin and a move to (3, 0) cost 3, leaving 2 of 5 move points. */
  lemma UnsetOriginExample()
    ensures WalkedDistance((x: int, y: int) => 0, None, Some(Pos(3, 0))) == 3
    ensures RemainingMoves(5, WalkedDistance((x: int, y: int) => 0, None, Some(Pos(3, 0)))) == 2
  {
    var plain := (x: int, y: int) => 0;
    assert MoveCost(plain, 3, 0, 3, 0) == 0;
    assert MoveCost(plain, 2, 0, 3, 0) == 1;
    assert MoveCost(plain, 1, 0, 3, 0) == 2;
    assert MoveCost(plain, 0, 0, 3, 0) == 3;
  }

  /**
   * The distance moved, as the plugin computes it: both positions are read
   * with their (0, 0) default, so the guard against missing positions never
   * fires, and the walk's cost is summed tile by tile.
   */
  method ActorMoveDistance(terrain: (int, int) -> int, origPos: Option<Pos>, movePos: Option<Pos>) returns (distance: int)
    ensures distance == WalkedDistance(terrain, origPos, movePos)
  {
    var orig, dest := StoredPos(origPos), StoredPos(movePos);
    distance := 0;
    var cx, cy := orig.x, orig.y;
    var dx := Sign(dest.x - cx);
    var dy := Sign(dest.y - cy);
    while cx != dest.x || cy != dest.y
      invariant distance + MoveCost(terrain, cx, cy, dest.x, dest.y) == MoveCost(terrain, orig.x, orig.y, dest.x, dest.y)
      invariant cx == dest.x || dx == Sign(dest.x - cx)
      invariant cy == dest.y || dy == Sign(dest.y - cy)
      decreases Abs(dest.x - cx) + Abs(dest.y - cy)
    {
      if cx != dest.x {
        cx := cx + dx;
      }
      if cy != dest.y {
        cy := cy + dy;
      }
      distance := distance + TileCost(terrain(cx, cy));
    }
  }

  /** Move points left after walking `distance`: never negative. */
  function RemainingMoves(move: int, distance: int): (r: int)
    ensures r >= 0 && r >= move - distance
    ensures r == 0 || r == move - distance
  {
    Max(move - distance, 0)
  }

  /**
   * A walk never leaves more points than the move allows; with a positive
   * move, all of it is left exactly when the two read positions coincide.
   */
  lemma RemainingWithinMove(terrain: (int, int) -> int, move: int, orig: Option<Pos>, dest: Option<Pos>)
    requires move >= 0
    ensures RemainingMoves(move, WalkedDistance(terrain, orig, dest)) <= move
    ensures move > 0 ==> (RemainingMoves(move, WalkedDistance(terrain, orig, dest)) == move <==> StoredPos(orig) == StoredPos(dest))
  {
  }

  // ---------------------------------------------------------------------
  // Move points and the temporary move range
  // ---------------------------------------------------------------------

  /**
   * The move-related note values of an actor: its own `srpgMove` tag and
   * the `srpgMovePlus` values of its class, states and equipment (an
   * absent value, or an empty equipment slot, counts as 0).
   */
  datatype MoveMeta = MoveMeta(baseTag: Option<int>, classPlus: int, statePlus: seq<int>, equipPlus: seq<int>)

  /** The modifier values recorded when they were zeroed. */
  datatype Nullified = Nullified(classPlus: int, equipPlus: seq<int>, statePlus: seq<int>)

  /**
   * An actor's move state: its note values, the backed-up move (0 stands
   * for no backup, since the plugin treats a missing and a zero backup
   * alike) and the recorded modifiers.
   */
  datatype MoveRecord = MoveRecord(meta: MoveMeta, backup: int, nullified: Option<Nullified>)

  /** The actor's move before clamping: base tag (or the default) plus every modifier. */
  function RawMove(m: MoveMeta, defaultMove: int): int
  {
    (if m.baseTag.Some? then m.baseTag.value else defaultMove) + m.classPlus + Sum(m.statePlus) + Sum(m.equipPlus)
  }

  /** The actor's move points: the raw move clamped at 0. */
  function MoveOf(m: MoveMeta, defaultMove: int): (n: int)
    ensures n >= 0 && n >= RawMove(m, defaultMove)
    ensures n == 0 || n == RawMove(m, defaultMove)
  {
    Max(RawMove(m, defaultMove), 0)
  }

  function Zeros(n: nat): (z: seq<int>)
    ensures |z| == n
    ensures forall i :: 0 <= i < n ==> z[i] == 0
  {
    seq(n, _ => 0)
  }

  lemma {:induction false} SumZeros(n: nat)
    ensures Sum(Zeros(n)) == 0
  {
    if n > 0 {
      assert Zeros(n)[..n - 1] == Zeros(n - 1);
      SumZeros(n - 1);
    }
  }

  /**
   * As written: locks the actor's move at `temp` (at least 0): backs up the current
   * move when there is no backup yet, writes the temporary value into the
   * base tag and zeroes every modifier, recording the values it replaced.
   */
  function SetTemporary(r: MoveRecord, temp: int, defaultMove: int): MoveRecord
  {
    MoveRecord(
      MoveMeta(Some(Max(temp, 0)), 0, Zeros(|r.meta.statePlus|), Zeros(|r.meta.equipPlus|)),
      if r.backup == 0 then MoveOf(r.meta, defaultMove) else r.backup,
      Some(Nullified(r.meta.classPlus, r.meta.equipPlus, r.meta.statePlus)))
  }

  /**
   * As written: undoes a temporary move range when a backup exists: writes the backup
   * into the base tag, restores the recorded modifiers and drops both.
   */
  function Reset(r: MoveRecord): MoveRecord
  {
    if r.backup == 0 then r
    else
      var meta := if r.nullified.None? then r.meta.(baseTag := Some(r.backup))
                  else MoveMeta(Some(r.backup), r.nullified.value.classPlus,
                                r.nullified.value.statePlus, r.nullified.value.equipPlus);
      MoveRecord(meta, 0, None)
  }

  /** After locking, the actor has exactly the temporary move. */
  lemma SetTemporaryTakesEffect(r: MoveRecord, temp: int, defaultMove: int)
    ensures MoveOf(SetTemporary(r, temp, defaultMove).meta, defaultMove) == Max(temp, 0)
  {
    SumZeros(|r.meta.statePlus|);
    SumZeros(|r.meta.equipPlus|);
  }

  /** The first backup survives later locks until a reset. */
  lemma SetTemporaryKeepsBackup(r: MoveRecord, temp: int, defaultMove: int)
    ensures r.backup != 0 ==> SetTemporary(r, temp, defaultMove).backup == r.backup
    ensures r.backup == 0 ==> SetTemporary(r, temp, defaultMove).backup == MoveOf(r.meta, defaultMove)
  {
  }

  /** Without a backup a reset changes nothing; after one, a second reset changes nothing. */
  lemma ResetIdempotent(r: MoveRecord)
    ensures r.backup == 0 ==> Reset(r) == r
    ensures Reset(Reset(r)) == Reset(r)
    ensures r.backup != 0 ==> Reset(r).backup == 0 && Reset(r).nullified.None?
  {
  }

  /**
   * As written, locking and then resetting counts the modifiers twice:
   * the backup is the full move, and the modifiers are restored on top.
   */
  lemma ResetAfterSetOvercounts(r: MoveRecord, temp: int, defaultMove: int)
    requires r.backup == 0 && MoveOf(r.meta, defaultMove) != 0
    ensures MoveOf(Reset(SetTemporary(r, temp, defaultMove)).meta, defaultMove)
            == Max(MoveOf(r.meta, defaultMove) + r.meta.classPlus + Sum(r.meta.statePlus) + Sum(r.meta.equipPlus), 0)
  {
  }

  /** An actor with base 4 and a class bonus of 1 has 5 moves, and 6 after a lock and a reset. */
  lemma OvercountExample(r: MoveRecord, temp: int, defaultMove: int)
    requires r == MoveRecord(MoveMeta(Some(4), 1, [], []), 0, None)
    ensures MoveOf(r.meta, defaultMove) == 5
    ensures MoveOf(Reset(SetTemporary(r, temp, defaultMove)).meta, defaultMove) == 6
  {
    ResetAfterSetOvercounts(r, temp, defaultMove);
  }

  /** As written, a second lock before a reset records zeroed modifiers, so the reset loses them. */
  lemma SecondLockLosesModifiers(r: MoveRecord, t1: int, t2: int, defaultMove: int)
    ensures Reset(SetTemporary(SetTemporary(r, t1, defaultMove), t2, defaultMove)).meta.classPlus == 0
  {
  }

  /** Corrected lock: the saved note values are those before the first lock. */
  datatype RestoringRecord = RestoringRecord(meta: MoveMeta, saved: Option<MoveMeta>)

  function SetTemporaryRestoring(r: RestoringRecord, temp: int): RestoringRecord
  {
    RestoringRecord(
      MoveMeta(Some(Max(temp, 0)), 0, Zeros(|r.meta.statePlus|), Zeros(|r.meta.equipPlus|)),
      if r.saved.None? then Some(r.meta) else r.saved)
  }

  function ResetRestoring(r: RestoringRecord): RestoringRecord
  {
    if r.saved.None? then r else RestoringRecord(r.saved.value, None)
  }

  /** Corrected: any number of locks followed by a reset restores the actor exactly. */
  lemma ResetRestoringUndoesLocks(r: RestoringRecord, t1: int, t2: int, defaultMove: int)
    requires r.saved.None?
    ensures ResetRestoring(SetTemporaryRestoring(r, t1)) == r
    ensures ResetRestoring(SetTemporaryRestoring(SetTemporaryRestoring(r, t1), t2)) == r
    ensures MoveOf(SetTemporaryRestoring(r, t1).meta, defaultMove) == Max(t1, 0)
  {
    SumZeros(|r.meta.statePlus|);
    SumZeros(|r.meta.equipPlus|);
  }

  /** Resetting twice is resetting once. */
  lemma ResetRestoringIdempotent(r: RestoringRecord)
    ensures ResetRestoring(ResetRestoring(r)) == ResetRestoring(r)
  {
  }

  /**
   * An actor's move notes and the saved notes of a temporary move range,
   * updated in place. Locking and resetting follow the corrected
   * `SetTemporaryRestoring` and `ResetRestoring`.
   */
  class MoveActor {
    const defaultMove: int
    var baseTag: Option<int>
    var classPlus: int
    var statePlus: seq<int>
    var equipPlus: seq<int>
    var saved: Option<MoveMeta>

    function Record(): RestoringRecord
      reads this
    {
      RestoringRecord(MoveMeta(baseTag, classPlus, statePlus, equipPlus), saved)
    }

    constructor (defaultMove: int, meta: MoveMeta)
      ensures this.defaultMove == defaultMove
      ensures Record() == RestoringRecord(meta, None)
    {
      this.defaultMove := defaultMove;
      baseTag := meta.baseTag;
      classPlus := meta.classPlus;
      statePlus := meta.statePlus;
      equipPlus := meta.equipPlus;
      saved := None;
    }

    /** The actor's move points: base plus class, state and equipment modifiers, at least 0. */
    method SrpgMove() returns (n: int)
      ensures n == MoveOf(Record().meta, defaultMove)
    {
      n := if baseTag.Some? then baseTag.value else defaultMove;
      n := n + classPlus;
      var i := 0;
      while i < |statePlus|
        invariant 0 <= i <= |statePlus|
        invariant n == (if baseTag.Some? then baseTag.value else defaultMove) + classPlus + Sum(statePlus[..i])
      {
        assert statePlus[..i + 1][..i] == statePlus[..i];
        n := n + statePlus[i];
        i := i + 1;
      }
      assert statePlus[..i] == statePlus;
      var j := 0;
      while j < |equipPlus|
        invariant 0 <= j <= |equipPlus|
        invariant n == (if baseTag.Some? then baseTag.value else defaultMove) + classPlus + Sum(statePlus) + Sum(equipPlus[..j])
      {
        assert equipPlus[..j + 1][..j] == equipPlus[..j];
        n := n + equipPlus[j];
        j := j + 1;
      }
      assert equipPlus[..j] == equipPlus;
      n := Max(n, 0);
    }

    /** The move points left after walking from `orig` to `dest`. */
    method CalculateRemainingMoves(terrain: (int, int) -> int, orig: Option<Pos>, dest: Option<Pos>) returns (r: int)
      ensures r == RemainingMoves(MoveOf(Record().meta, defaultMove), WalkedDistance(terrain, orig, dest))
    {
      var maxMoves := SrpgMove();
      var distanceMoved := ActorMoveDistance(terrain, orig, dest);
      r := Max(maxMoves - distanceMoved, 0);
    }

    /** Locks the actor's move at `temp`, saving its notes when no lock is in force. */
    method SetTemporaryMoveRange(temp: int)
      modifies this
      ensures Record() == SetTemporaryRestoring(old(Record()), temp)
      ensures MoveOf(Record().meta, defaultMove) == Max(temp, 0)
    {
      if saved.None? {
        saved := Some(MoveMeta(baseTag, classPlus, statePlus, equipPlus));
      }
      baseTag := Some(Max(temp, 0));
      equipPlus := Zeros(|equipPlus|);
      statePlus := Zeros(|statePlus|);
      classPlus := 0;
      SumZeros(|statePlus|);
      SumZeros(|equipPlus|);
    }

    /** Undoes the temporary move range, when one is in force. */
    method ResetMoveRange()
      modifies this
      ensures Record() == ResetRestoring(old(Record()))
    {
      if saved.Some? {
        var m := saved.value;
        baseTag := m.baseTag;
        classPlus := m.classPlus;
        statePlus := m.statePlus;
        equipPlus := m.equipPlus;
        saved := None;
      }
    }
  }

  /** At turn end every party member's move range is reset (a member listed twice is reset once). */
  method ResetParty(party: seq<MoveActor>)
    modifies set a | a in party
    ensures forall a :: a in party ==> a.Record() == ResetRestoring(old(a.Record()))
  {
    var i := 0;
    while i < |party|
      invariant 0 <= i <= |party|
      invariant forall a :: a in party[..i] ==> a.Record() == ResetRestoring(old(a.Record()))
      invariant forall a :: a in party && a !in party[..i] ==> a.Record() == old(a.Record())
    {
      var a := party[i];
      ResetRestoringIdempotent(old(a.Record()));
      a.ResetMoveRange();
      assert party[..i + 1] == party[..i] + [a];
      i := i + 1;
    }
    assert party[..i] == party;
  }

  // ---------------------------------------------------------------------
  // Trigger gating
  // ---------------------------------------------------------------------

  datatype Team = ActorTeam | EnemyTeam

  predicate StartsWith(s: string, p: string)
  {
    |p| <= |s| && s[..|p|] == p
  }

  /** The team named by the leftmost `<TriggerTeam:Actor>` or `<TriggerTeam:Enemy>` in `note`, if any. */
  function TeamTag(note: string): Option<Team>
    decreases |note|
  {
    if |note| == 0 then None
    else if StartsWith(note, "<TriggerTeam:Actor>") then Some(ActorTeam)
    else if StartsWith(note, "<TriggerTeam:Enemy>") then Some(EnemyTeam)
    else TeamTag(note[1..])
  }

  /** A tag always ends in '>', so a text without '>' names no team. */
  lemma {:induction false} NoCloseNoTeam(note: string)
    requires '>' !in note
    ensures TeamTag(note) == None
    decreases |note|
  {
    if |note| > 0 {
      if |note| >= 19 {
        assert note[18] in note;
      }
      assert forall c :: c in note[1..] ==> c in note;
      NoCloseNoTeam(note[1..]);
    }
  }

  /** A tag at the start of the note is the one found. */
  lemma TeamTagAtStart(rest: string)
    ensures TeamTag("<TriggerTeam:Enemy>" + rest) == Some(EnemyTeam)
    ensures TeamTag("<TriggerTeam:Actor>" + rest) == Some(ActorTeam)
  {
    assert ("<TriggerTeam:Enemy>" + rest)[..19] == "<TriggerTeam:Enemy>";
    assert ("<TriggerTeam:Actor>" + rest)[..19] == "<TriggerTeam:Actor>";
  }

  /**
   * Whether a trap or floor whose team data is `data` fires for a battler:
   * always without data or without a team tag, otherwise only for the
   * named team.
   */
  function ShouldTriggerForTeam(data: Option<string>, isActor: bool): (r: bool)
    ensures !r <==> data.Some? && ((TeamTag(data.value) == Some(ActorTeam) && !isActor)
                                   || (TeamTag(data.value) == Some(EnemyTeam) && isActor))
  {
    if data.None? || |data.value| == 0 then true
    else
      match TeamTag(data.value)
      case None => true
      case Some(ActorTeam) => isActor
      case Some(EnemyTeam) => !isActor
  }

  /** The unit stepping on a tile: whether it is an actor, and whether it has a NoTrigger state. */
  datatype Battler = Battler(isActor: bool, noTrigger: bool)

  /** A `classId,level` pair as parsed; None where a part is not a number. */
  datatype Stats = Stats(classId: Option<int>, level: Option<int>)

  /** Stats are usable when present and both parts are non-zero numbers. */
  predicate StatsValid(s: Option<Stats>)
  {
    s.Some? && s.value.classId.Some? && s.value.classId.value != 0
    && s.value.level.Some? && s.value.level.value != 0
  }

  /**
   * A region's floor-damage tags: its `FloorSkill` value, its `FloorStats`
   * value and whether `FloorTriggerOnNoTrigger` names it.
   */
  datatype FloorRegion = FloorRegion(skill: Option<string>, stats: Option<Stats>, noTriggerOnly: bool)

  datatype FloorResult =
    | AlreadyApplied | NoBattler | NeedsNoTrigger | ExcludesNoTrigger
    | WrongTeam | InvalidStats | NoSkill | FloorApplied

  /** Whether floor damage on `tile` applies, or why it is skipped, checked in the plugin's order. */
  function FloorOutcome(tile: Pos, lastFloor: Option<Pos>, battler: Option<Battler>, region: FloorRegion): (r: FloorResult)
    ensures r == FloorApplied <==>
      lastFloor != Some(tile) && battler.Some? && region.noTriggerOnly == battler.value.noTrigger
      && ShouldTriggerForTeam(region.skill, battler.value.isActor) && StatsValid(region.stats) && region.skill.Some?
    ensures lastFloor == Some(tile) ==> r == AlreadyApplied
  {
    if lastFloor == Some(tile) then AlreadyApplied
    else if battler.None? then NoBattler
    else if region.noTriggerOnly && !battler.value.noTrigger then NeedsNoTrigger
    else if !region.noTriggerOnly && battler.value.noTrigger then ExcludesNoTrigger
    else if !ShouldTriggerForTeam(region.skill, battler.value.isActor) then WrongTeam
    else if !StatsValid(region.stats) then InvalidStats
    else if region.skill.None? then NoSkill
    else FloorApplied
  }

  /**
   * The team gate of floor damage reads the region's `FloorSkill` value.
   * The tag's lazy capture takes at least one character and stops before
   * the next '>', so only the first character can be a '>'; such a value
   * never names a team, so floor damage is never skipped for its team.
   */
  lemma FloorTeamGateNeverSkips(tile: Pos, lastFloor: Option<Pos>, battler: Option<Battler>, region: FloorRegion)
    requires region.skill.Some? ==> |region.skill.value| > 0 && '>' !in region.skill.value[1..]
    ensures FloorOutcome(tile, lastFloor, battler, region) != WrongTeam
  {
    if region.skill.Some? {
      var v := region.skill.value;
      NoCloseNoTeam(v[1..]);
      if |v| >= 19 {
        // Either tag would put its closing '>' at index 18.
        assert v[1..][17] == v[18];
        assert v[..19][18] == v[18];
      }
    }
  }

  /** A trap event: its id, tile, `TrapEvent` skill, note, the NoTrigger-only lookup for it, and its stats. */
  datatype Trap = Trap(id: nat, pos: Pos, skill: Option<string>, note: string, noTriggerOnly: bool, stats: Option<Stats>)

  /** Whether a trap applies to `battler` given the last trap applied. */
  predicate TrapFires(t: Trap, battler: Option<Battler>, lastTrap: Option<nat>)
  {
    battler.Some? && ShouldTriggerForTeam(Some(t.note), battler.value.isActor)
    && t.noTriggerOnly == battler.value.noTrigger
    && lastTrap != Some(t.id) && StatsValid(t.stats)
  }

  /** Traps triggered on `tile`, in event order, and the last trap applied afterwards. */
  function TrapRun(traps: seq<Trap>, tile: Pos, battler: Option<Battler>, lastTrap: Option<nat>): (seq<nat>, Option<nat>)
  {
    if |traps| == 0 then ([], lastTrap)
    else
      var (fired, last) := TrapRun(traps[..|traps| - 1], tile, battler, lastTrap);
      var t := traps[|traps| - 1];
      if t.pos == tile && t.skill.Some? && TrapFires(t, battler, last) then (fired + [t.id], Some(t.id))
      else (fired, last)
  }

  /**
   * Every trap fired lies on the tile and carries a skill, no trap fires
   * twice in a row (nor right after it was last applied), and the last
   * trap applied is the last one fired.
   */
  lemma {:induction false} TrapRunProperties(traps: seq<Trap>, tile: Pos, battler: Option<Battler>, lastTrap: Option<nat>)
    ensures var fired := TrapRun(traps, tile, battler, lastTrap).0;
      forall i :: 0 <= i < |fired| ==> exists t :: t in traps && t.id == fired[i] && t.pos == tile && t.skill.Some?
    ensures var fired := TrapRun(traps, tile, battler, lastTrap).0;
      |fired| > 0 ==> Some(fired[0]) != lastTrap
    ensures var fired := TrapRun(traps, tile, battler, lastTrap).0;
      forall i, j :: 0 <= i && j == i + 1 && j < |fired| ==> fired[i] != fired[j]
    ensures var (fired, last) := TrapRun(traps, tile, battler, lastTrap);
      last == (if |fired| == 0 then lastTrap else Some(fired[|fired| - 1]))
  {
    if |traps| > 0 {
      var init := traps[..|traps| - 1];
      TrapRunProperties(init, tile, battler, lastTrap);
      var fired := TrapRun(init, tile, battler, lastTrap).0;
      var last := TrapRun(init, tile, battler, lastTrap).1;
      var t := traps[|traps| - 1];
      assert forall u :: u in init ==> u in traps;
      if t.pos == tile && t.skill.Some? && TrapFires(t, battler, last) {
        var fired' := fired + [t.id];
        forall i | 0 <= i < |fired'|
          ensures exists u :: u in traps && u.id == fired'[i] && u.pos == tile && u.skill.Some?
        {
          if i == |fired| {
            assert t in traps;
          } else {
            assert fired'[i] == fired[i];
          }
        }
        forall i, j | 0 <= i && j == i + 1 && j < |fired'|
          ensures fired'[i] != fired'[j]
        {
          if j == |fired| {
            assert fired'[i] == fired[i];
          } else {
            assert fired'[i] == fired[i] && fired'[j] == fired[j];
          }
        }
        assert TrapRun(traps, tile, battler, lastTrap) == (fired', Some(t.id));
      } else {
        assert TrapRun(traps, tile, battler, lastTrap) == (fired, last);
      }
    }
  }

  // ---------------------------------------------------------------------
  // Trackers
  // ---------------------------------------------------------------------

  /** The plugin's movement trackers, updated as the active unit walks. */
  class Trackers {
    var lastTriggeredTrap: Option<nat>
    var lastTriggeredFloorTile: Option<Pos>
    var lastTileKey: Option<Pos>
    var startingPosition: Option<Pos>
    var alreadyCheckedTile: bool

    /** A tile is marked checked only once it is recorded as the last tile. */
    predicate Valid()
      reads this
    {
      alreadyCheckedTile ==> lastTileKey.Some?
    }

    constructor ()
      ensures Valid()
      ensures lastTriggeredTrap == None && lastTriggeredFloorTile == None && lastTileKey == None
      ensures startingPosition == None && !alreadyCheckedTile
    {
      lastTriggeredTrap := None;
      lastTriggeredFloorTile := None;
      lastTileKey := None;
      startingPosition := None;
      alreadyCheckedTile := false;
    }

    /** Applies floor damage on `tile` when its gates allow, remembering the tile. */
    method TriggerFloorDamage(tile: Pos, battler: Option<Battler>, region: FloorRegion) returns (applied: bool)
      modifies this
      ensures applied <==> FloorOutcome(tile, old(lastTriggeredFloorTile), battler, region) == FloorApplied
      ensures lastTriggeredFloorTile == if applied then Some(tile) else old(lastTriggeredFloorTile)
      ensures lastTriggeredTrap == old(lastTriggeredTrap) && lastTileKey == old(lastTileKey)
      ensures startingPosition == old(startingPosition) && alreadyCheckedTile == old(alreadyCheckedTile)
    {
      var outcome := FloorOutcome(tile, lastTriggeredFloorTile, battler, region);
      applied := outcome == FloorApplied;
      if applied {
        lastTriggeredFloorTile := Some(tile);
      }
    }

    /** Applies the trap when its gates allow, remembering it as the last trap. */
    method TriggerTrap(t: Trap, battler: Option<Battler>) returns (applied: bool)
      modifies this
      ensures applied <==> TrapFires(t, battler, old(lastTriggeredTrap))
      ensures lastTriggeredTrap == if applied then Some(t.id) else old(lastTriggeredTrap)
      ensures lastTriggeredFloorTile == old(lastTriggeredFloorTile) && lastTileKey == old(lastTileKey)
      ensures startingPosition == old(startingPosition) && alreadyCheckedTile == old(alreadyCheckedTile)
    {
      if battler.None? {
        return false;
      }
      if !ShouldTriggerForTeam(Some(t.note), battler.value.isActor) || t.noTriggerOnly != battler.value.noTrigger {
        return false;
      }
      if lastTriggeredTrap == Some(t.id) {
        return false;
      }
      if !StatsValid(t.stats) {
        return false;
      }
      lastTriggeredTrap := Some(t.id);
      return true;
    }

    /**
     * Handles the active unit standing on `tile`: nothing on the starting
     * tile or on a tile already checked; otherwise the tile is recorded and
     * checked, its floor damage and the traps on it are triggered.
     */
    method TrackMovement(tile: Pos, battler: Option<Battler>, region: FloorRegion, traps: seq<Trap>)
      returns (floorApplied: bool, trapsFired: seq<nat>)
      requires Valid()
      modifies this
      ensures Valid()
      ensures startingPosition == old(startingPosition)
      ensures old(startingPosition) == Some(tile) || (old(alreadyCheckedTile) && old(lastTileKey) == Some(tile)) ==>
        !floorApplied && trapsFired == []
        && lastTriggeredTrap == old(lastTriggeredTrap) && lastTriggeredFloorTile == old(lastTriggeredFloorTile)
        && lastTileKey == old(lastTileKey) && alreadyCheckedTile == old(alreadyCheckedTile)
      ensures !(old(startingPosition) == Some(tile) || (old(alreadyCheckedTile) && old(lastTileKey) == Some(tile))) ==>
        && lastTileKey == Some(tile) && alreadyCheckedTile
        && floorApplied == (region.skill.Some? && FloorOutcome(tile, old(lastTriggeredFloorTile), battler, region) == FloorApplied)
        && lastTriggeredFloorTile == (if floorApplied then Some(tile) else old(lastTriggeredFloorTile))
        && (trapsFired, lastTriggeredTrap) == TrapRun(traps, tile, battler, old(lastTriggeredTrap))
    {
      floorApplied := false;
      trapsFired := [];
      if startingPosition == Some(tile) || (alreadyCheckedTile && lastTileKey == Some(tile)) {
        return;
      }
      alreadyCheckedTile := true;
      lastTileKey := Some(tile);
      if region.skill.Some? {
        floorApplied := TriggerFloorDamage(tile, battler, region);
      }
      var i := 0;
      while i < |traps|
        invariant 0 <= i <= |traps|
        invariant (trapsFired, lastTriggeredTrap) == TrapRun(traps[..i], tile, battler, old(lastTriggeredTrap))
        invariant lastTileKey == Some(tile) && alreadyCheckedTile && startingPosition == old(startingPosition)
        invariant lastTriggeredFloorTile == (if floorApplied then Some(tile) else old(lastTriggeredFloorTile))
      {
        var t := traps[i];
        assert traps[..i + 1][..i] == traps[..i];
        if t.pos == tile && t.skill.Some? {
          var applied := TriggerTrap(t, battler);
          if applied {
            trapsFired := trapsFired + [t.id];
          }
        }
        i := i + 1;
      }
      assert traps[..i] == traps;
    }

    /**
     * One map update. With an active unit at `active`: its first position
     * becomes the starting position, a change of tile clears the checked
     * flag, and the tile is tracked unless it is the starting tile or was
     * already checked -- so a unit that comes back to the last tracked tile
     * after passing over its starting tile is tracked there again. Without
     * an active unit, every tracker except the last tile is reset.
     */
    method Update(active: Option<Pos>, battler: Option<Battler>, region: FloorRegion, traps: seq<Trap>)
      returns (floorApplied: bool, trapsFired: seq<nat>)
      requires Valid()
      modifies this
      ensures Valid()
      ensures active.None? ==>
        && startingPosition == None && lastTriggeredTrap == None && lastTriggeredFloorTile == None
        && !alreadyCheckedTile && lastTileKey == old(lastTileKey) && !floorApplied && trapsFired == []
      ensures active.Some? ==> startingPosition == (if old(startingPosition).None? then active else old(startingPosition))
      ensures active.Some? && (startingPosition == active || (old(alreadyCheckedTile) && old(lastTileKey) == active)) ==>
        && !floorApplied && trapsFired == []
        && lastTriggeredTrap == old(lastTriggeredTrap) && lastTriggeredFloorTile == old(lastTriggeredFloorTile)
        && lastTileKey == old(lastTileKey) && alreadyCheckedTile == (old(alreadyCheckedTile) && old(lastTileKey) == active)
      ensures active.Some? && !(startingPosition == active || (old(alreadyCheckedTile) && old(lastTileKey) == active)) ==>
        && lastTileKey == active && alreadyCheckedTile
        && floorApplied == (region.skill.Some? && FloorOutcome(active.value, old(lastTriggeredFloorTile), battler, region) == FloorApplied)
        && lastTriggeredFloorTile == (if floorApplied then active else old(lastTriggeredFloorTile))
        && (trapsFired, lastTriggeredTrap) == TrapRun(traps, active.value, battler, old(lastTriggeredTrap))
    {
      if active.Some? {
        var tile := active.value;
        if startingPosition.None? {
          startingPosition := Some(tile);
        }
        if lastTileKey != Some(tile) {
          alreadyCheckedTile := false;
        }
        floorApplied, trapsFired := TrackMovement(tile, battler, region, traps);
      } else {
        startingPosition := None;
        lastTriggeredTrap := None;
        lastTriggeredFloorTile := None;
        alreadyCheckedTile := false;
        floorApplied := false;
        trapsFired := [];
      }
    }
  }

  /** A unit that stays on its tile is handled once: the next update there triggers nothing. */
  method StandingStillTriggersOnce(t: Trackers, tile: Pos, battler: Option<Battler>, region: FloorRegion, traps: seq<Trap>)
    returns (second: bool, secondTraps: seq<nat>)
    requires t.Valid()
    modifies t
    ensures !second && secondTraps == []
  {
    var first, firstTraps := t.Update(Some(tile), battler, region, traps);
    second, secondTraps := t.Update(Some(tile), battler, region, traps);
  }

  /**
   * A unit that starts on `s`, steps to `a`, back to `s` and to `a` again is
   * tracked on `a` the second time too: passing over the starting tile
   * clears the checked flag, so the traps on `a` run again.
   */
  method ReentryIsTrackedAgain(t: Trackers, s: Pos, a: Pos, battler: Option<Battler>, region: FloorRegion, traps: seq<Trap>)
    returns (ghost before: Option<nat>, fired: seq<nat>)
    requires t.Valid() && t.startingPosition == None && s != a
    modifies t
    ensures (fired, t.lastTriggeredTrap) == TrapRun(traps, a, battler, before)
    ensures t.lastTileKey == Some(a) && t.alreadyCheckedTile
  {
    var f1, r1 := t.Update(Some(s), battler, region, traps);
    var f2, r2 := t.Update(Some(a), battler, region, traps);
    var f3, r3 := t.Update(Some(s), battler, region, traps);
    before := t.lastTriggeredTrap;
    var f4;
    f4, fired := t.Update(Some(a), battler, region, traps);
  }
}

=== FILE: range_mastery.dfy ===
/**
 * Skill and area ranges of Srpg_Range_Mastery: a skill's base range (or
 * area) is raised by a fixed amount once the user's mastery of the skill
 * reaches a required level, and a range tagged -1 is taken from the
 * unit's weapon plus the range bonuses of its states (and, for actors,
 * armors). Note tags are given already parsed.
 */
module RangeMastery {
  import opened Common

  /** A mastery adjustment: the required mastery level and the increase it grants. */
  datatype Modifier = Modifier(req: int, inc: int)

  /** The range-related note tags of a skill. */
  datatype SkillTags = SkillTags(
    id: nat,
    srpgRange: Option<int>,
    modifySkillRange: Option<Modifier>,
    srpgAreaRange: Option<int>,
    modifySkillAreaRange: Option<Modifier>,
    srpgAreaMinRange: Option<int>)

  /** An actor's mastery of a skill: its recorded level, 0 when none is recorded. */
  function MasteryLevel(levels: map<nat, int>, skillId: nat): (r: int)
    ensures skillId !in levels ==> r == 0
    ensures skillId in levels ==> r == levels[skillId]
  {
    if skillId in levels then levels[skillId] else 0
  }

  /** A base value raised by the modifier's increase when the mastery reaches its requirement. */
  function Adjusted(base: int, m: Option<Modifier>, mastery: int): int
  {
    if m.Some? && mastery >= m.value.req then base + m.value.inc else base
  }

  /** The skill's range: its range tag (1 when untagged), adjusted by mastery. */
  function SkillRange(skill: SkillTags, mastery: int): (r: int)
    ensures skill.srpgRange.None? && skill.modifySkillRange.None? ==> r == 1
  {
    Adjusted(if skill.srpgRange.Some? then skill.srpgRange.value else 1, skill.modifySkillRange, mastery)
  }

  /** The skill's area: its area tag (0 when untagged), adjusted by mastery. */
  function SkillAreaRange(skill: SkillTags, mastery: int): (r: int)
    ensures skill.srpgAreaRange.None? && skill.modifySkillAreaRange.None? ==> r == 0
  {
    Adjusted(if skill.srpgAreaRange.Some? then skill.srpgAreaRange.value else 0, skill.modifySkillAreaRange, mastery)
  }

  /** The increase is granted exactly from the required level on. */
  lemma AdjustedThreshold(base: int, m: Modifier, mastery: int)
    ensures mastery >= m.req ==> Adjusted(base, Some(m), mastery) == base + m.inc
    ensures mastery < m.req ==> Adjusted(base, Some(m), mastery) == base
  {
  }

  /** With a non-negative increase, more mastery never shortens a range or an area. */
  lemma RangesMonotoneInMastery(skill: SkillTags, m1: int, m2: int)
    requires m1 <= m2
    requires skill.modifySkillRange.Some? ==> skill.modifySkillRange.value.inc >= 0
    requires skill.modifySkillAreaRange.Some? ==> skill.modifySkillAreaRange.value.inc >= 0
    ensures SkillRange(skill, m1) <= SkillRange(skill, m2)
    ensures SkillAreaRange(skill, m1) <= SkillAreaRange(skill, m2)
  {
  }

  /** The plugin's own example: range 3 (+1 from mastery 4), area 2 (+2 from mastery 3). */
  lemma HelpExample()
    ensures var s := SkillTags(1, Some(3), Some(Modifier(4, 1)), Some(2), Some(Modifier(3, 2)), None);
            && SkillRange(s, 3) == 3 && SkillRange(s, 4) == 4
            && SkillAreaRange(s, 2) == 2 && SkillAreaRange(s, 3) == 4
  {
  }

  /** Sum of the range bonuses present in a list of states or armors. */
  function BonusSum(s: seq<Option<int>>): int
  {
    if |s| == 0 then 0
    else BonusSum(s[..|s| - 1]) + (if s[|s| - 1].Some? then s[|s| - 1].value else 0)
  }

  lemma {:induction false} BonusSumAppend(a: seq<Option<int>>, b: seq<Option<int>>)
    ensures BonusSum(a + b) == BonusSum(a) + BonusSum(b)
    decreases |b|
  {
    if |b| == 0 {
      assert a + b == a;
    } else {
      var b' := b[..|b| - 1];
      assert (a + b)[..|a + b| - 1] == a + b';
      BonusSumAppend(a, b');
    }
  }

  /** A weapon-ranged skill: the skill's range tag is -1. */
  predicate WeaponRanged(skill: SkillTags)
  {
    skill.srpgRange == Some(-1)
  }

  /**
   * An actor's range for `skill` (absent: 1). For a weapon-ranged skill
   * and an actor holding weapons, the first weapon's range tag replaces the
   * computed range when present, and every state and armor bonus is added.
   */
  function ActorRange(skill: Option<SkillTags>, levels: map<nat, int>, weapons: seq<Option<int>>,
                      states: seq<Option<int>>, armors: seq<Option<int>>): (r: int)
    ensures skill.None? ==> r == 1
    ensures skill.Some? && !(WeaponRanged(skill.value) && |weapons| > 0) ==>
      r == SkillRange(skill.value, MasteryLevel(levels, skill.value.id))
  {
    if skill.None? then 1
    else
      var r := SkillRange(skill.value, MasteryLevel(levels, skill.value.id));
      if WeaponRanged(skill.value) && |weapons| > 0 then
        (if weapons[0].Some? then weapons[0].value else r) + BonusSum(states) + BonusSum(armors)
      else r
  }

  /** For a weapon-ranged skill, each extra state bonus adds exactly its amount to an armed actor's range. */
  lemma ActorStateBonusAdds(skill: SkillTags, levels: map<nat, int>, weapons: seq<Option<int>>,
                            states: seq<Option<int>>, armors: seq<Option<int>>, b: int)
    requires WeaponRanged(skill) && |weapons| > 0
    ensures ActorRange(Some(skill), levels, weapons, states + [Some(b)], armors)
            == ActorRange(Some(skill), levels, weapons, states, armors) + b
  {
    BonusSumAppend(states, [Some(b)]);
    assert BonusSum([Some(b)]) == b by {
      assert [Some(b)][..0] == [];
    }
  }

  /**
   * An enemy's range for `skill` (absent: 1), or None where the plugin
   * computes no number. For a weapon-ranged skill: an armed enemy takes its
   * database weapon's range tag when present (`weaponTag`), an unarmed one
   * its own range tag, and every state bonus is added. An unarmed enemy
   * without a range tag gets no number at all.
   */
  function EnemyRange(skill: Option<SkillTags>, mastery: int, hasNoWeapons: bool, weaponTag: Option<int>,
                      enemyTag: Option<int>, states: seq<Option<int>>): (r: Option<int>)
    ensures skill.None? ==> r == Some(1)
    ensures skill.Some? && !WeaponRanged(skill.value) ==> r == Some(SkillRange(skill.value, mastery))
    ensures r.None? <==> skill.Some? && WeaponRanged(skill.value) && hasNoWeapons && enemyTag.None?
  {
    if skill.None? then Some(1)
    else
      var r := SkillRange(skill.value, mastery);
      if !WeaponRanged(skill.value) then Some(r)
      else if !hasNoWeapons then
        Some((if weaponTag.Some? then weaponTag.value else r) + BonusSum(states))
      else if enemyTag.Some? then Some(enemyTag.value + BonusSum(states))
      else None
  }

  /** Adds the bonuses present in `s` to `range`, one entry at a time. */
  method AddBonuses(range: int, s: seq<Option<int>>) returns (r: int)
    ensures r == range + BonusSum(s)
  {
    r := range;
    var i := 0;
    while i < |s|
      invariant 0 <= i <= |s|
      invariant r == range + BonusSum(s[..i])
    {
      assert s[..i + 1][..i] == s[..i];
      if s[i].Some? {
        r := r + s[i].value;
      }
      i := i + 1;
    }
    assert s[..|s|] == s;
  }

  /** The actor's range for `skill`, computed as the plugin does. */
  method ActorSkillRange(skill: Option<SkillTags>, levels: map<nat, int>, weapons: seq<Option<int>>,
                         states: seq<Option<int>>, armors: seq<Option<int>>) returns (range: int)
    ensures range == ActorRange(skill, levels, weapons, states, armors)
  {
    if skill.None? {
      return 1;
    }
    var s := skill.value;
    range := SkillRange(s, MasteryLevel(levels, s.id));
    if s.srpgRange == Some(-1) {
      if |weapons| > 0 {
        var weapon := weapons[0];
        if weapon.Some? {
          range := weapon.value;
        }
        range := AddBonuses(range, states);
        range := AddBonuses(range, armors);
      }
    }
  }

  /** The enemy's range for `skill`, computed as the plugin does. */
  method EnemySkillRange(skill: Option<SkillTags>, mastery: int, hasNoWeapons: bool, weaponTag: Option<int>,
                         enemyTag: Option<int>, states: seq<Option<int>>) returns (range: Option<int>)
    ensures range == EnemyRange(skill, mastery, hasNoWeapons, weaponTag, enemyTag, states)
  {
    if skill.None? {
      return Some(1);
    }
    var s := skill.value;
    var r := SkillRange(s, mastery);
    if s.srpgRange == Some(-1) {
      if !hasNoWeapons {
        if weaponTag.Some? {
          r := weaponTag.value;
        }
      } else {
        if enemyTag.None? {
          return None;
        }
        r := enemyTag.value;
      }
      r := AddBonuses(r, states);
    }
    return Some(r);
  }

  /** A unit's area for `skill` (absent: 0); actors and enemies agree. */
  function UnitAreaRange(skill: Option<SkillTags>, mastery: int): (r: int)
    ensures skill.None? ==> r == 0
  {
    if skill.None? then 0 else SkillAreaRange(skill.value, mastery)
  }

  /** The action's area: the mastery-adjusted area of its item, 0 without one. */
  function ActionArea(item: Option<SkillTags>, levels: map<nat, int>): (r: int)
    ensures item.None? ==> r == 0
    ensures item.Some? ==> r == UnitAreaRange(item, MasteryLevel(levels, item.value.id))
  {
    if item.Some? then SkillAreaRange(item.value, MasteryLevel(levels, item.value.id)) else 0
  }

  /** The action's minimum area: its tag, with an absent or zero tag giving 0. */
  function ActionMinArea(item: Option<SkillTags>): (r: int)
    ensures item.None? || item.value.srpgAreaMinRange.None? ==> r == 0
    ensures item.Some? && item.value.srpgAreaMinRange.Some? ==> r == item.value.srpgAreaMinRange.value
  {
    if item.Some? && item.value.srpgAreaMinRange.Some? then item.value.srpgAreaMinRange.value else 0
  }
}
